=== FILE: README.md ===
# MGSS Studio region editor — a Dafny model

MGSS Studio is a browser page for drawing regions over a background image
and exporting them as an SVG for Power BI's Synoptic Panel. There are two
editors: the first page (`app.js` with `svgExport.js`) and the v4 page
(`v4/app.js`, `v4/svgExport.js`, `v4/undoRedo.js`). This project models their
shared core as pure Dafny functions over immutable data:

- the undo/redo history of whole-scene snapshots (`UndoHistory`);
- the snapshot of a scene and the restore from one (`Snapshots`);
- the regions Map, kept in insertion order as a sequence of regions keyed
  by id (`Regions`), and the `Area_<n>` id generator (`RegionIds`);
- how a region becomes markup: `polygon` with a `points` list or `path`
  with a `d` string (`Render`);
- the nearest-edge search, vertex insertion and removal, and the edge
  marker (`Geometry`, `Contour`, `EdgePreview`);
- `escapeXml` and `buildCleanSVGFragment` in both dialects (`XmlEscape`,
  `Markup`, `SvgExport`), and the export buttons that feed them
  (`RegionExport`);
- the drawing and editing state machine: one function per user action
  (`Editor`), its invariant and undo laws (`EditorLaws`), and the handlers
  as written where they go wrong (`EditorFindings`).

JavaScript values that reach the exporter are modelled as `JsValue`:
strings, numbers carried by their JavaScript text, booleans, `null` and
`undefined`, with JavaScript truthiness. `Math.round` is `floor(x + 0.5)`
over the reals. Distances are compared squared, with no square root. The
page's DOM is replaced by the state it holds:

- `document.getElementById` is the set of ids the regions' elements carry,
  plus those of the background image and the page's other elements
  (`pageIds`, a parameter).
- A region's element loses its id when `updateRegionElement` swaps it
  between `polygon` and `path`. The `tagged` field of a region records
  whether its element still carries the id.
- The canvas size and the default colour and opacity inputs are
  parameters.

## Model

| member | source | states |
|---|---|---|
| UndoHistory.Capture | v4/undoRedo.js:10-16 | entries after the cursor are dropped, the snapshot is pushed, and the cursor lands on it; everything up to the old cursor is kept |
| UndoHistory.Undo | v4/undoRedo.js:17-24 | a snapshot is returned exactly when one precedes the cursor, and it is that snapshot; otherwise the history is unchanged and the result is null |
| UndoHistory.Redo | v4/undoRedo.js:25-32 | a snapshot is returned exactly when one follows the cursor, and it is that snapshot; otherwise nothing changes |
| UndoHistory.GetCurrent | v4/undoRedo.js:33-36 | null exactly for an empty stack, otherwise the snapshot under the cursor |
| UndoHistory.Clear | v4/undoRedo.js:37-39 | the cleared history is valid and has no current snapshot |
| UndoHistory.CaptureThenCurrent | v4/undoRedo.js:10-16 | a captured snapshot becomes current and leaves nothing to redo |
| UndoHistory.CaptureThenUndo | v4/undoRedo.js:10-24 | undo right after a capture returns what was current before the capture |
| UndoHistory.RedoAfterUndo | v4/undoRedo.js:17-32 | redo after a successful undo restores the history and returns the snapshot that was current |
| UndoHistory.UndoAfterRedo | v4/undoRedo.js:17-32 | undo after a successful redo restores the history and returns the snapshot that was current |
| UndoHistory.UndoDepth | v4/undoRedo.js:17-24 | from cursor position i exactly i undos succeed, and the next one returns null |
| UndoHistory.BranchDropsRedo | v4/undoRedo.js:10-32 | capture A, capture B, undo, capture C leaves the stack [A, C] with nothing to redo |
| UndoHistory.FirstCaptureNotUndoable | v4/undoRedo.js:17-24 | the first snapshot of an empty history cannot be undone |
| XmlEscape.EscapeXml | svgExport.js:51-57 | a falsy value becomes ""; the result is the per-character escape of the value's string form and contains no `<`, `>` or `"` |
| XmlEscape.EscapePassesPerChar | v4/svgExport.js:48-54 | the four global replacements in order equal escaping each character on its own, so `&` is never escaped twice |
| XmlEscape.UnescapeEscape | svgExport.js:51-57 | escaping loses nothing: decoding the four entities gives the text back |
| XmlEscape.EscapeFalsy | svgExport.js:52 | `0`, `null`, `undefined` and `""` all export as empty text |
| XmlEscape.EscapeApostrophe | v4/svgExport.js:48-54 | an apostrophe is left as it is |
| SvgExport.BuildV3 | svgExport.js:6-49 | the document is the root, then the background when the image has an href, then each item's element in input order, then `</svg>` |
| SvgExport.BuildV4 | v4/svgExport.js:5-45 | the same layout with the v4 root (with the xlink namespace) and the v4 background |
| SvgExport.TagsV3 | svgExport.js:6-49 | when the unescaped values hold no `<`, the document's tags are `svg`, `image` if present, one tag per polygon/path item in order, and `/svg` |
| SvgExport.TagsV4 | v4/svgExport.js:5-45 | the same for the v4 dialect, whose background reference is escaped |
| SvgExport.V3HrefNotEscaped | svgExport.js:15-21 | the first dialect inserts the href raw, so the href `<x>` adds an element `x` after the `image` |
| SvgExport.ShapesMarkupAppend | svgExport.js:25-45 | the items' elements come in input order: the markup of a concatenation is the concatenation of the markups |
| SvgExport.ShapeElementTags | svgExport.js:25-45 | when the two raw numbers hold no `<`, a `polygon` or `path` item gives exactly one element with its tag and any other item gives nothing |
| SvgExport.ShapeElementReadBack | svgExport.js:26-44 | the id, the `points` or `d`, the fill and the stroke are escaped: each reads back, up to its closing quote and unescaped, as the item's value (empty for a falsy one) |
| SvgExport.StyleAttrsSafe | svgExport.js:30-33 | the escaped colours never hold `<`, so the style text is free of `<` whenever the two raw numbers are |
| SvgExport.OpacityNotEscaped | svgExport.js:31 | `fill-opacity` is inserted raw: the opacity `<x>` adds an element `x` inside the shape's |
| SvgExport.BackgroundV3Tags | svgExport.js:15-22 | with the sizes and the href free of `<`, the first dialect's background is one `image` element |
| SvgExport.BackgroundV4Tags | v4/svgExport.js:12-18 | with the image's sizes free of `<`, the v4 background is one `image` element whatever its href |
| SvgExport.BackgroundV4ReadBack | v4/svgExport.js:17 | the v4 `xlink:href` is escaped and reads back as the href given |
| Render.ElementTag | app.js:282-305 | a region is drawn as a `path` exactly when some vertex is curved, else as a `polygon` |
| Render.PointsAttrReadBack | app.js:306 | splitting the `points` list at spaces and then at commas gives back each vertex's coordinates in order |
| Render.PointsAttrInjective | app.js:306 | two contours with the same `points` list have the same vertex coordinates |
| Render.PointsAttrSplit | app.js:306 | splitting the `points` list at spaces gives exactly one `x,y` pair per vertex, in vertex order |
| Render.PathDCommands | app.js:290-297 | the `d` string splits into its tokens, and its commands are `M`, then `Q` or `L` per later vertex, then `Z` |
| Render.PathDIsJoin | v4/app.js:572 | the `d` string is the words `M x y`, then `Q cx cy x y` or `L x y` per later vertex, then `Z`, separated by single spaces |
| Text.Trim | app.js:387 | the trimmed id is a slice of the input with only whitespace cut at either end, and it neither starts nor ends with whitespace |
| Text.IntToStringRoundTrip | app.js:306 | a coordinate's decimal text reads back as the same integer |
| Text.TrimIdempotent | app.js:387 | trimming a trimmed id changes nothing |
| Regions.GetPut | app.js:249 | after `regions.set(r.id, r)` the key r.id maps to r and every other key is unchanged |
| Regions.PutLength | app.js:249 | `set` adds an entry exactly for a new key; an existing key keeps its place |
| Regions.PutUnique | app.js:249 | `set` keeps the keys distinct |
| Regions.GetDelete | app.js:509-516 | after `regions.delete(id)` the key is gone and every other key is unchanged |
| Regions.DeleteLength | app.js:509-516 | deleting a present key removes exactly one entry |
| Regions.DeleteUnique | app.js:509-516 | deleting keeps the keys distinct |
| Regions.Get | app.js:138 | `get` finds a region exactly for a present key, and the region found carries that key |
| Regions.Put | app.js:249 | `set` with a present key keeps the keys and their order; with a new key it appends the region at the end |
| Regions.Delete | app.js:509-516 | `delete` removes the key, keeps every other key, and never adds an entry |
| RegionIds.GenerateId | app.js:317-321 | the id is `Area_<n>` for the first n from the counter whose id is not taken; the counter moves past it, and every id skipped was taken |
| RegionIds.GenerateIdIgnoresOtherIds | app.js:317-321 | only ids of the form `Area_<n>` can change which id is handed out |
| RegionIds.AreaIdInjective | app.js:319 | different counters give different ids |
| Geometry.Round | app.js:216 | `Math.round` gives the integer within half a unit below or at the value |
| Geometry.ProjectPointToSegment | app.js:490-498 | the projection lies on the segment, its distance is the distance to the pointer, and a zero-length segment projects to its start |
| Geometry.ProjectionIsClosest | app.js:490-498 | no point of the segment is nearer the pointer than the projection |
| Geometry.FindClosestEdge | app.js:459-468 | no edge for an empty contour; otherwise the first edge of least distance, with index i+1 for the edge from vertex i |
| Geometry.ClosestEdgeIsClosestOnContour | app.js:459-468 | no point on any edge of the closed contour is nearer the pointer than the edge found |
| Contour.StraightAt | app.js:484 | the inserted vertex is straight and sits at the rounded point |
| Contour.InsertVertexNear | app.js:481-487 | a vertex is inserted exactly when some edge is within the radius; it goes at the closest edge's index, and removing it gives the old contour back |
| Contour.InsertedAtNearestPoint | app.js:481-487 | before rounding, the inserted vertex is the contour's point nearest the pointer |
| Contour.RemoveVertex | app.js:450-456 | a contour of at most three vertices is refused; otherwise the vertex is removed, putting it back restores the contour, and an index past the end removes nothing |
| Contour.RemoveInsert | app.js:481-487 | removing a vertex just spliced in gives the original list |
| EdgePreview.Preview | v4/app.js:412-417 | the marker is left alone for an empty contour, shown exactly when some edge is within the radius (at the closest point), and hidden otherwise |
| EdgePreview.InsertWherePreviewed | v4/app.js:412-421 | with one radius, an insertion happens only where the marker shows, at the marker's point |
| EdgePreview.V3PreviewWithoutInsert | app.js:481-487 | in the first editor, a pointer between 24 and 28 units from the contour shows the marker but a click inserts nothing |
| EdgePreview.V3PreviewWithoutInsertExample | app.js:589-594 | a three-vertex contour and a pointer 25 units away exhibit that case |
| Snapshots.VertexAsWritten | app.js:70 | the vertex copy as written keeps a control coordinate only when it is non-zero |
| Snapshots.ZeroControlLost | app.js:85 | a curved vertex with control x = 0 comes back from a snapshot as a straight segment |
| Snapshots.CopyVertexRoundTrip | app.js:70 | the corrected copy gives every vertex back, so a segment keeps its kind |
| Snapshots.Snapshot | app.js:64-76 | one record per region, in Map order, plus the background |
| Snapshots.RestoreRegion | app.js:77-91 | corrected: the rebuilt region keeps id and vertices, a control coordinate of 0 included; an empty colour and a null opacity fall back on the defaults; the first editor drops the field; the element carries the id only while it is a polygon |
| Snapshots.RestoreAll | app.js:77-91 | the rebuilt Map has distinct keys |
| Snapshots.RestoreAllKeys | app.js:77-91 | the rebuilt Map holds exactly the ids the records name |
| Snapshots.RecordRoundTrip | app.js:64-91 | a region that a restore would rebuild exactly survives record and restore |
| Snapshots.SnapshotRoundTrip | app.js:64-91 | restoring a snapshot rebuilds the very regions it was taken from, in order |
| Snapshots.JsonScene | v4/undoRedo.js:13-34 | the history hands back each record with only a NaN or infinite opacity changed, to null, and the background with the same href |
| Snapshots.JsonKeepsFiniteRecords | v4/undoRedo.js:13-34 | when no opacity is NaN or infinite, the records come back from the history's JSON text unchanged |
| Snapshots.NaNOpacityLost | v4/undoRedo.js:13-21 | a NaN opacity comes back from the history as null, and the restored region takes the default opacity |
| Editor.Capture | app.js:97 | the current scene becomes the newest history entry with nothing to redo; nothing else changes |
| Editor.Init | app.js:586 | corrected: both pages start with no regions, counter 1, polygon mode and the empty scene captured (the v4 page as written is EditorFindings.InitV4AsWritten) |
| Editor.Redraw | app.js:279-314 | the element keeps its id only when it stays the same kind of element |
| Editor.StartRegion | app.js:206-212 | corrected: a drawing with one straight vertex at the pointer, the default style, and an id that no element and no stored region has; only the counter and the drawing change |
| Editor.AddPoint | app.js:214-220 | without a drawing nothing happens; otherwise exactly one rounded vertex is appended, with a control point only when it is curved and has one |
| Editor.Cancel | app.js:259-262 | the drawing is dropped and nothing else changes |
| Editor.Finalize | app.js:245-256 | a drawing of fewer than three vertices is dropped; otherwise it is stored under its id, its element gets the click listener, and the new scene is captured |
| Editor.Escape | app.js:175-185 | while drawing the last vertex goes, and a drawing left with none is cancelled; otherwise the selection is cleared |
| Editor.Restore | app.js:77-91 | corrected: the regions are rebuilt from the records, control coordinates of 0 kept, and the selection cleared; the fresh elements carry no click listener; the background changes only when the snapshot has one; nothing else changes |
| Editor.Undo | app.js:576-579 | with a snapshot before the cursor the state is restored from it; otherwise nothing changes |
| Editor.Redo | app.js:580-583 | with a snapshot after the cursor the state is restored from it; otherwise nothing changes |
| Editor.Load | app.js:566-573 | corrected: the loaded scene replaces the regions and is captured in both editors |
| Editor.SetBackground | app.js:100-110 | the new background is set, the regions are kept, and the scene is captured |
| Editor.DeleteRegion | app.js:509-516 | an unknown id changes nothing; otherwise the region and a selection of it go and the scene is captured |
| Editor.DeleteSelected | app.js:195-196 | the Delete key deletes the selected region, if any |
| Editor.SelectRegion | app.js:366-374 | a region of the Map becomes the selection |
| Editor.SetMode | app.js:54-61 | the tool changes and the selection is cleared |
| Editor.MouseDown | app.js:129-142 | a press on a handle does nothing; the drawing tools start a region or add a straight vertex; the select tool selects the pressed region or deselects |
| Editor.RemoveVertex | app.js:450-456 | a region of at most three vertices is deleted on confirmation; a larger one loses the vertex, keeps its key and is captured, and every other region, the selection, the drawing and the counter stay as they were |
| Editor.HoverPreview | app.js:152-155 | corrected for the first editor: the marker follows the selected region only while not drawing, with the radius Shift+click inserts within (24 in the first editor, 28 in v4) |
| Editor.InsertVertex | app.js:481-487 | the canvas click handler inserts on the selected region exactly as `insertVertexAt` does, within 24 units in the first editor and 28 in v4, keeping the keys; an insertion is captured and changes nothing but that region |
| Editor.Click | app.js:324-328 | with the select tool, a click on the element of a region finished since the last restore is stopped by that element's listener and only selects the region; any other click reaches the canvas handler and inserts |
| Editor.Drag | app.js:433-442 | the dragged vertex moves to the rounded point, every other vertex and every key stays, and nothing is captured |
| Editor.EndDrag | app.js:444 | the end of a drag is captured |
| Editor.SetColor | app.js:397-401 | the selected region takes the colour and the scene is captured; every other region, the selection, the drawing and the counter stay as they were; no selection, no change |
| Editor.SetOpacity | app.js:402-406 | the selected region takes the opacity and the scene is captured; nothing else changes; no selection, no change |
| Editor.SetField | v4/app.js:501-513 | the selected region takes the trimmed field text and the scene is captured; nothing else changes |
| Editor.Transfer | app.js:385-395 | the region leaves its old key and is set under the new one; a selection and the element's click listener follow it |
| Editor.RenameV3 | app.js:385-395 | corrected: an empty name, the same name, a name the page finds or a stored key is refused; otherwise the region is renamed and captured |
| Editor.RenamePrompt | app.js:350-363 | corrected: a cancelled prompt and an answer that is blank after trimming are ignored; otherwise the rename rules above apply |
| Editor.RenameInputV3 | app.js:385-395 | corrected as `Editor.RenameV3`: the id input renames the selected region unless the new id is empty, unchanged or taken |
| Editor.RenameInputV4 | v4/app.js:521-545 | corrected: an empty name, another region's name and the drawing's name are refused; otherwise the region moves to the new key and the scene is captured |
| Editor.Step | app.js:333-345 | the list's rename and delete exist only in the first editor, and the field input (v4/app.js:501-513) and the hand tool (v4/app.js:60) only in v4; an action the editor does not offer changes nothing |
| EditorLaws.StepKeepsVersion | v4/app.js:441-448 | the two editors are separate pages: no action of either, including those it does not offer such as the v4 list's missing rename and delete, turns it into the other |
| EditorLaws.StepConsistent | app.js:129-197 | every user action keeps the keys distinct, the selection naming a region, and a drawing non-empty |
| EditorLaws.FinalizeConsistent | app.js:245-256 | finishing a region keeps the invariant |
| EditorLaws.ClickInsertsWhereMarked | v4/app.js:412-421 | in either editor the canvas click handler inserts only where the edge marker shows, the new vertex on the marker, and wherever the marker shows strictly inside the radius it does insert |
| EditorLaws.ShiftClickGesture | app.js:129-142 | a Shift+click runs the press handler and then the click: with the select tool a press off every region's element deselects and nothing is inserted; a press on a stored region's element selects it, and the click then only selects it again when its element has the listener, and otherwise inserts on it; a press on a handle or in the hand tool leaves the click to the current selection |
| EditorLaws.ShiftClickOnRegionInsertsWhereMarked | v4/app.js:164-187 | a Shift+click landing on a stored region's element selects it; when the element has no listener it inserts only where that region's marker shows, the new vertex on the marker, and away from an edge it only selects; when it has one it only selects |
| EditorLaws.FinishedRegionIgnoresShiftClick | app.js:245-256 | right after a region is finished, a Shift+click on it with the select tool only selects it: the listener `finalizeRegion` attaches stops the click before the canvas handler |
| EditorLaws.DeleteRegionConsistent | app.js:509-516 | deleting keeps the invariant |
| EditorLaws.TransferConsistent | app.js:385-395 | renaming onto a free key keeps the invariant |
| EditorLaws.LoadConsistent | app.js:566-573 | loading keeps the invariant |
| EditorLaws.UndoAfterCapture | app.js:97 | undoing the capture of a change rebuilds the regions that were on screen before it |
| EditorLaws.UndoFinalize | app.js:245-256 | undo right after finishing a region takes it away again |
| EditorLaws.UndoDelete | app.js:509-516 | undo right after a deletion brings the region back in its place |
| EditorLaws.FinalizeAddsRegion | app.js:245-256 | finishing a drawing under a new key adds exactly one region and keeps every other |
| EditorLaws.StartedRegionIsNew | app.js:206-212 | for the corrected `StartRegion`, a started region's id is never a stored key |
| EditorFindings.RenameV3AsWritten | app.js:350-363 | the rename as written refuses only the same name and one the page finds |
| EditorFindings.RenamePromptAsWritten | app.js:350-363 | the prompt as written ignores only a cancelled or empty answer before trimming |
| EditorFindings.WhitespaceNameEmptiesId | app.js:350-363 | answering the prompt with blanks renames the region to the empty id |
| EditorFindings.WhitespaceNameRefused | app.js:387 | the corrected prompt leaves the state alone for a blank answer |
| EditorFindings.RenameInputV3AsWritten | app.js:385-395 | the id input as written refuses a blank trimmed name, the same name and a name the page finds, and otherwise moves the selected region to the new key |
| EditorFindings.RenameOverwritesUntagged | app.js:385-395 | typing into the id input the id of a region whose element lost its id overwrites that region, and the Map loses an entry |
| EditorFindings.RenameKeepsCount | app.js:385-395 | the corrected rename never changes the number of regions |
| EditorFindings.InitV4AsWritten | v4/app.js:110-112 | the v4 page starts with an empty history |
| EditorFindings.FirstRegionNotUndoable | v4/app.js:280-289 | in v4 the first finished region cannot be undone |
| EditorFindings.FirstRegionUndoable | app.js:586 | after the initial capture, undo takes the first region away |
| EditorFindings.LoadV4AsWritten | v4/app.js:89-108 | the v4 load rebuilds the regions and then stops before capturing |
| EditorFindings.LoadV4LeavesHistoryBehind | v4/app.js:581-584 | after such a load the newest history entry no longer describes the scene |
| EditorFindings.UndoLoad | app.js:566-573 | the corrected load is captured, and undo brings back the regions on screen before it |
| EditorFindings.StartRegionAsWritten | app.js:317-321 | the id as written skips only ids the page finds |
| EditorFindings.StartRegionReusesKey | v4/app.js:327 | a stored region under the next counter id whose element lost its id gets that id handed out again |
| EditorFindings.FinalizeOverwrites | app.js:245-256 | finishing a drawing whose id is a stored key replaces that region, and the count stays the same |
| EditorFindings.RenameInputV4AsWritten | v4/app.js:521-545 | the v4 id input as written refuses only an empty name and another region's name |
| EditorFindings.RenameToDrawingLosesRegion | v4/app.js:521-545 | giving the selected region the drawing's id and then finishing the drawing loses the renamed region |
| EditorFindings.RenameKeepsDrawingFresh | v4/app.js:521-545 | the corrected input keeps the drawing's id free of stored keys |
| EditorFindings.SameIdMovesToEnd | v4/app.js:536-538 | re-entering the selected region's own id still moves it to the end of the Map |
| RegionExport.ItemV3 | app.js:525-542 | the item's tag follows the element, its id is the key, and the colour and opacity fall back on the defaults |
| RegionExport.ItemV4 | v4/app.js:548-568 | the item's tag follows the curves, and the colour and opacity are exported as stored |
| RegionExport.ExportedGeometryV3 | app.js:529-538 | the exported `points` or `d` is the region's own, unchanged by escaping |
| RegionExport.ItemsAgree | v4/app.js:548-568 | a region with a colour and an opacity exports as the same element text in both editors |
| RegionExport.ExportV3 | app.js:544-559 | the export opens with the root and ends with `</svg>` |
| RegionExport.ExportV4 | v4/app.js:548-568 | the same for the v4 export |
| RegionExport.ExportTagsV3 | app.js:544-559 | the first editor's export is the root, the background when asked for and present, one element per region in Map order, and the close |
| RegionExport.ExportTagsV4 | v4/app.js:548-568 | the v4 export is the root, the background whenever there is one, one element per region in Map order, and the close |

## Left out

- The DOM, CSS classes, vertex handle elements, the temporary line and cursor, the region list's markup and the alerts are not modelled. The state they would show is modelled instead.
- Panning, zooming, the wheel handler, `clientToSvg` and the canvas viewBox are left out. Points arrive in canvas coordinates, and the canvas size is a parameter.
- The theme toggle, autosave, `downloadSVG`, Blob/URL handling and `projectIO.js` file reading are left out. A loaded project arrives as a `Scene`.
- The undo stack keeps each snapshot as `JSON.stringify` text. The model keeps the parsed scene instead, as Snapshots.JsonScene: a NaN or infinite opacity or image size becomes null, as JSON writes it. A `-0` written as `0` is not modelled, since Snapshots.RestoreRegion treats both alike.
- EditorLaws.UndoAfterCapture, UndoFinalize, UndoDelete and EditorFindings.UndoLoad: require every opacity to be a number JSON can write. An opacity input that is emptied stores `parseFloat("")`, which is NaN (app.js:404, v4/app.js:500). Undo gives that region back with the default opacity instead; Snapshots.NaNOpacityLost shows it.
- The first editor loads its own `undoRedo.js` (app.js:2), which is not part of this model. It is taken to behave as v4/undoRedo.js does, and one history model serves both editors.
- Snapshots.Snapshot: copies control coordinates with the corrected `cx ?? null`, where both editors write `cx || null` (app.js:70). The two differ only for a control coordinate of 0, which only a loaded project brings in. The copy as written is Snapshots.VertexAsWritten.
- `UndoRedo.onChangeSet` and `emit` only notify a listener; they are not modelled.
- `Math.hypot` and floating-point rounding are left out: distances are exact squared reals. Vertex coordinates are integers: drawn and dragged ones go through `Math.round`, and a loaded project is assumed to carry integer coordinates, since `restoreState` copies `x`, `y`, `cx` and `cy` as they are (app.js:85, v4/app.js:96).
- The first editor's projection tests `l2 === 0`, the v4 one `dx === 0 && dy === 0`. Over exact integers both mean the same zero-length segment, so one definition serves both.
- The bezier tool never sends a control point: `addPoint` is only ever called with `curve = false`. Curved vertices therefore come only from loaded projects.
- Click listeners are modelled as the set of keys whose element has one (`listening`). `finalizeRegion` attaches one (app.js:250, v4/app.js:284); `restoreState` builds elements without one; an element that `updateRegionElement` replaces loses it. The listener selects the region object it closed over. The model names that region by its key, which `Transfer` moves along. An element left in the canvas by a region that was overwritten in the Map keeps its listener; the model drops that element.
- The v4 region list is rebuilt from the Map on every update; its order is the Map order, which the model keeps.
- The v4 "Export full" button downloads `canvas.outerHTML`. It is a serialisation of the live DOM and is not modelled.
- `data-field` is set on the v4 export items, but `buildCleanSVGFragment` never writes it, so it has no effect on the output.
- The first editor's `loadBackgroundFromData` sizes the image to the canvas and the v4 one to the image. Only the `{href, width, height}` record kept for snapshots is modelled.
- Editor.Restore: corrected to keep a control coordinate of 0 (`cx ?? null` where both editors write `cx || null`, app.js:85, v4/app.js:96), and to run v4's `restoreState` past the statement that throws (v4/app.js:104-106); the `data-field` attribute it would then set is not modelled. The control-point copy as written is Snapshots.VertexAsWritten. EditorFindings.LoadV4AsWritten is as written only in skipping `capture()`: it restores through the corrected Editor.Restore, so it keeps a control coordinate of 0.
- Snapshots.RestoreRegion: corrected to keep a control coordinate of 0. Both editors copy `cx || null` (app.js:85, v4/app.js:96), which turns 0 into null; that copy is Snapshots.VertexAsWritten, and Snapshots.ZeroControlLost shows the loss.
- Editor.Init: corrected to capture the empty scene in both editors. The v4 page as written captures nothing (v4/app.js:110-112); that page is EditorFindings.InitV4AsWritten.
- Editor.Load: corrected to capture the loaded scene in both editors and to keep control coordinates of 0. The v4 load as written throws before `capture()`; it is EditorFindings.LoadV4AsWritten.
- Editor.StartRegion: corrected to skip stored keys as well as ids the page finds. The code as written (app.js:317-321) is EditorFindings.StartRegionAsWritten.
- Editor.RenameV3: corrected to refuse a stored key as well as an id the page finds. The prompt's rename as written (app.js:353-362) is EditorFindings.RenameV3AsWritten, and the id input as written (app.js:385-395) is EditorFindings.RenameInputV3AsWritten.
- Editor.RenameInputV3: uses the corrected Editor.RenameV3, so it refuses stored keys too; the id input as written (app.js:385-395), which refuses a blank trimmed name and otherwise asks only the page, is EditorFindings.RenameInputV3AsWritten.
- Editor.RenamePrompt: corrected to ignore an answer that is blank after trimming. The code as written (app.js:350-363) is EditorFindings.RenamePromptAsWritten.
- Editor.RenameInputV4: corrected to refuse the drawing's id. The code as written (v4/app.js:521-545) is EditorFindings.RenameInputV4AsWritten.
- Editor.HoverPreview: corrected for the first editor to show the marker within 24 units, the radius Shift+click inserts within and that of the first of its two `showEdgePreview` definitions (app.js:470-479). The later definition as written uses 28 (app.js:589-594); EdgePreview.V3PreviewWithoutInsert covers it.
- EditorLaws.StartedRegionIsNew: holds for the corrected Editor.StartRegion only; EditorFindings.StartRegionReusesKey shows the code as written handing out a stored key.
- Editor.InsertVertex: models the canvas click handler alone (app.js:501-506). Editor.Click puts the region element's listener in front of it. A real Shift+click also fires the canvas `mousedown` first (app.js:129-142, v4/app.js:164-187), a separate `Press` event. With the select tool, a press that misses every region's element deselects, so the marker shown just outside a region's edge does not lead to an insertion there. EditorLaws.ShiftClickGesture states the press followed by the click.
- Editor.Drag: an index past the end leaves the state unchanged, where the source throws inside the mouse handler.
- Editor.MouseDown: the pressed element is named by its id attribute, and an element without one is looked up as "". As in app.js:137-138, that selects a region stored under "" when there is one. Only the first editor's prompt as written can store such a region (EditorFindings.WhitespaceNameEmptiesId); otherwise the press deselects.

## Findings

| source | as written | input that shows it | evidently intended | confidence | as-written member | corrected member |
|---|---|---|---|---|---|---|
| app.js:70 | snapshot and restore copy control points with `cx \|\| null`, which drops a control coordinate of 0 | a curved vertex with cx = 0, cy = 5 | `cx ?? null`, keeping 0 | high, not executed | Snapshots.ZeroControlLost | Snapshots.SnapshotRoundTrip |
| app.js:350-363 | `renameRegionPrompt` trims after its emptiness test, so a blank answer renames the region to "" | answer "   " for a region Area_1 | a blank answer is refused, as the id input does | high, not executed | EditorFindings.WhitespaceNameEmptiesId | EditorFindings.WhitespaceNameRefused |
| app.js:589-594 | the later `showEdgePreview` shows the marker up to 28 units away, while `insertVertexAt` inserts only below 24 | a pointer 25 units from the contour | one radius for marker and insertion, 24 as in the first definition (app.js:470-479) | high, not executed | EdgePreview.V3PreviewWithoutInsertExample | EditorLaws.ClickInsertsWhereMarked |
| v4/app.js:110-112 | the v4 page never captures the empty scene, so the first action cannot be undone | draw and finish one region, then undo | an initial `capture()`, as the first editor does | high, not executed | EditorFindings.FirstRegionNotUndoable | EditorFindings.FirstRegionUndoable |
| v4/app.js:104 | `restoreState` reads an undeclared `r` and throws, so loading a project skips `capture()` | load a project with a different region count | restore without the stray statement, then capture | medium, not executed | EditorFindings.LoadV4LeavesHistoryBehind | EditorFindings.UndoLoad |
| app.js:317-321 | `generateId` asks only the page, which misses a stored region whose element lost its id | a loaded curved region Area_1, counter at 1, then draw and finish | skip region keys too | medium, not executed | EditorFindings.FinalizeOverwrites | EditorLaws.FinalizeAddsRegion |
| v4/app.js:521-545 | the v4 id input checks only the Map, so the selected region can take the drawing's id and is then overwritten when the drawing is finished | select a region, type the drawing's id, finish the drawing | refuse the drawing's id | medium, not executed | EditorFindings.RenameToDrawingLosesRegion | EditorFindings.RenameKeepsDrawingFresh |
| app.js:385-395 | the id input asks only the page, so it can overwrite a stored region whose element lost its id | with Area_1 selected, type a loaded curved region's id into the id input | refuse any stored key | medium, not executed | EditorFindings.RenameOverwritesUntagged | EditorFindings.RenameKeepsCount |

=== FILE: contour.dfy ===
/** Editing the vertex list of one region: inserting a vertex on the edge
    nearest the pointer (`insertVertexAt`) and removing a vertex
    (`removeVertex`), which refuses to go below three vertices. */
module Contour {
  import opened Optional
  import opened Geometry

  /** Pointer distance below which a click inserts a vertex: 24 in the
      first editor, 28 in the second. */
  const InsertRadiusV3: nat := 24
  const InsertRadiusV4: nat := 28

  /** A contour needs at least this many vertices to stay a region. */
  const MinVertices: nat := 3

  function InsertAt<T>(s: seq<T>, i: nat, x: T): (r: seq<T>)
    requires i <= |s|
    ensures |r| == |s| + 1 && r[i] == x
    ensures r[..i] == s[..i] && r[i + 1..] == s[i..]
  {
    s[..i] + [x] + s[i..]
  }

  function RemoveAt<T>(s: seq<T>, i: nat): (r: seq<T>)
    requires i < |s|
    ensures |r| == |s| - 1
    ensures r[..i] == s[..i] && r[i..] == s[i + 1..]
  {
    s[..i] + s[i + 1..]
  }

  /** Removing what was just inserted gives the original sequence back. */
  lemma RemoveInsert<T>(s: seq<T>, i: nat, x: T)
    requires i <= |s|
    ensures RemoveAt(InsertAt(s, i, x), i) == s
  {
    var r := InsertAt(s, i, x);
    assert RemoveAt(r, i) == r[..i] + r[i + 1..];
    assert s == s[..i] + s[i..];
  }

  /** Putting a removed element back where it was restores the sequence. */
  lemma InsertRemove<T>(s: seq<T>, i: nat)
    requires i < |s|
    ensures InsertAt(RemoveAt(s, i), i, s[i]) == s
  {
    var r := RemoveAt(s, i);
    assert InsertAt(r, i, s[i]) == r[..i] + [s[i]] + r[i..];
    assert s == s[..i] + [s[i]] + s[i + 1..];
  }

  /** The straight vertex `{x: Math.round(x), y: Math.round(y), curve: false}`. */
  function StraightAt(q: Point): (v: Vertex)
    ensures !v.curve && v.cx.None? && v.cy.None?
    ensures v.x as real - 0.5 <= q.x < v.x as real + 0.5
    ensures v.y as real - 0.5 <= q.y < v.y as real + 0.5
  {
    Vertex(Round(q.x), Round(q.y), false, None, None)
  }

  /** Some edge of the contour passes within `radius` of `p`. */
  ghost predicate NearSomeEdge(pts: seq<Vertex>, p: Point, radius: nat) {
    exists j :: 0 <= j < |pts| && HitAt(pts, j, p).dist2 < (radius * radius) as real
  }

  datatype Insertion = Inserted(points: seq<Vertex>, index: nat) | NotNear

  /** `insertVertexAt(r, x, y)`: when the closest edge is nearer than
      `radius`, a straight vertex at the rounded projection is spliced in
      at that edge's insertion index; otherwise nothing changes. */
  function InsertVertexNear(pts: seq<Vertex>, p: Point, radius: nat): (r: Insertion)
    ensures r.Inserted? <==> NearSomeEdge(pts, p, radius)
    ensures r.Inserted? ==> 1 <= r.index <= |pts| && |r.points| == |pts| + 1
    ensures r.Inserted? ==> RemoveAt(r.points, r.index) == pts
    ensures r.Inserted? ==>
      && FindClosestEdge(pts, p).Some?
      && r.index == FindClosestEdge(pts, p).value.index
      && r.points[r.index] == StraightAt(FindClosestEdge(pts, p).value.point)
  {
    var hit := FindClosestEdge(pts, p);
    if hit.Some? && hit.value.dist2 < (radius * radius) as real then
      assert HitAt(pts, hit.value.index - 1, p) == hit.value;
      var r := InsertAt(pts, hit.value.index, StraightAt(hit.value.point));
      RemoveInsert(pts, hit.value.index, StraightAt(hit.value.point));
      Inserted(r, hit.value.index)
    else
      assert !NearSomeEdge(pts, p, radius) by {
        if hit.Some? {
          forall j | 0 <= j < |pts| ensures HitAt(pts, j, p).dist2 >= (radius * radius) as real {
            assert hit.value.dist2 <= HitAt(pts, j, p).dist2;
          }
        }
      }
      NotNear
  }

  /** The inserted vertex, before rounding, is the point of the contour
      nearest the pointer. */
  lemma InsertedAtNearestPoint(pts: seq<Vertex>, p: Point, radius: nat, j: nat, t: real)
    requires InsertVertexNear(pts, p, radius).Inserted?
    requires j < |pts| && 0.0 <= t <= 1.0
    ensures Dist2(p, FindClosestEdge(pts, p).value.point)
         <= Dist2(p, Lerp(AsPoint(pts[j]), AsPoint(EdgeEnd(pts, j)), t))
  {
    ClosestEdgeIsClosestOnContour(pts, p, j, t);
    var h := FindClosestEdge(pts, p).value;
    assert h == HitAt(pts, h.index - 1, p);
  }

  /** `removeVertex(r, index)` on the vertex list: `None` when the region
      has at most three vertices (the editor then offers to delete the
      whole region), otherwise the list without that vertex; an index past
      the end removes nothing, as `splice` does. */
  function RemoveVertex(pts: seq<Vertex>, index: nat): (r: Option<seq<Vertex>>)
    ensures r.None? <==> |pts| <= MinVertices
    ensures r.Some? ==> |r.value| >= MinVertices
    ensures r.Some? && index < |pts| ==> |r.value| == |pts| - 1 && InsertAt(r.value, index, pts[index]) == pts
    ensures r.Some? && index >= |pts| ==> r.value == pts
  {
    if |pts| <= MinVertices then None
    else if index < |pts| then
      InsertRemove(pts, index);
      Some(RemoveAt(pts, index))
    else Some(pts)
  }
}

module EdgePreview {
  import opened Optional
  import opened Geometry
  import opened Contour

  /** What `showEdgePreview(findClosestEdge(…))` does with the marker dot:
      nothing for an empty contour, hide it when the nearest edge is farther
      than `radius`, otherwise show it at the nearest point. */
  datatype PreviewAction = Keep | Hide | ShowAt(at: Point)

  ghost predicate WithinRadius(pts: seq<Vertex>, p: Point, radius: nat) {
    exists j :: 0 <= j < |pts| && HitAt(pts, j, p).dist2 <= (radius * radius) as real
  }

  function Preview(pts: seq<Vertex>, p: Point, radius: nat): (r: PreviewAction)
    ensures r.Keep? <==> |pts| == 0
    ensures r.ShowAt? <==> WithinRadius(pts, p, radius)
    ensures r.ShowAt? ==> r.at == FindClosestEdge(pts, p).value.point
  {
    var hit := FindClosestEdge(pts, p);
    if hit.None? then Keep
    else if hit.value.dist2 > (radius * radius) as real then
      assert !WithinRadius(pts, p, radius) by {
        forall j | 0 <= j < |pts| ensures HitAt(pts, j, p).dist2 > (radius * radius) as real {
          assert hit.value.dist2 <= HitAt(pts, j, p).dist2;
        }
      }
      Hide
    else
      assert HitAt(pts, hit.value.index - 1, p) == hit.value;
      ShowAt(hit.value.point)
  }

  /** With one radius for both, a click inserts a vertex exactly where the
      marker showed it, save on the boundary circle itself. */
  lemma InsertWherePreviewed(pts: seq<Vertex>, p: Point, radius: nat)
    ensures InsertVertexNear(pts, p, radius).Inserted? ==> Preview(pts, p, radius).ShowAt?
    ensures Preview(pts, p, radius).ShowAt?
         && FindClosestEdge(pts, p).value.dist2 < (radius * radius) as real
        ==> InsertVertexNear(pts, p, radius).Inserted?
    ensures InsertVertexNear(pts, p, radius).Inserted? ==>
      InsertVertexNear(pts, p, radius).points[InsertVertexNear(pts, p, radius).index]
        == StraightAt(Preview(pts, p, radius).at)
  {
    var hit := FindClosestEdge(pts, p);
    if hit.Some? {
      assert HitAt(pts, hit.value.index - 1, p) == hit.value;
    }
  }

  /** In the first editor the marker appears up to 28 units away (the
      later of its two `showEdgePreview` definitions wins) while a click
      only inserts within 24: between the two the dot is shown but the click
      does nothing. */
  lemma V3PreviewWithoutInsert(pts: seq<Vertex>, p: Point)
    requires FindClosestEdge(pts, p).Some?
    requires (InsertRadiusV3 * InsertRadiusV3) as real <= FindClosestEdge(pts, p).value.dist2 <= (28 * 28) as real
    ensures Preview(pts, p, 28).ShowAt?
    ensures InsertVertexNear(pts, p, InsertRadiusV3).NotNear?
  {
    var h := FindClosestEdge(pts, p).value;
    assert HitAt(pts, h.index - 1, p) == h;
  }

  /** Three clicks on one spot make a contour whose every edge is that
      spot. */
  function Stacked(): seq<Vertex> {
    [Vertex(0, 0, false, None, None), Vertex(0, 0, false, None, None), Vertex(0, 0, false, None, None)]
  }

  lemma StackedHit(j: nat)
    requires j < 3
    ensures HitAt(Stacked(), j, Point(25.0, 0.0)).dist2 == 625.0
  {
    assert Stacked()[j] == Vertex(0, 0, false, None, None);
    assert EdgeEnd(Stacked(), j) == Vertex(0, 0, false, None, None);
  }

  /** A pointer 25 units from the contour: previewed, not inserted. */
  lemma V3PreviewWithoutInsertExample()
    ensures Preview(Stacked(), Point(25.0, 0.0), 28).ShowAt?
    ensures InsertVertexNear(Stacked(), Point(25.0, 0.0), InsertRadiusV3).NotNear?
  {
    var h := FindClosestEdge(Stacked(), Point(25.0, 0.0)).value;
    StackedHit(h.index - 1);
    V3PreviewWithoutInsert(Stacked(), Point(25.0, 0.0));
  }
}

=== FILE: editor.dfy ===
/** The drawing and editing state machine of both editors (`app.js` and
    `v4/app.js`): drawing a region point by point, finishing or cancelling
    it, selecting, editing vertices and properties, renaming, deleting, and
    undo/redo through whole-scene snapshots. Each operation is the handler
    of one user action with the DOM replaced by the state it reads; where
    the handlers go wrong (see README "Findings") the operations here are
    the corrected ones and the code as written is modelled beside them. */
module Editor {
  import opened Optional
  import opened JsValues
  import opened Text
  import opened Geometry
  import opened Regions
  import opened Render
  import Contour
  import EdgePreview
  import opened RegionIds
  import UndoHistory
  import opened Snapshots
  import opened SvgExport

  /** The tool buttons; the hand (panning) tool exists only in the second
      editor. */
  datatype Mode = Polygon | Bezier | Select | Hand

  /** An undo history whose cursor is in range. */
  type Log = h: UndoHistory.History<Scene> | UndoHistory.Valid(h) witness UndoHistory.History([], -1)

  /** The editor's variables. `current` is the region being drawn (the
      source's `drawing` flag is `current != null`); `selected` names the
      selected region by its id, which follows the region through renames;
      `pageIds` are the ids of the page's other elements, which
      `document.getElementById` also finds; `listening` are the keys of the
      regions whose element carries the click listener `finalizeRegion`
      attached (`attachRegionEvents`). */
  datatype State = State(
    version: Version,
    mode: Mode,
    regions: seq<Region>,
    current: Option<Region>,
    counter: nat,
    selected: Option<string>,
    bg: Option<ImageData>,
    defaults: Defaults,
    pageIds: set<string>,
    listening: set<string>,
    history: Log)

  /** What the invariant of a reachable state is: distinct ids, a selection
      that names a region, and a drawing that has a point. */
  predicate Consistent(s: State) {
    && UniqueIds(s.regions)
    && (s.selected.Some? ==> Has(s.regions, s.selected.value))
    && (s.current.Some? ==> |s.current.value.points| >= 1)
  }

  /** The scene `capture()` records: `snapshotState()` as it comes back
      from the history's JSON text. */
  function SceneOf(s: State): Scene {
    JsonScene(Snapshot(s.regions, s.bg))
  }

  /** `capture()`: the current scene becomes the newest history entry. */
  function Capture(s: State): (t: State)
    ensures UndoHistory.GetCurrent(t.history) == Some(SceneOf(s))
    ensures UndoHistory.Redo(t.history).result.None?
    ensures t.(history := s.history) == s
  {
    UndoHistory.CaptureThenCurrent(s.history, SceneOf(s));
    s.(history := UndoHistory.Capture(s.history, SceneOf(s)))
  }

  /** The page as loaded: no regions, the counter at 1, and the empty scene
      captured, so that the first action can be undone. */
  function Init(version: Version, defaults: Defaults, pageIds: set<string>): (s: State)
    ensures Consistent(s) && s.regions == [] && s.current.None? && s.selected.None?
    ensures s.counter == 1 && s.mode == Polygon
    ensures UndoHistory.GetCurrent(s.history) == Some(SceneOf(s))
  {
    Capture(State(version, Polygon, [], None, 1, None, None, defaults, pageIds, {}, UndoHistory.Empty()))
  }

  /** The ids `document.getElementById` finds: regions and the drawing
      whose element still carries its id, the background image, and the
      page's own elements. */
  function DomIds(s: State): (ids: set<string>)
    ensures forall r :: r in s.regions && r.tagged ==> r.id in ids
    ensures s.current.Some? && s.current.value.tagged ==> s.current.value.id in ids
    ensures s.bg.Some? ==> "bgImage" in ids
    ensures s.pageIds <= ids
  {
    (set r | r in s.regions && r.tagged :: r.id)
      + (if s.current.Some? && s.current.value.tagged then {s.current.value.id} else {})
      + (if s.bg.Some? then {"bgImage"} else {})
      + s.pageIds
  }

  /** `document.getElementById(id)` is non-null; the empty id finds
      nothing. */
  predicate ElementExists(s: State, id: string) {
    id != "" && id in DomIds(s)
  }

  /** The keys of the regions Map, as a set. */
  function KeySet(rs: seq<Region>): (ks: set<string>)
    ensures forall id :: id in ks <==> Has(rs, id)
  {
    set i | 0 <= i < |rs| :: Keys(rs)[i]
  }

  /** An id no element and no region already has. */
  predicate IdTaken(s: State, id: string) {
    ElementExists(s, id) || Has(s.regions, id)
  }

  /** A region's element is redrawn after its vertices change; when the
      tag switches between `polygon` and `path` the element is replaced by
      a fresh one that carries no id. */
  function Redraw(r: Region, pts: seq<Vertex>): (q: Region)
    ensures q.points == pts && q.id == r.id && q.color == r.color
    ensures q.opacity == r.opacity && q.field == r.field
    ensures q.tagged <==> r.tagged && ElementTag(pts) == ElementTag(r.points)
  {
    r.(points := pts, tagged := r.tagged && ElementTag(pts) == ElementTag(r.points))
  }

  /** `startRegion(x, y)`: a new region with the next free id and one
      straight vertex at the rounded pointer, in the default colour and
      opacity. The id skips every id already in the page and every region
      key. */
  function StartRegion(s: State, p: Point): (t: State)
    ensures t.current.Some? && t.current.value.points == [Contour.StraightAt(p)]
    ensures !IdTaken(s, t.current.value.id) && t.current.value.tagged
    ensures t.current.value.color == s.defaults.color && t.current.value.opacity == s.defaults.opacity
    ensures t.counter > s.counter && t.current.value.id == AreaId(t.counter - 1)
    ensures t.(current := s.current, counter := s.counter) == s
  {
    var g := GenerateId(s.counter, DomIds(s) + KeySet(s.regions));
    s.(current := Some(Region(g.0, [Contour.StraightAt(p)], s.defaults.color, s.defaults.opacity, "", true)),
       counter := g.1)
  }

  /** `addPoint(x, y, curve, cx, cy)`: appends a rounded vertex to the
      drawing; the control point is kept only on a curved vertex that has
      one. Without a drawing nothing happens. */
  function AddPoint(s: State, p: Point, curve: bool, control: Option<Point>): (t: State)
    ensures s.current.None? ==> t == s
    ensures s.current.Some? ==>
      && t.current.Some?
      && |t.current.value.points| == |s.current.value.points| + 1
      && t.current.value.points[..|s.current.value.points|] == s.current.value.points
      && t.current.value.id == s.current.value.id
    ensures s.current.Some? ==>
      var v := t.current.value.points[|s.current.value.points|];
      && v.x == Round(p.x) && v.y == Round(p.y) && v.curve == curve
      && (v.cx.Some? <==> curve && control.Some?)
    ensures t.(current := s.current) == s
  {
    if s.current.None? then s
    else
      var r := s.current.value;
      var v := Vertex(Round(p.x), Round(p.y), curve,
                      if curve && control.Some? then Some(Round(control.value.x)) else None,
                      if curve && control.Some? then Some(Round(control.value.y)) else None);
      s.(current := Some(Redraw(r, r.points + [v])))
  }

  /** `cancelCurrent()`. */
  function Cancel(s: State): (t: State)
    ensures t.current.None? && t.(current := s.current) == s
  {
    s.(current := None)
  }

  /** `finalizeRegion()`: a drawing with fewer than three vertices is
      dropped; otherwise it is stored under its id, its element gets the
      click listener, and the scene is captured. */
  function Finalize(s: State): (t: State)
    ensures t.current.None?
    ensures s.current.Some? && |s.current.value.points| >= Contour.MinVertices ==>
      && t.regions == Put(s.regions, s.current.value)
      && Get(t.regions, s.current.value.id) == Some(s.current.value)
      && t.listening == s.listening + {s.current.value.id}
      && UndoHistory.GetCurrent(t.history) == Some(SceneOf(t))
    ensures s.current.None? || |s.current.value.points| < Contour.MinVertices ==>
      t == s.(current := None)
  {
    if s.current.None? then s
    else if |s.current.value.points| < Contour.MinVertices then Cancel(s)
    else
      GetPut(s.regions, s.current.value, s.current.value.id);
      Capture(s.(regions := Put(s.regions, s.current.value), current := None,
                 listening := s.listening + {s.current.value.id}))
  }

  /** Escape or Backspace: while drawing, the last vertex goes and a drawing
      left with none is cancelled; otherwise the selection is cleared. */
  function Escape(s: State): (t: State)
    ensures s.current.None? ==> t == s.(selected := None)
    ensures s.current.Some? && |s.current.value.points| == 0 ==> t == s
    ensures s.current.Some? && |s.current.value.points| == 1 ==> t == s.(current := None)
    ensures s.current.Some? && |s.current.value.points| > 1 ==>
      && t.current.Some?
      && t.current.value.points == s.current.value.points[..|s.current.value.points| - 1]
      && t.(current := s.current) == s
  {
    if s.current.None? then s.(selected := None)
    else
      var r := s.current.value;
      if |r.points| == 0 then s
      else
        var pts := r.points[..|r.points| - 1];
        if |pts| == 0 then Cancel(s) else s.(current := Some(Redraw(r, pts)))
  }

  /** `restoreState(obj)`: the regions are rebuilt from the records, with
      fresh elements that carry no click listener, the selection cleared,
      and the background replaced only when the snapshot has one; a drawing
      in progress is left alone. */
  function Restore(s: State, sc: Scene): (t: State)
    ensures t.regions == RestoreAll(sc.regions, s.defaults, s.version)
    ensures t.selected.None? && t.listening == {}
    ensures t.bg == (if sc.bg.Some? then sc.bg else s.bg)
    ensures t.(regions := s.regions, selected := s.selected, bg := s.bg, listening := s.listening) == s
  {
    s.(regions := RestoreAll(sc.regions, s.defaults, s.version), selected := None,
       bg := if sc.bg.Some? then sc.bg else s.bg, listening := {})
  }

  /** Ctrl+Z or the undo button. */
  function Undo(s: State): (t: State)
    ensures var step := UndoHistory.Undo(s.history);
      && t.history == step.history
      && (step.result.None? ==> t == s)
      && (step.result.Some? ==> t == Restore(s.(history := step.history), step.result.value))
  {
    var step := UndoHistory.Undo(s.history);
    if step.result.Some? then Restore(s.(history := step.history), step.result.value) else s
  }

  /** Ctrl+Y or the redo button. */
  function Redo(s: State): (t: State)
    ensures var step := UndoHistory.Redo(s.history);
      && t.history == step.history
      && (step.result.None? ==> t == s)
      && (step.result.Some? ==> t == Restore(s.(history := step.history), step.result.value))
  {
    var step := UndoHistory.Redo(s.history);
    if step.result.Some? then Restore(s.(history := step.history), step.result.value) else s
  }

  /** Loading a project file: the scene is restored and captured. */
  function Load(s: State, sc: Scene): (t: State)
    ensures t.regions == RestoreAll(sc.regions, s.defaults, s.version)
    ensures UndoHistory.GetCurrent(t.history) == Some(SceneOf(t))
  {
    Capture(Restore(s, sc))
  }

  /** Uploading a background image, which is then captured. */
  function SetBackground(s: State, img: ImageData): (t: State)
    ensures t.bg == Some(img) && t.regions == s.regions
    ensures UndoHistory.GetCurrent(t.history) == Some(SceneOf(t))
  {
    Capture(s.(bg := Some(img)))
  }

  /** `deleteRegion(id)`: an unknown id changes nothing; otherwise the
      region goes, the selection goes with it, and the scene is captured. */
  function DeleteRegion(s: State, id: string): (t: State)
    ensures !Has(s.regions, id) ==> t == s
    ensures Has(s.regions, id) ==>
      && t.regions == Delete(s.regions, id)
      && !Has(t.regions, id)
      && t.selected == (if s.selected == Some(id) then None else s.selected)
      && t.listening == s.listening - {id}
      && UndoHistory.GetCurrent(t.history) == Some(SceneOf(t))
  {
    if !Has(s.regions, id) then s
    else Capture(s.(regions := Delete(s.regions, id), selected := if s.selected == Some(id) then None else s.selected,
                    listening := s.listening - {id}))
  }

  /** The Delete key removes the selected region. */
  function DeleteSelected(s: State): (t: State)
    ensures s.selected.None? ==> t == s
    ensures s.selected.Some? ==> t == DeleteRegion(s, s.selected.value)
  {
    if s.selected.Some? then DeleteRegion(s, s.selected.value) else s
  }

  /** `selectRegion(r)` for a region of the Map (a click on its list entry
      or on its element). */
  function SelectRegion(s: State, id: string): (t: State)
    ensures Has(s.regions, id) ==> t == s.(selected := Some(id))
    ensures !Has(s.regions, id) ==> t == s
  {
    if Has(s.regions, id) then s.(selected := Some(id)) else s
  }

  /** `setMode(m)`, which also clears the selection; a drawing survives. */
  function SetMode(s: State, m: Mode): (t: State)
    ensures t == s.(mode := m, selected := None)
  {
    s.(mode := m, selected := None)
  }

  /** What a mouse press lands on: a vertex handle, a `polygon` or `path`
      element (with the id attribute it carries, "" when it has none), or
      anything else. */
  datatype Target = HandleTarget | ShapeTarget(elementId: string) | Elsewhere

  /** The canvas `mousedown` handler. Drawing tools start a region or add
      a straight vertex; the second editor adds the first vertex a second
      time right after starting. The select tool selects the region whose
      id the element carries, and a press elsewhere deselects. */
  function MouseDown(s: State, target: Target, p: Point): (t: State)
    ensures s.mode == Hand || target.HandleTarget? ==> t == s
    ensures (s.mode == Polygon || s.mode == Bezier) && !target.HandleTarget? && s.current.None? ==>
      && t.current.Some?
      && t.current.value.points == (if s.version == V3 then [Contour.StraightAt(p)]
                                    else [Contour.StraightAt(p), Contour.StraightAt(p)])
    ensures (s.mode == Polygon || s.mode == Bezier) && !target.HandleTarget? && s.current.Some? ==>
      t == AddPoint(s, p, false, None)
    ensures s.mode == Select && target.ShapeTarget? ==> t == SelectRegion(s, target.elementId)
    ensures s.mode == Select && target.Elsewhere? ==> t == s.(selected := None)
  {
    if s.mode == Hand || target.HandleTarget? then s
    else if s.mode == Polygon || s.mode == Bezier then
      if s.current.None? then
        var started := StartRegion(s, p);
        if s.version == V4 then
          assert [Contour.StraightAt(p)] + [Contour.StraightAt(p)] == [Contour.StraightAt(p), Contour.StraightAt(p)];
          AddPoint(started, p, false, None)
        else
          assert started.current.value.points == (if s.version == V3 then [Contour.StraightAt(p)]
                                    else [Contour.StraightAt(p), Contour.StraightAt(p)]);
          started
      else AddPoint(s, p, false, None)
    else if target.ShapeTarget? then SelectRegion(s, target.elementId)
    else s.(selected := None)
  }

  /** Whether region `q.id`, redrawn as `q`, keeps its element: the
      element is replaced when the tag switches between `polygon` and
      `path`. */
  predicate KeepsElement(s: State, q: Region) {
    Get(s.regions, q.id).None? || ElementTag(Get(s.regions, q.id).value.points) == ElementTag(q.points)
  }

  /** Replaces the selected region by `q` (same id) in place; a replaced
      element takes its click listener with it. */
  function ReplaceRegion(s: State, q: Region): (t: State)
    ensures t.regions == Put(s.regions, q)
    ensures t.listening == (if KeepsElement(s, q) then s.listening else s.listening - {q.id})
    ensures t.(regions := s.regions, listening := s.listening) == s
  {
    s.(regions := Put(s.regions, q),
       listening := if KeepsElement(s, q) then s.listening else s.listening - {q.id})
  }

  /** `t` is `s` after region `q.id` was replaced in place by `q` and the
      new scene captured: every other region, the selection, the drawing,
      the counter and the tool stay as they were, and the region keeps its
      click listener unless its element was replaced. */
  predicate Edited(s: State, t: State, q: Region) {
    && t.regions == Put(s.regions, q)
    && t.history == UndoHistory.Capture(s.history, SceneOf(t))
    && t.listening == (if KeepsElement(s, q) then s.listening else s.listening - {q.id})
    && t.(regions := s.regions, history := s.history, listening := s.listening) == s
  }

  /** The selected region, when there is one in the Map. */
  function SelectedRegion(s: State): (r: Option<Region>)
    ensures r.Some? ==> s.selected == Some(r.value.id) && r.value in s.regions
    ensures s.selected.Some? && Has(s.regions, s.selected.value) ==> r.Some?
  {
    if s.selected.None? then None else Get(s.regions, s.selected.value)
  }

  /** Right-click on the handle of vertex `index` of the selected region
      (`removeVertex`): a region of at most three vertices is deleted when
      the user confirms and kept otherwise; a larger one loses the vertex
      and the scene is captured. */
  function RemoveVertex(s: State, index: nat, confirmed: bool): (t: State)
    ensures SelectedRegion(s).None? ==> t == s
    ensures SelectedRegion(s).Some? && |SelectedRegion(s).value.points| <= Contour.MinVertices ==>
      t == (if confirmed then DeleteRegion(s, s.selected.value) else s)
    ensures SelectedRegion(s).Some? && |SelectedRegion(s).value.points| > Contour.MinVertices ==>
      var r := SelectedRegion(s).value;
      && Get(t.regions, r.id).Some?
      && Get(t.regions, r.id).value.points == Contour.RemoveVertex(r.points, index).value
      && Keys(t.regions) == Keys(s.regions)
      && Edited(s, t, Redraw(r, Contour.RemoveVertex(r.points, index).value))
  {
    match SelectedRegion(s)
    case None => s
    case Some(r) =>
      match Contour.RemoveVertex(r.points, index)
      case None => if confirmed then DeleteRegion(s, r.id) else s
      case Some(pts) =>
        GetPut(s.regions, Redraw(r, pts), r.id);
        Capture(ReplaceRegion(s, Redraw(r, pts)))
  }

  /** The radius Shift+click inserts within: 24 in the first editor, 28 in
      the second. The edge marker uses the same radius, so that a click
      inserts where the marker shows. */
  function EdgeRadius(v: Version): nat {
    if v == V3 then Contour.InsertRadiusV3 else Contour.InsertRadiusV4
  }

  /** Mouse movement over the selected region while not drawing shows,
      hides or leaves the edge marker. */
  function HoverPreview(s: State, p: Point): (a: EdgePreview.PreviewAction)
    ensures SelectedRegion(s).None? || s.current.Some? ==> a.Keep?
    ensures SelectedRegion(s).Some? && s.current.None? ==>
      a == EdgePreview.Preview(SelectedRegion(s).value.points, p, EdgeRadius(s.version))
  {
    if SelectedRegion(s).Some? && s.current.None? then
      EdgePreview.Preview(SelectedRegion(s).value.points, p, EdgeRadius(s.version))
    else EdgePreview.Keep
  }

  /** Shift+click on the canvas (`insertVertexAt(selected, x, y)`): a
      straight vertex on the nearest edge when it is within the radius. */
  function InsertVertex(s: State, p: Point): (t: State)
    ensures SelectedRegion(s).None? ==> t == s
    ensures SelectedRegion(s).Some? ==>
      var r := SelectedRegion(s).value;
      var ins := Contour.InsertVertexNear(r.points, p, EdgeRadius(s.version));
      && (ins.NotNear? ==> t == s)
      && (ins.Inserted? ==> Get(t.regions, r.id).Some? && Get(t.regions, r.id).value.points == ins.points)
      && (ins.Inserted? ==> Keys(t.regions) == Keys(s.regions))
      && (ins.Inserted? ==> Edited(s, t, Redraw(r, ins.points)))
  {
    match SelectedRegion(s)
    case None => s
    case Some(r) =>
      match Contour.InsertVertexNear(r.points, p, EdgeRadius(s.version))
      case NotNear => s
      case Inserted(pts, _) =>
        GetPut(s.regions, Redraw(r, pts), r.id);
        Capture(ReplaceRegion(s, Redraw(r, pts)))
  }

  /** The click that ends a Shift+click on `target`. The element of a
      region finished on this page takes the click first: with the select
      tool its listener stops the event and selects the region, so the
      canvas handler that inserts never runs. Otherwise the canvas handler
      inserts on the selected region. */
  function Click(s: State, target: Target, p: Point): (t: State)
    ensures s.mode == Select && target.ShapeTarget? && target.elementId in s.listening ==>
      t == SelectRegion(s, target.elementId)
    ensures !(s.mode == Select && target.ShapeTarget? && target.elementId in s.listening) ==>
      t == InsertVertex(s, p)
  {
    if s.mode == Select && target.ShapeTarget? && target.elementId in s.listening then
      SelectRegion(s, target.elementId)
    else InsertVertex(s, p)
  }

  /** Dragging the handle of vertex `index` (`handleDragging`): the vertex
      moves to the rounded position; nothing is captured until the drag
      ends. An index past the end throws in the source and changes
      nothing. */
  function Drag(s: State, index: nat, p: Point): (t: State)
    ensures t.history == s.history && Keys(t.regions) == Keys(s.regions)
    ensures SelectedRegion(s).Some? && index < |SelectedRegion(s).value.points| ==>
      var r := SelectedRegion(s).value;
      var q := Get(t.regions, r.id);
      && q.Some? && |q.value.points| == |r.points|
      && q.value.points[index] == r.points[index].(x := Round(p.x), y := Round(p.y))
      && (forall k :: 0 <= k < |r.points| && k != index ==> q.value.points[k] == r.points[k])
  {
    match SelectedRegion(s)
    case None => s
    case Some(r) =>
      if index < |r.points| then
        var pts := r.points[index := r.points[index].(x := Round(p.x), y := Round(p.y))];
        GetPut(s.regions, Redraw(r, pts), r.id);
        ReplaceRegion(s, Redraw(r, pts))
      else s
  }

  /** `stopDraggingHandle()`: the drag's result is captured. */
  function EndDrag(s: State): (t: State)
    ensures t.regions == s.regions && UndoHistory.GetCurrent(t.history) == Some(SceneOf(t))
  {
    Capture(s)
  }

  /** Replaces the selected region by its edited version `q` and
      captures. */
  function EditSelected(s: State, q: Region): (t: State)
    requires SelectedRegion(s).Some? && q.id == s.selected.value
    ensures Get(t.regions, q.id) == Some(q) && Keys(t.regions) == Keys(s.regions)
    ensures UndoHistory.GetCurrent(t.history) == Some(SceneOf(t))
    ensures Edited(s, t, q)
  {
    GetPut(s.regions, q, q.id);
    Capture(ReplaceRegion(s, q))
  }

  /** The fill colour input. */
  function SetColor(s: State, color: string): (t: State)
    ensures SelectedRegion(s).None? ==> t == s
    ensures SelectedRegion(s).Some? ==>
      Get(t.regions, s.selected.value) == Some(SelectedRegion(s).value.(color := color))
    ensures SelectedRegion(s).Some? ==> Edited(s, t, SelectedRegion(s).value.(color := color))
  {
    match SelectedRegion(s)
    case None => s
    case Some(r) => EditSelected(s, r.(color := color))
  }

  /** The fill opacity input (`parseFloat` of its value). */
  function SetOpacity(s: State, opacity: JsValue): (t: State)
    ensures SelectedRegion(s).None? ==> t == s
    ensures SelectedRegion(s).Some? ==>
      Get(t.regions, s.selected.value) == Some(SelectedRegion(s).value.(opacity := opacity))
    ensures SelectedRegion(s).Some? ==> Edited(s, t, SelectedRegion(s).value.(opacity := opacity))
  {
    match SelectedRegion(s)
    case None => s
    case Some(r) => EditSelected(s, r.(opacity := opacity))
  }

  /** The second editor's data field input: the trimmed text is stored. */
  function SetField(s: State, text: string): (t: State)
    ensures SelectedRegion(s).None? ==> t == s
    ensures SelectedRegion(s).Some? ==>
      Get(t.regions, s.selected.value) == Some(SelectedRegion(s).value.(field := Trim(text)))
    ensures SelectedRegion(s).Some? ==> Edited(s, t, SelectedRegion(s).value.(field := Trim(text)))
  {
    match SelectedRegion(s)
    case None => s
    case Some(r) => EditSelected(s, r.(field := Trim(text)))
  }

  /** Moves region `oldId` to `newId`: `regions.delete(old)`, the element
      gets the new id, `regions.set(new, r)`; a selection of the region
      follows it, and so does the element's click listener. */
  function Transfer(s: State, oldId: string, newId: string): (t: State)
    requires Has(s.regions, oldId)
    ensures var r := Get(s.regions, oldId).value;
      t.regions == Put(Delete(s.regions, oldId), r.(id := newId, tagged := true))
    ensures t.selected == (if s.selected == Some(oldId) then Some(newId) else s.selected)
    ensures oldId in s.listening ==> t.listening == s.listening - {oldId} + {newId}
    ensures oldId !in s.listening ==> t.listening == s.listening
    ensures t.(regions := s.regions, selected := s.selected, listening := s.listening) == s
  {
    var r := Get(s.regions, oldId).value;
    s.(regions := Put(Delete(s.regions, oldId), r.(id := newId, tagged := true)),
       selected := if s.selected == Some(oldId) then Some(newId) else s.selected,
       listening := (s.listening - {oldId}) + (if oldId in s.listening then {newId} else {}))
  }

  /** The first editor's rename of region `oldId` to the trimmed text: an
      empty name, the same name, or one an element or a region already has
      is refused; otherwise the region is renamed and the scene captured. */
  function RenameV3(s: State, oldId: string, text: string): (t: State)
    requires Has(s.regions, oldId)
    ensures var n := Trim(text); n == "" || n == oldId || IdTaken(s, n) ==> t == s
    ensures var n := Trim(text); !(n == "" || n == oldId || IdTaken(s, n)) ==>
      && t == Capture(Transfer(s, oldId, n))
      && !Has(t.regions, oldId) && Has(t.regions, n) && n != ""
  {
    var n := Trim(text);
    if n == "" || n == oldId || IdTaken(s, n) then s
    else
      var r := Get(s.regions, oldId).value;
      PutHas(Delete(s.regions, oldId), r.(id := n, tagged := true), oldId);
      PutHas(Delete(s.regions, oldId), r.(id := n, tagged := true), n);
      Capture(Transfer(s, oldId, n))
  }

  /** "Rename" in the first editor's region list (`renameRegionPrompt`):
      `answer` is what `prompt` returned, `None` when it was cancelled. */
  function RenamePrompt(s: State, id: string, answer: Option<string>): (t: State)
    ensures answer.None? || answer == Some("") || !Has(s.regions, id) ==> t == s
    ensures answer.Some? && answer.value != "" && Has(s.regions, id) ==> t == RenameV3(s, id, answer.value)
  {
    if answer.None? || answer.value == "" || !Has(s.regions, id) then s
    else RenameV3(s, id, answer.value)
  }

  /** The first editor's region id input (its `change` event). */
  function RenameInputV3(s: State, text: string): (t: State)
    ensures SelectedRegion(s).None? ==> t == s
    ensures SelectedRegion(s).Some? ==> t == RenameV3(s, s.selected.value, text)
  {
    if SelectedRegion(s).None? then s else RenameV3(s, s.selected.value, text)
  }

  /** The second editor's region id input (its `input` event): refuses an
      empty name and a name another region (or the drawing) has; renaming
      to the same name still moves the region to the end of the Map. */
  function RenameInputV4(s: State, text: string): (t: State)
    ensures SelectedRegion(s).None? || Trim(text) == "" ==> t == s
    ensures SelectedRegion(s).Some? && Trim(text) != "" ==>
      var n := Trim(text);
      var prior := s.selected.value;
      && (n != prior && (Has(s.regions, n) || (s.current.Some? && s.current.value.id == n)) ==> t == s)
      && (!(n != prior && (Has(s.regions, n) || (s.current.Some? && s.current.value.id == n))) ==>
            t == Capture(Transfer(s, prior, n)))
  {
    if SelectedRegion(s).None? then s
    else
      var n := Trim(text);
      var prior := s.selected.value;
      if n == "" then s
      else if n != prior && (Has(s.regions, n) || (s.current.Some? && s.current.value.id == n)) then s
      else Capture(Transfer(s, prior, n))
  }

  /** The user actions the two pages listen for. */
  datatype Event =
    | Press(target: Target, at: Point)                 // canvas mousedown
    | Finish                                           // double click, Enter
    | EscapeKey                                        // Escape, Backspace
    | UndoAction                                       // Ctrl+Z, undo button
    | RedoAction                                       // Ctrl+Y, redo button
    | DeleteKey
    | ListSelect(id: string)                           // click on a list entry
    | ListRename(id: string, answer: Option<string>)   // first editor's list
    | ListDelete(id: string)                           // first editor's list
    | ChooseMode(mode: Mode)
    | HandleRightClick(index: nat, confirmed: bool)
    | ShiftClick(target: Target, at: Point)
    | HandleDrag(index: nat, at: Point)
    | HandleRelease
    | ColorInput(color: string)
    | OpacityInput(opacity: JsValue)
    | FieldInput(text: string)                         // second editor only
    | IdInput(text: string)
    | LoadProject(scene: Scene)
    | UploadBackground(image: ImageData)

  /** Whether an editor has the control that sends the action: only the
      first editor's list has rename and delete buttons, and only the second
      editor has the field input and the hand button. */
  predicate Offered(v: Version, e: Event) {
    match e
    case ListRename(_, _) => v == V3
    case ListDelete(_) => v == V3
    case FieldInput(_) => v == V4
    case ChooseMode(m) => m != Hand || v == V4
    case _ => true
  }

  /** What an action does in an editor: an action the editor does not
      offer changes nothing. */
  function Step(s: State, e: Event): (t: State)
    ensures s.version == V4 && (e.ListRename? || e.ListDelete?) ==> t == s
    ensures s.version == V3 && (e.FieldInput? || e == ChooseMode(Hand)) ==> t == s
  {
    if Offered(s.version, e) then Dispatch(s, e) else s
  }

  /** The handler each action runs. */
  function Dispatch(s: State, e: Event): State
  {
    match e
    case Press(target, at) => MouseDown(s, target, at)
    case Finish => Finalize(s)
    case EscapeKey => Escape(s)
    case UndoAction => Undo(s)
    case RedoAction => Redo(s)
    case DeleteKey => DeleteSelected(s)
    case ListSelect(id) => SelectRegion(s, id)
    case ListRename(id, answer) => RenamePrompt(s, id, answer)
    case ListDelete(id) => DeleteRegion(s, id)
    case ChooseMode(m) => SetMode(s, m)
    case HandleRightClick(index, confirmed) => RemoveVertex(s, index, confirmed)
    case ShiftClick(target, at) => Click(s, target, at)
    case HandleDrag(index, at) => Drag(s, index, at)
    case HandleRelease => EndDrag(s)
    case ColorInput(color) => SetColor(s, color)
    case OpacityInput(opacity) => SetOpacity(s, opacity)
    case FieldInput(text) => SetField(s, text)
    case IdInput(text) => if s.version == V3 then RenameInputV3(s, text) else RenameInputV4(s, text)
    case LoadProject(scene) => Load(s, scene)
    case UploadBackground(image) => SetBackground(s, image)
  }
}

=== FILE: editor_findings.dfy ===
/** The handlers of both editors as they are written, where they differ from
    the corrected operations in `Editor`, and the inputs that show the
    difference; each is paired with the property of the corrected operation
    that the written code misses. */
module EditorFindings {
  import opened Optional
  import opened Text
  import opened Geometry
  import opened Regions
  import opened RegionIds
  import opened Snapshots
  import UndoHistory
  import Contour
  import opened Editor
  import opened EditorLaws

  // ---------------------------------------------------------------------
  // The first editor's rename asks only the page for a clash, and its
  // prompt lets a name of nothing but white space through.

  /** `renameRegionPrompt` after the prompt answered `text`: the same name
      and a name some element carries are refused; the empty trimmed name
      is not, since no element has the id "". */
  function RenameV3AsWritten(s: State, oldId: string, text: string): (t: State)
    requires Has(s.regions, oldId)
    ensures Trim(text) == oldId || ElementExists(s, Trim(text)) ==> t == s
    ensures !(Trim(text) == oldId || ElementExists(s, Trim(text))) ==>
      && Has(t.regions, Trim(text)) && !Has(t.regions, oldId)
      && UndoHistory.GetCurrent(t.history) == Some(SceneOf(t))
  {
    var n := Trim(text);
    if n == oldId || ElementExists(s, n) then s
    else
      var r := Get(s.regions, oldId).value;
      PutHas(Delete(s.regions, oldId), r.(id := n, tagged := true), oldId);
      PutHas(Delete(s.regions, oldId), r.(id := n, tagged := true), n);
      Capture(Transfer(s, oldId, n))
  }

  /** The list's "Rename" entry as written: only a cancelled or empty
      answer is ignored before the trim. */
  function RenamePromptAsWritten(s: State, id: string, answer: Option<string>): (t: State)
    ensures answer.None? || answer == Some("") || !Has(s.regions, id) ==> t == s
    ensures answer.Some? && answer.value != "" && Has(s.regions, id) ==>
      t == RenameV3AsWritten(s, id, answer.value)
  {
    if answer.None? || answer.value == "" || !Has(s.regions, id) then s
    else RenameV3AsWritten(s, id, answer.value)
  }

  /** The id input as written: a name that is blank after trimming is
      refused, and otherwise the input asks the page for a clash exactly as
      the prompt does. */
  function RenameInputV3AsWritten(s: State, text: string): (t: State)
    ensures SelectedRegion(s).None? || Trim(text) == "" ==> t == s
    ensures SelectedRegion(s).Some? && Trim(text) != "" ==>
      var oldId := s.selected.value;
      var n := Trim(text);
      && (n == oldId || ElementExists(s, n) ==> t == s)
      && (!(n == oldId || ElementExists(s, n)) ==> Has(t.regions, n) && !Has(t.regions, oldId))
  {
    if SelectedRegion(s).None? || Trim(text) == "" then s
    else RenameV3AsWritten(s, s.selected.value, text)
  }

  /** Answering the prompt with blanks renames the region to the empty
      id. */
  lemma WhitespaceNameEmptiesId(s: State, id: string, text: string)
    requires Has(s.regions, id) && id != ""
    requires text != "" && forall k :: 0 <= k < |text| ==> IsJsWhitespace(text[k])
    ensures var t := RenamePromptAsWritten(s, id, Some(text));
      Has(t.regions, "") && !Has(t.regions, id)
  {
    TrimAllWhitespace(text);
  }

  /** The corrected prompt refuses such an answer and leaves the state
      alone. */
  lemma WhitespaceNameRefused(s: State, id: string, text: string)
    requires forall k :: 0 <= k < |text| ==> IsJsWhitespace(text[k])
    ensures RenamePrompt(s, id, Some(text)) == s
  {
    TrimAllWhitespace(text);
  }

  /** Typing into the id input the id of a region whose element carries
      no id (a curved region rebuilt by a restore) passes the page lookup
      and overwrites that region: the Map loses an entry. */
  lemma RenameOverwritesUntagged(s: State, other: string)
    requires UniqueIds(s.regions) && SelectedRegion(s).Some? && Has(s.regions, other)
    requires other != s.selected.value && !ElementExists(s, other)
    requires Trim(other) == other && other != ""
    ensures |RenameInputV3AsWritten(s, other).regions| == |s.regions| - 1
  {
    var oldId := s.selected.value;
    var r := Get(s.regions, oldId).value.(id := other, tagged := true);
    DeleteLength(s.regions, oldId);
    PutLength(Delete(s.regions, oldId), r);
  }

  /** The corrected rename never changes the number of regions. */
  lemma RenameKeepsCount(s: State, oldId: string, text: string)
    requires UniqueIds(s.regions) && Has(s.regions, oldId)
    ensures |RenameV3(s, oldId, text).regions| == |s.regions|
  {
    var n := Trim(text);
    if !(n == "" || n == oldId || IdTaken(s, n)) {
      var r := Get(s.regions, oldId).value.(id := n, tagged := true);
      DeleteLength(s.regions, oldId);
      PutLength(Delete(s.regions, oldId), r);
    }
  }

  // ---------------------------------------------------------------------
  // The second editor never captures the empty page.

  /** The second editor's page as loaded: no capture, so the history is
      empty. */
  function InitV4AsWritten(defaults: Defaults, pageIds: set<string>): (s: State)
    ensures Consistent(s) && s.regions == [] && s.current.None?
    ensures UndoHistory.GetCurrent(s.history).None?
  {
    State(V4, Polygon, [], None, 1, None, None, defaults, pageIds, {}, UndoHistory.Empty())
  }

  /** With nothing captured yet, the first finished region cannot be
      undone: undo leaves the state as it is, the region included. */
  lemma FirstRegionNotUndoable(s: State)
    requires s.history == UndoHistory.Empty()
    requires s.current.Some? && |s.current.value.points| >= Contour.MinVertices
    ensures Undo(Finalize(s)) == Finalize(s)
    ensures Has(Finalize(s).regions, s.current.value.id)
  {
    var u := s.(regions := Put(s.regions, s.current.value), current := None);
    UndoHistory.FirstCaptureNotUndoable(SceneOf(u));
    PutHas(s.regions, s.current.value, s.current.value.id);
  }

  /** After the corrected start-up, a region drawn on the empty page and
      finished is taken away again by undo. */
  lemma FirstRegionUndoable(version: Version, defaults: Defaults, pageIds: set<string>, s: State)
    requires s.history == Init(version, defaults, pageIds).history
    requires s.version == version && s.defaults == defaults
    requires s.regions == [] && s.bg.None? && s.selected.None?
    requires s.current.Some? && |s.current.value.points| >= Contour.MinVertices
    ensures Undo(Finalize(s)).regions == []
  {
    assert Synced(s);
    UndoFinalize(s);
  }

  // ---------------------------------------------------------------------
  // The second editor's restore reads an undeclared `r` after rebuilding
  // the regions and throws, so loading a project skips its capture.

  /** Loading a project in the second editor as written: the scene is
      rebuilt, then the handler stops before `capture()`. */
  function LoadV4AsWritten(s: State, sc: Scene): (t: State)
    ensures t.regions == RestoreAll(sc.regions, s.defaults, s.version)
    ensures t.history == s.history
  {
    Restore(s, sc)
  }

  /** When the loaded project has a different number of regions, the
      history's newest entry no longer describes the scene on screen. */
  lemma LoadV4LeavesHistoryBehind(s: State, sc: Scene)
    requires Synced(s)
    requires |RestoreAll(sc.regions, s.defaults, s.version)| != |s.regions|
    ensures !Synced(LoadV4AsWritten(s, sc))
  {
  }

  /** The corrected load is captured, and undoing it brings back the
      regions on screen before. */
  lemma UndoLoad(s: State, sc: Scene)
    requires Consistent(s) && Synced(s) && AllRestorable(s)
    ensures Synced(Load(s, sc))
    ensures Undo(Load(s, sc)).regions == s.regions
  {
    UndoAfterCapture(s, Restore(s, sc));
  }

  // ---------------------------------------------------------------------
  // `generateId` asks only the page, which misses regions whose element
  // carries no id.

  /** `startRegion` as written: the counter skips only ids the page
      finds. */
  function StartRegionAsWritten(s: State, p: Point): (t: State)
    ensures t.current.Some? && t.current.value.points == [Contour.StraightAt(p)]
    ensures !ElementExists(s, t.current.value.id)
    ensures t.counter > s.counter && t.current.value.id == AreaId(t.counter - 1)
    ensures t.regions == s.regions && t.history == s.history
  {
    var g := GenerateId(s.counter, DomIds(s));
    s.(current := Some(Region(g.0, [Contour.StraightAt(p)], s.defaults.color, s.defaults.opacity, "", true)),
       counter := g.1)
  }

  /** A stored region under the next counter id whose element carries no
      id gets its id handed out again. */
  lemma StartRegionReusesKey(s: State, p: Point)
    requires Has(s.regions, AreaId(s.counter)) && AreaId(s.counter) !in DomIds(s)
    ensures var t := StartRegionAsWritten(s, p);
      Has(t.regions, t.current.value.id)
  {
    GenerateIdFree(s.counter, DomIds(s));
  }

  /** Finishing a drawing whose id is already a key replaces that region:
      the number of regions stays the same. */
  lemma FinalizeOverwrites(s: State)
    requires s.current.Some? && |s.current.value.points| >= Contour.MinVertices
    requires Has(s.regions, s.current.value.id)
    ensures |Finalize(s).regions| == |s.regions|
    ensures Get(Finalize(s).regions, s.current.value.id) == Some(s.current.value)
  {
    PutLength(s.regions, s.current.value);
  }

  // ---------------------------------------------------------------------
  // The second editor's id input lets the selected region take the id of
  // the drawing in progress.

  /** The second editor's id input as written: an empty name and another
      region's name are refused. */
  function RenameInputV4AsWritten(s: State, text: string): (t: State)
    ensures SelectedRegion(s).None? || Trim(text) == "" ==> t == s
    ensures SelectedRegion(s).Some? && Trim(text) != "" ==>
      (Trim(text) != s.selected.value && Has(s.regions, Trim(text)) ==> t == s)
    ensures SelectedRegion(s).Some? && Trim(text) != "" ==>
      !(Trim(text) != s.selected.value && Has(s.regions, Trim(text))) ==>
        t.regions == Put(Delete(s.regions, s.selected.value), SelectedRegion(s).value.(id := Trim(text), tagged := true))
  {
    if SelectedRegion(s).None? then s
    else
      var n := Trim(text);
      var prior := s.selected.value;
      if n == "" then s
      else if n != prior && Has(s.regions, n) then s
      else Capture(Transfer(s, prior, n))
  }

  /** Taking the drawing's id and then finishing the drawing loses the
      renamed region: the count is what it was before the drawing. */
  lemma RenameToDrawingLosesRegion(s: State, text: string)
    requires UniqueIds(s.regions) && SelectedRegion(s).Some?
    requires s.current.Some? && |s.current.value.points| >= Contour.MinVertices
    requires Trim(text) == s.current.value.id && Trim(text) != ""
    requires !Has(s.regions, s.current.value.id)
    ensures |Finalize(RenameInputV4AsWritten(s, text)).regions| == |s.regions|
  {
    var n := Trim(text);
    var prior := s.selected.value;
    var q := SelectedRegion(s).value.(id := n, tagged := true);
    var t := RenameInputV4AsWritten(s, text);
    DeleteLength(s.regions, prior);
    PutLength(Delete(s.regions, prior), q);
    PutHas(Delete(s.regions, prior), q, n);
    FinalizeOverwrites(t);
  }

  /** The corrected input keeps the drawing's id free, so finishing the
      drawing afterwards adds a region. */
  lemma RenameKeepsDrawingFresh(s: State, text: string)
    requires Consistent(s) && s.current.Some? && !Has(s.regions, s.current.value.id)
    ensures var t := RenameInputV4(s, text);
      t.current == s.current && !Has(t.regions, s.current.value.id)
  {
    var t := RenameInputV4(s, text);
    if SelectedRegion(s).Some? && Trim(text) != "" && t != s {
      var prior := s.selected.value;
      var q := SelectedRegion(s).value.(id := Trim(text), tagged := true);
      PutHas(Delete(s.regions, prior), q, s.current.value.id);
    }
  }

  /** In the second editor, entering the selected region's own id again
      still moves it to the end of the Map. */
  lemma SameIdMovesToEnd(s: State, text: string)
    requires Consistent(s) && SelectedRegion(s).Some?
    requires Trim(text) == s.selected.value && Trim(text) != ""
    ensures RenameInputV4(s, text).regions
         == Delete(s.regions, s.selected.value) + [SelectedRegion(s).value.(tagged := true)]
  {
    var id := s.selected.value;
    var q := SelectedRegion(s).value;
    assert q.(id := id, tagged := true) == q.(tagged := true);
  }
}

=== FILE: editor_laws.dfy ===
/** What the editor's operations keep and undo: every action preserves the
    consistency of the state, and undo after a recorded action brings the
    regions back. */
module EditorLaws {
  import opened Optional
  import opened Geometry
  import opened Regions
  import opened Snapshots
  import UndoHistory
  import Contour
  import EdgePreview
  import opened Editor

  /** A selection stays valid in a Map that keeps its keys. */
  lemma SameKeys(rs: seq<Region>, q: Region)
    requires UniqueIds(rs) && Has(rs, q.id)
    ensures UniqueIds(Put(rs, q)) && forall id :: Has(Put(rs, q), id) <==> Has(rs, id)
  {
    PutUnique(rs, q);
  }

  /** Recording the scene changes nothing the invariant looks at. */
  lemma CaptureConsistent(s: State)
    ensures Consistent(Capture(s)) <==> Consistent(s)
  {
    var t := Capture(s);
    assert t.regions == s.regions && t.selected == s.selected && t.current == s.current;
  }

  lemma FinalizeConsistent(s: State)
    requires Consistent(s)
    ensures Consistent(Finalize(s))
  {
    if s.current.Some? && |s.current.value.points| >= 3 {
      PutUnique(s.regions, s.current.value);
      if s.selected.Some? {
        PutHas(s.regions, s.current.value, s.selected.value);
      }
    }
  }

  lemma RestoreConsistent(s: State, sc: Scene)
    requires Consistent(s)
    ensures Consistent(Restore(s, sc))
  {
  }

  lemma LoadConsistent(s: State, sc: Scene)
    requires Consistent(s)
    ensures Consistent(Load(s, sc))
  {
    CaptureConsistent(Restore(s, sc));
  }

  lemma DeleteRegionConsistent(s: State, id: string)
    requires Consistent(s)
    ensures Consistent(DeleteRegion(s, id))
  {
    if Has(s.regions, id) {
      DeleteUnique(s.regions, id);
    }
  }

  lemma RemoveVertexConsistent(s: State, index: nat, confirmed: bool)
    requires Consistent(s)
    ensures Consistent(RemoveVertex(s, index, confirmed))
  {
    if SelectedRegion(s).Some? {
      var r := SelectedRegion(s).value;
      if |r.points| <= 3 {
        DeleteRegionConsistent(s, r.id);
      } else {
        SameKeys(s.regions, Redraw(r, Contour.RemoveVertex(r.points, index).value));
      }
    }
  }

  lemma InsertVertexConsistent(s: State, p: Point)
    requires Consistent(s)
    ensures Consistent(InsertVertex(s, p))
  {
    if SelectedRegion(s).Some? {
      var r := SelectedRegion(s).value;
      var ins := Contour.InsertVertexNear(r.points, p, EdgeRadius(s.version));
      if ins.Inserted? {
        SameKeys(s.regions, Redraw(r, ins.points));
      }
    }
  }

  /** In either editor the click handler inserts exactly where the edge
      marker shows: an insertion means the marker is showing and the new
      vertex sits on it, and a marker showing strictly inside the radius
      means the click inserts a vertex. */
  lemma ClickInsertsWhereMarked(s: State, p: Point)
    requires SelectedRegion(s).Some? && s.current.None?
    ensures var r := SelectedRegion(s).value;
      var ins := Contour.InsertVertexNear(r.points, p, EdgeRadius(s.version));
      ins.Inserted? ==>
        && HoverPreview(s, p).ShowAt?
        && Get(InsertVertex(s, p).regions, r.id).Some?
        && Get(InsertVertex(s, p).regions, r.id).value.points[ins.index] == Contour.StraightAt(HoverPreview(s, p).at)
    ensures var r := SelectedRegion(s).value;
      HoverPreview(s, p).ShowAt? && FindClosestEdge(r.points, p).Some?
      && FindClosestEdge(r.points, p).value.dist2 < (EdgeRadius(s.version) * EdgeRadius(s.version)) as real
      ==>
        && Get(InsertVertex(s, p).regions, r.id).Some?
        && |Get(InsertVertex(s, p).regions, r.id).value.points| == |r.points| + 1
  {
    var r := SelectedRegion(s).value;
    EdgePreview.InsertWherePreviewed(r.points, p, EdgeRadius(s.version));
  }

  /** The click of a Shift+click keeps the state consistent. */
  lemma ClickConsistent(s: State, target: Target, p: Point)
    requires Consistent(s)
    ensures Consistent(Click(s, target, p))
  {
    if !(s.mode == Select && target.ShapeTarget? && target.elementId in s.listening) {
      InsertVertexConsistent(s, p);
    }
  }

  /** A Shift+click is a press (the `mousedown` handler) followed by the
      click. With the select tool, a press that misses every region's
      element deselects, so the click inserts nothing even where the
      marker showed. A press on a stored region's element selects it; the
      click then inserts on that region, unless the region was finished on
      this page since the last restore, whose element's listener takes the
      click and only selects it again. A press on a handle, or in the hand
      tool, leaves the click to the current selection. */
  lemma ShiftClickGesture(s: State, target: Target, p: Point)
    ensures s.mode == Select && target.Elsewhere? ==>
      Click(MouseDown(s, target, p), target, p) == s.(selected := None)
    ensures s.mode == Select && target.ShapeTarget? && Has(s.regions, target.elementId) ==>
      Click(MouseDown(s, target, p), target, p)
        == if target.elementId in s.listening then s.(selected := Some(target.elementId))
           else InsertVertex(s.(selected := Some(target.elementId)), p)
    ensures s.mode == Hand || target.HandleTarget? ==>
      Click(MouseDown(s, target, p), target, p) == InsertVertex(s, p)
  {
  }

  /** A Shift+click that lands on a stored region's element, with the
      select tool and nothing being drawn, selects the region. It inserts
      nothing when the region was finished on this page since the last
      restore; otherwise it inserts only where the region's edge marker
      shows, and the new vertex sits on the marker. */
  lemma ShiftClickOnRegionInsertsWhereMarked(s: State, id: string, p: Point)
    requires s.mode == Select && s.current.None? && Has(s.regions, id)
    ensures var u := s.(selected := Some(id));
      id in s.listening ==> Click(MouseDown(s, ShapeTarget(id), p), ShapeTarget(id), p) == u
    ensures var u := s.(selected := Some(id));
      var r := Get(s.regions, id).value;
      var ins := Contour.InsertVertexNear(r.points, p, EdgeRadius(s.version));
      id !in s.listening ==>
        && Click(MouseDown(s, ShapeTarget(id), p), ShapeTarget(id), p) == InsertVertex(u, p)
        && (ins.NotNear? ==> InsertVertex(u, p) == u)
        && (ins.Inserted? ==>
            && HoverPreview(u, p).ShowAt?
            && Get(InsertVertex(u, p).regions, id).Some?
            && Get(InsertVertex(u, p).regions, id).value.points[ins.index] == Contour.StraightAt(HoverPreview(u, p).at))
  {
    var u := s.(selected := Some(id));
    ShiftClickGesture(s, ShapeTarget(id), p);
    assert SelectedRegion(u) == Get(s.regions, id);
    ClickInsertsWhereMarked(u, p);
  }

  /** A region just finished takes no Shift+click insertion with the
      select tool: its element's listener swallows the click. */
  lemma FinishedRegionIgnoresShiftClick(s: State, p: Point)
    requires s.current.Some? && |s.current.value.points| >= Contour.MinVertices
    ensures var t := SetMode(Finalize(s), Select);
      var id := s.current.value.id;
      Click(MouseDown(t, ShapeTarget(id), p), ShapeTarget(id), p) == t.(selected := Some(id))
  {
    var t := SetMode(Finalize(s), Select);
    var id := s.current.value.id;
    assert Has(t.regions, id) && id in t.listening;
    ShiftClickGesture(t, ShapeTarget(id), p);
  }

  lemma DragConsistent(s: State, index: nat, p: Point)
    requires Consistent(s)
    ensures Consistent(Drag(s, index, p))
  {
    if SelectedRegion(s).Some? {
      var r := SelectedRegion(s).value;
      if index < |r.points| {
        SameKeys(s.regions, Redraw(r, r.points[index := r.points[index].(x := Round(p.x), y := Round(p.y))]));
      }
    }
  }

  lemma SetColorConsistent(s: State, color: string)
    requires Consistent(s)
    ensures Consistent(SetColor(s, color))
  {
    if SelectedRegion(s).Some? {
      SameKeys(s.regions, SelectedRegion(s).value.(color := color));
    }
  }

  lemma SetOpacityConsistent(s: State, opacity: JsValues.JsValue)
    requires Consistent(s)
    ensures Consistent(SetOpacity(s, opacity))
  {
    if SelectedRegion(s).Some? {
      SameKeys(s.regions, SelectedRegion(s).value.(opacity := opacity));
    }
  }

  lemma SetFieldConsistent(s: State, text: string)
    requires Consistent(s)
    ensures Consistent(SetField(s, text))
  {
    if SelectedRegion(s).Some? {
      SameKeys(s.regions, SelectedRegion(s).value.(field := Text.Trim(text)));
    }
  }

  /** Moving a region to a new key keeps the ids distinct and the selection
      on a region. */
  lemma TransferConsistent(s: State, oldId: string, newId: string)
    requires Consistent(s) && Has(s.regions, oldId)
    ensures Consistent(Transfer(s, oldId, newId))
  {
    var r := Get(s.regions, oldId).value.(id := newId, tagged := true);
    var d := Delete(s.regions, oldId);
    DeleteUnique(s.regions, oldId);
    PutUnique(d, r);
    if s.selected.Some? {
      PutHas(d, r, s.selected.value);
      PutHas(d, r, newId);
    }
  }

  lemma RenameV3Consistent(s: State, oldId: string, text: string)
    requires Consistent(s) && Has(s.regions, oldId)
    ensures Consistent(RenameV3(s, oldId, text))
  {
    TransferConsistent(s, oldId, Text.Trim(text));
  }

  lemma RenameInputV4Consistent(s: State, text: string)
    requires Consistent(s)
    ensures Consistent(RenameInputV4(s, text))
  {
    if SelectedRegion(s).Some? {
      TransferConsistent(s, s.selected.value, Text.Trim(text));
    }
  }

  lemma MouseDownConsistent(s: State, target: Target, p: Point)
    requires Consistent(s)
    ensures Consistent(MouseDown(s, target, p))
  {
  }

  lemma EscapeConsistent(s: State)
    requires Consistent(s)
    ensures Consistent(Escape(s))
  {
  }

  lemma UndoConsistent(s: State)
    requires Consistent(s)
    ensures Consistent(Undo(s)) && Consistent(Redo(s))
  {
  }

  lemma RenameInputV3Consistent(s: State, text: string)
    requires Consistent(s)
    ensures Consistent(RenameInputV3(s, text))
  {
    if SelectedRegion(s).Some? {
      RenameV3Consistent(s, s.selected.value, text);
    }
  }

  lemma RenamePromptConsistent(s: State, id: string, answer: Option<string>)
    requires Consistent(s)
    ensures Consistent(RenamePrompt(s, id, answer))
  {
    if answer.Some? && answer.value != "" && Has(s.regions, id) {
      RenameV3Consistent(s, id, answer.value);
    }
  }

  /** Drawing and the keyboard keep the state consistent. */
  lemma DrawingStepConsistent(s: State, e: Event)
    requires Consistent(s)
    requires e.Press? || e.Finish? || e.EscapeKey? || e.DeleteKey? || e.ChooseMode?
    ensures Consistent(Step(s, e))
  {
    match e
    case Press(target, at) => MouseDownConsistent(s, target, at);
    case Finish => FinalizeConsistent(s);
    case EscapeKey => EscapeConsistent(s);
    case DeleteKey =>
      if s.selected.Some? {
        DeleteRegionConsistent(s, s.selected.value);
      }
    case _ =>
  }

  /** No action turns one editor into the other. */
  lemma StepKeepsVersion(s: State, e: Event)
    ensures Step(s, e).version == s.version
  {
  }

  /** Loading a project is the `Load` operation. */
  lemma LoadStep(s: State, sc: Scene)
    ensures Step(s, LoadProject(sc)) == Load(s, sc)
  {
    assert Offered(s.version, LoadProject(sc));
    assert Step(s, LoadProject(sc)) == Dispatch(s, LoadProject(sc));
  }

  lemma LoadStepConsistent(s: State, sc: Scene)
    requires Consistent(s)
    ensures Consistent(Step(s, LoadProject(sc)))
  {
    LoadStep(s, sc);
    LoadConsistent(s, sc);
  }

  lemma HistoryStepConsistent(s: State, e: Event)
    requires Consistent(s) && (e.UndoAction? || e.RedoAction?)
    ensures Consistent(Step(s, e))
  {
    UndoConsistent(s);
  }

  /** Undo, redo and the scene-wide actions keep the state consistent. */
  lemma SceneStepConsistent(s: State, e: Event)
    requires Consistent(s)
    requires e.UndoAction? || e.RedoAction? || e.LoadProject? || e.UploadBackground? || e.HandleRelease?
    ensures Consistent(Step(s, e))
  {
    match e
    case UndoAction => HistoryStepConsistent(s, e);
    case RedoAction => HistoryStepConsistent(s, e);
    case LoadProject(scene) => LoadStepConsistent(s, scene);
    case UploadBackground(image) => CaptureConsistent(s.(bg := Some(image)));
    case HandleRelease => CaptureConsistent(s);
  }

  /** The editing actions on a region keep the state consistent. */
  lemma EditingStepConsistent(s: State, e: Event)
    requires Consistent(s)
    requires !(e.Press? || e.Finish? || e.EscapeKey? || e.DeleteKey? || e.ChooseMode?)
    requires !(e.UndoAction? || e.RedoAction? || e.LoadProject? || e.UploadBackground? || e.HandleRelease?)
    ensures Consistent(Step(s, e))
  {
    match e
    case ListRename(id, answer) => RenamePromptConsistent(s, id, answer);
    case ListDelete(id) => DeleteRegionConsistent(s, id);
    case HandleRightClick(index, confirmed) => RemoveVertexConsistent(s, index, confirmed);
    case ShiftClick(target, at) => ClickConsistent(s, target, at);
    case HandleDrag(index, at) => DragConsistent(s, index, at);
    case ColorInput(color) => SetColorConsistent(s, color);
    case OpacityInput(opacity) => SetOpacityConsistent(s, opacity);
    case FieldInput(text) => SetFieldConsistent(s, text);
    case IdInput(text) =>
      RenameInputV3Consistent(s, text);
      RenameInputV4Consistent(s, text);
    case _ =>
  }

  /** Every user action keeps the state consistent. */
  lemma StepConsistent(s: State, e: Event)
    requires Consistent(s)
    ensures Consistent(Step(s, e))
  {
    if e.Press? || e.Finish? || e.EscapeKey? || e.DeleteKey? || e.ChooseMode? {
      DrawingStepConsistent(s, e);
    } else if e.UndoAction? || e.RedoAction? || e.LoadProject? || e.UploadBackground? || e.HandleRelease? {
      SceneStepConsistent(s, e);
    } else {
      EditingStepConsistent(s, e);
    }
  }

  /** The history's newest entry is the scene on screen. */
  predicate Synced(s: State) {
    UndoHistory.GetCurrent(s.history) == Some(SceneOf(s))
  }

  /** Every region is one a restore would rebuild exactly, with an
      opacity the history's JSON text can hold. */
  predicate AllRestorable(s: State) {
    forall i :: 0 <= i < |s.regions| ==>
      Restorable(s.regions[i], s.defaults, s.version) && !NonFinite(s.regions[i].opacity)
  }

  /** When the scene on screen is the newest history entry and `u` only
      changes the scene, undoing the capture of `u` rebuilds the regions
      that were on screen before. */
  lemma UndoAfterCapture(s: State, u: State)
    requires Consistent(s) && Synced(s) && AllRestorable(s)
    requires u.history == s.history && u.defaults == s.defaults && u.version == s.version
    ensures Undo(Capture(u)).regions == s.regions
    ensures Undo(Capture(u)).selected.None?
  {
    UndoHistory.CaptureThenUndo(s.history, SceneOf(u));
    JsonKeepsFiniteRecords(s.regions, s.bg);
    SnapshotRoundTrip(s.regions, s.bg, s.defaults, s.version);
  }

  /** Undo right after finishing a region takes it away again. */
  lemma UndoFinalize(s: State)
    requires Consistent(s) && Synced(s) && AllRestorable(s)
    requires s.current.Some? && |s.current.value.points| >= 3
    ensures Undo(Finalize(s)).regions == s.regions
  {
    UndoAfterCapture(s, s.(regions := Put(s.regions, s.current.value), current := None,
                           listening := s.listening + {s.current.value.id}));
  }

  /** Undo right after deleting a region brings it back in its place. */
  lemma UndoDelete(s: State, id: string)
    requires Consistent(s) && Synced(s) && AllRestorable(s)
    requires Has(s.regions, id)
    ensures Undo(DeleteRegion(s, id)).regions == s.regions
  {
    UndoAfterCapture(s, s.(regions := Delete(s.regions, id), selected := if s.selected == Some(id) then None else s.selected,
                           listening := s.listening - {id}));
  }

  /** Finishing a drawing whose id no region has adds exactly one region
      and keeps every other. */
  lemma FinalizeAddsRegion(s: State)
    requires s.current.Some? && |s.current.value.points| >= 3
    requires !Has(s.regions, s.current.value.id)
    ensures |Finalize(s).regions| == |s.regions| + 1
    ensures forall id :: Has(s.regions, id) ==> Get(Finalize(s).regions, id) == Get(s.regions, id)
  {
    PutLength(s.regions, s.current.value);
    forall id | Has(s.regions, id) ensures Get(Finalize(s).regions, id) == Get(s.regions, id) {
      GetPut(s.regions, s.current.value, id);
    }
  }

  /** A region started by the editor never reuses the key of a stored
      region, so finishing it (with three points or more) adds a region. */
  lemma StartedRegionIsNew(s: State, p: Point)
    ensures var t := StartRegion(s, p);
      !Has(t.regions, t.current.value.id)
  {
  }
}

=== FILE: escape.dfy ===
/** `escapeXml` of both exporters: `String(v || '')` followed by four global
    replacements, `&` first, then `"`, `<` and `>`. The apostrophe is left as
    it is. */
module XmlEscape {
  import opened Text
  import opened JsValues

  /** `s.replace(/c/g, rep)` for a single-character pattern. */
  function ReplaceAll(s: string, c: char, rep: string): (r: string)
    ensures c !in s ==> r == s
    ensures c !in rep ==> c !in r
    ensures forall d :: d != c && d !in rep ==> (d in r <==> d in s)
  {
    if |s| == 0 then ""
    else (if s[0] == c then rep else [s[0]]) + ReplaceAll(s[1..], c, rep)
  }

  lemma {:induction false} ReplaceAllAppend(a: string, b: string, c: char, rep: string)
    ensures ReplaceAll(a + b, c, rep) == ReplaceAll(a, c, rep) + ReplaceAll(b, c, rep)
  {
    if |a| > 0 {
      assert (a + b)[1..] == a[1..] + b;
      ReplaceAllAppend(a[1..], b, c, rep);
    } else {
      assert a + b == b;
    }
  }

  /** The four passes, in the order the source applies them. */
  function EscapePasses(s: string): string {
    ReplaceAll(ReplaceAll(ReplaceAll(ReplaceAll(s, '&', "&amp;"), '"', "&quot;"), '<', "&lt;"), '>', "&gt;")
  }

  /** The replacement of one character, as an independent per-character
      reference for the four passes. */
  function EscapeChar(c: char): string {
    if c == '&' then "&amp;"
    else if c == '"' then "&quot;"
    else if c == '<' then "&lt;"
    else if c == '>' then "&gt;"
    else [c]
  }

  /** Each character replaced by its own replacement. */
  function EscapeText(s: string): (r: string)
    ensures '<' !in r && '>' !in r && '"' !in r
  {
    if |s| == 0 then "" else EscapeChar(s[0]) + EscapeText(s[1..])
  }

  lemma EscapePassesAppend(a: string, b: string)
    ensures EscapePasses(a + b) == EscapePasses(a) + EscapePasses(b)
  {
    ReplaceAllAppend(a, b, '&', "&amp;");
    var a1, b1 := ReplaceAll(a, '&', "&amp;"), ReplaceAll(b, '&', "&amp;");
    ReplaceAllAppend(a1, b1, '"', "&quot;");
    var a2, b2 := ReplaceAll(a1, '"', "&quot;"), ReplaceAll(b1, '"', "&quot;");
    ReplaceAllAppend(a2, b2, '<', "&lt;");
    var a3, b3 := ReplaceAll(a2, '<', "&lt;"), ReplaceAll(b2, '<', "&lt;");
    ReplaceAllAppend(a3, b3, '>', "&gt;");
  }

  lemma EscapePassesChar(c: char)
    ensures EscapePasses([c]) == EscapeChar(c)
  {
    assert [c][1..] == [];
    var one := ReplaceAll([c], '&', "&amp;");
    assert one == (if c == '&' then "&amp;" else [c]);
    if c == '&' {
      assert '"' !in one && '<' !in one && '>' !in one;
    } else {
      var two := ReplaceAll(one, '"', "&quot;");
      assert two == (if c == '"' then "&quot;" else [c]);
      if c == '"' {
        assert '<' !in two && '>' !in two;
      } else {
        var three := ReplaceAll(two, '<', "&lt;");
        assert three == (if c == '<' then "&lt;" else [c]);
        if c == '<' {
          assert '>' !in three;
        } else {
          assert ReplaceAll(three, '>', "&gt;") == (if c == '>' then "&gt;" else [c]);
        }
      }
    }
  }

  /** Because `&` is replaced first, the four passes replace every character
      by exactly its own replacement: no entity inserted by one pass is
      rewritten by a later one. */
  lemma {:induction false} EscapePassesPerChar(s: string)
    ensures EscapePasses(s) == EscapeText(s)
  {
    if |s| > 0 {
      assert s == [s[0]] + s[1..];
      EscapePassesAppend([s[0]], s[1..]);
      EscapePassesChar(s[0]);
      EscapePassesPerChar(s[1..]);
    } else {
      assert ReplaceAll(s, '&', "&amp;") == "";
    }
  }

  /** `escapeXml(v)`. */
  function EscapeXml(v: JsValue): (r: string)
    ensures r == EscapeText(if Truthy(v) then ToJsString(v) else "")
    ensures '<' !in r && '>' !in r && '"' !in r
    ensures !Truthy(v) ==> r == ""
  {
    var s := if Truthy(v) then ToJsString(v) else "";
    EscapePassesPerChar(s);
    EscapePasses(s)
  }

  /** Text without any of `& " < >` passes through unchanged; in particular
      the apostrophe is never escaped. */
  lemma {:induction false} EscapeTextPlain(s: string)
    requires '&' !in s && '"' !in s && '<' !in s && '>' !in s
    ensures EscapeText(s) == s
  {
    if |s| > 0 {
      EscapeTextPlain(s[1..]);
      assert [s[0]] + s[1..] == s;
    }
  }

  lemma EscapeApostrophe()
    ensures EscapeXml(Str("'")) == "'"
  {
    EscapeTextPlain("'");
  }

  predicate StartsWith(s: string, p: string) {
    |p| <= |s| && s[..|p|] == p
  }

  /** Reads the four entity references back; the inverse of `EscapeText`. */
  function Unescape(s: string): string
    decreases |s|
  {
    if |s| == 0 then ""
    else if StartsWith(s, "&amp;") then "&" + Unescape(s[5..])
    else if StartsWith(s, "&quot;") then "\"" + Unescape(s[6..])
    else if StartsWith(s, "&lt;") then "<" + Unescape(s[4..])
    else if StartsWith(s, "&gt;") then ">" + Unescape(s[4..])
    else [s[0]] + Unescape(s[1..])
  }

  lemma UnescapeAmp(t: string)
    ensures Unescape("&amp;" + t) == "&" + Unescape(t)
  {
    var e := "&amp;" + t;
    assert e[..5] == "&amp;" && e[5..] == t;
  }

  lemma UnescapeQuot(t: string)
    ensures Unescape("&quot;" + t) == "\"" + Unescape(t)
  {
    var e := "&quot;" + t;
    assert e[1] == 'q';
    assert !StartsWith(e, "&amp;");
    assert e[..6] == "&quot;" && e[6..] == t;
  }

  lemma UnescapeLt(t: string)
    ensures Unescape("&lt;" + t) == "<" + Unescape(t)
  {
    var e := "&lt;" + t;
    assert e[1] == 'l';
    assert !StartsWith(e, "&amp;") && !StartsWith(e, "&quot;");
    assert e[..4] == "&lt;" && e[4..] == t;
  }

  lemma UnescapeGt(t: string)
    ensures Unescape("&gt;" + t) == ">" + Unescape(t)
  {
    var e := "&gt;" + t;
    assert e[1] == 'g';
    assert !StartsWith(e, "&amp;") && !StartsWith(e, "&quot;") && !StartsWith(e, "&lt;");
    assert e[..4] == "&gt;" && e[4..] == t;
  }

  lemma UnescapePlain(c: char, t: string)
    requires c != '&'
    ensures Unescape([c] + t) == [c] + Unescape(t)
  {
    var e := [c] + t;
    assert e[0] == c && e[1..] == t;
  }

  /** Unescaping an escaped character in front of any text gives the
      character back and continues with that text. */
  lemma UnescapeHead(c: char, t: string)
    ensures Unescape(EscapeChar(c) + t) == [c] + Unescape(t)
  {
    if c == '&' {
      UnescapeAmp(t);
    } else if c == '"' {
      UnescapeQuot(t);
    } else if c == '<' {
      UnescapeLt(t);
    } else if c == '>' {
      UnescapeGt(t);
    } else {
      UnescapePlain(c, t);
    }
  }

  /** Escaping loses nothing: every character, and no more, is recovered. */
  lemma {:induction false} UnescapeEscape(s: string)
    ensures Unescape(EscapeText(s)) == s
  {
    if |s| > 0 {
      UnescapeHead(s[0], EscapeText(s[1..]));
      UnescapeEscape(s[1..]);
      assert [s[0]] + s[1..] == s;
    }
  }

  /** `escapeXml` of a falsy value, `0` among them, is the empty string. */
  lemma EscapeFalsy()
    ensures EscapeXml(Num("0")) == "" && EscapeXml(Null) == ""
    ensures EscapeXml(Undefined) == "" && EscapeXml(Str("")) == ""
  {
  }
}

=== FILE: export.dfy ===
/** The export buttons of both editors: every region becomes one export item
    (`collectShapesForExport` in `app.js`, the inline mapping in
    `v4/app.js`) and the items go through `buildCleanSVGFragment`. */
module RegionExport {
  import opened Optional
  import opened JsValues
  import opened Text
  import opened Geometry
  import opened Regions
  import opened Render
  import opened Snapshots
  import opened XmlEscape
  import opened Markup
  import opened SvgExport
  import opened Editor

  /** Text that escaping leaves alone. */
  predicate NoMarkup(s: string) {
    '&' !in s && '"' !in s && '<' !in s && '>' !in s
  }

  lemma NumeralNoMarkup(s: string)
    requires IsNumeral(s)
    ensures NoMarkup(s)
  {
    NumeralFree(s, '&');
    NumeralFree(s, '"');
    NumeralFree(s, '<');
    NumeralFree(s, '>');
  }

  lemma {:induction false} JoinNoMarkup(parts: seq<string>, sep: string)
    requires NoMarkup(sep)
    requires forall k :: 0 <= k < |parts| ==> NoMarkup(parts[k])
    ensures NoMarkup(Join(parts, sep))
  {
    if |parts| > 1 {
      JoinNoMarkup(parts[1..], sep);
    }
  }

  lemma IntNoMarkup(i: int)
    ensures NoMarkup(IntToString(i))
  {
    NumeralNoMarkup(IntToString(i));
  }

  /** The `points` list holds only digits, signs, commas and spaces. */
  lemma PointsAttrNoMarkup(pts: seq<Vertex>)
    ensures NoMarkup(PointsAttr(pts))
  {
    forall k | 0 <= k < |pts| ensures NoMarkup(Pairs(pts)[k]) {
      IntNoMarkup(pts[k].x);
      IntNoMarkup(pts[k].y);
    }
    JoinNoMarkup(Pairs(pts), " ");
  }

  lemma SegmentNoMarkup(v: Vertex)
    ensures NoMarkup(Segment(v))
  {
    IntNoMarkup(v.x);
    IntNoMarkup(v.y);
    if IsQuad(v) {
      IntNoMarkup(v.cx.value);
      IntNoMarkup(v.cy.value);
    }
  }

  lemma {:induction false} SegmentsNoMarkup(vs: seq<Vertex>)
    ensures NoMarkup(Segments(vs))
  {
    if |vs| > 0 {
      SegmentNoMarkup(vs[0]);
      SegmentsNoMarkup(vs[1..]);
    }
  }

  /** The `d` string holds only command letters, digits, signs and
      spaces. */
  lemma PathDNoMarkup(pts: seq<Vertex>)
    requires |pts| >= 1
    ensures NoMarkup(PathD(pts))
  {
    IntNoMarkup(pts[0].x);
    IntNoMarkup(pts[0].y);
    SegmentsNoMarkup(pts[1..]);
  }

  /** Escaping text without markup characters changes nothing. */
  lemma EscapeNoMarkup(s: string)
    requires NoMarkup(s)
    ensures EscapeXml(Str(s)) == s
  {
    EscapeTextPlain(s);
    if s == "" {
      EscapeTextPlain("");
    }
  }

  /** The first editor's export item for a region: its tag follows the
      element (a path once a vertex is curved), the colour and opacity fall
      back on the defaults, the outline is black and 1.5 wide. */
  function ItemV3(r: Region, d: Defaults): (it: Item)
    ensures IsShape(it) && it.tag == ElementTag(r.points) && it.id == Str(r.id)
    ensures Truthy(it.attr.fill) || d.color == ""
    ensures it.attr.fillOpacity.Null? || it.attr.fillOpacity.Undefined? ==> it.attr.fillOpacity == d.opacity
    ensures it.tag == "path" ==> |r.points| >= 1
  {
    var style := (
      Str(if r.color == "" then d.color else r.color),
      if r.opacity.Null? || r.opacity.Undefined? then d.opacity else r.opacity);
    if AnyCurve(r.points) then
      Item("path", Str(r.id), Attrs(Undefined, Str(PathD(r.points)), style.0, style.1, Str("black"), Num("1.5")))
    else
      Item("polygon", Str(r.id), Attrs(Str(PointsAttr(r.points)), Undefined, style.0, style.1, Str("black"), Num("1.5")))
  }

  /** The second editor's export item: the colour and opacity as stored,
      the `points` list always, the `d` string only for a path, and the
      width as the string "1.5". */
  function ItemV4(r: Region): (it: Item)
    ensures IsShape(it) && it.tag == ElementTag(r.points) && it.id == Str(r.id)
    ensures it.attr.fill == Str(r.color) && it.attr.fillOpacity == r.opacity
    ensures it.tag == "path" ==> |r.points| >= 1
  {
    var d := if AnyCurve(r.points) then Str(PathD(r.points)) else Str("");
    Item(ElementTag(r.points), Str(r.id),
         Attrs(Str(PointsAttr(r.points)), d, Str(r.color), r.opacity, Str("black"), Str("1.5")))
  }

  /** The geometry the first editor exports is the region's own `points`
      list or `d` string, untouched by escaping. */
  lemma ExportedGeometryV3(r: Region, d: Defaults)
    ensures GeometryAttr(ItemV3(r, d))
         == if AnyCurve(r.points) then Attr("d", PathD(r.points)) else Attr("points", PointsAttr(r.points))
  {
    if AnyCurve(r.points) {
      PathDNoMarkup(r.points);
      EscapeNoMarkup(PathD(r.points));
    } else {
      PointsAttrNoMarkup(r.points);
      EscapeNoMarkup(PointsAttr(r.points));
    }
  }

  /** A region with a colour and an opacity is exported as the same element
      text by both editors. */
  lemma ItemsAgree(r: Region, d: Defaults)
    requires r.color != "" && !(r.opacity.Null? || r.opacity.Undefined?)
    ensures ShapeElement(ItemV3(r, d)) == ShapeElement(ItemV4(r))
  {
    var a, b := ItemV3(r, d), ItemV4(r);
    assert GeometryAttr(a) == GeometryAttr(b);
    assert StyleAttrs(a.attr) == StyleAttrs(b.attr);
  }

  /** The items in Map order. */
  function ItemsV3(rs: seq<Region>, d: Defaults): (items: seq<Item>)
    ensures |items| == |rs| && forall i :: 0 <= i < |rs| ==> items[i] == ItemV3(rs[i], d)
  {
    seq(|rs|, i requires 0 <= i < |rs| => ItemV3(rs[i], d))
  }

  function ItemsV4(rs: seq<Region>): (items: seq<Item>)
    ensures |items| == |rs| && forall i :: 0 <= i < |rs| ==> items[i] == ItemV4(rs[i])
  {
    seq(|rs|, i requires 0 <= i < |rs| => ItemV4(rs[i]))
  }

  /** The element each region is drawn with, in Map order. */
  function RegionTags(rs: seq<Region>): (tags: seq<string>)
    ensures |tags| == |rs| && forall i :: 0 <= i < |rs| ==> tags[i] == ElementTag(rs[i].points)
  {
    seq(|rs|, i requires 0 <= i < |rs| => ElementTag(rs[i].points))
  }

  lemma {:induction false} ShapeTagsOfRegions(items: seq<Item>, rs: seq<Region>)
    requires |items| == |rs|
    requires forall i :: 0 <= i < |rs| ==> IsShape(items[i]) && items[i].tag == ElementTag(rs[i].points)
    ensures ShapeTags(items) == RegionTags(rs)
  {
    if |rs| > 0 {
      ShapeTagsOfRegions(items[1..], rs[1..]);
      assert RegionTags(rs) == [ElementTag(rs[0].points)] + RegionTags(rs[1..]);
    }
  }

  /** The opacities the export inserts without escaping cannot open a
      tag. */
  predicate OpacitiesSafe(s: State) {
    && RawSafe(s.defaults.opacity)
    && forall i :: 0 <= i < |s.regions| ==> RawSafe(s.regions[i].opacity)
  }

  lemma ItemV3Safe(r: Region, d: Defaults)
    requires RawSafe(d.opacity) && RawSafe(r.opacity)
    ensures StyleSafe(ItemV3(r, d).attr)
  {
    assert ToJsString(Num("1.5")) == "1.5";
  }

  lemma ItemsV3Safe(s: State)
    requires OpacitiesSafe(s)
    ensures var items := ItemsV3(s.regions, s.defaults);
      forall k :: 0 <= k < |items| ==> StyleSafe(items[k].attr)
  {
    forall k | 0 <= k < |s.regions| ensures StyleSafe(ItemV3(s.regions[k], s.defaults).attr) {
      ItemV3Safe(s.regions[k], s.defaults);
    }
  }

  lemma ItemsV4Safe(rs: seq<Region>)
    requires forall i :: 0 <= i < |rs| ==> RawSafe(rs[i].opacity)
    ensures var items := ItemsV4(rs);
      forall k :: 0 <= k < |items| ==> StyleSafe(items[k].attr)
  {
    forall k | 0 <= k < |rs| ensures StyleSafe(ItemV4(rs[k]).attr) {
      assert ItemV4(rs[k]).attr.strokeWidth == Str("1.5");
    }
  }

  /** The first editor's exports: "Export for Power BI" passes no image,
      "Export full" the background when "include image" is ticked. */
  function ExportV3(s: State, width: JsValue, height: JsValue, includeImage: bool): (svg: string)
    ensures EndsWith(svg, Close)
    ensures StartsWith(svg, RootV3(width, height))
  {
    var image := if includeImage then s.bg else None;
    var items := ItemsV3(s.regions, s.defaults);
    var svg := BuildV3(items, width, height, image);
    PrefixOfFour(RootV3(width, height), if HasImage(image) then BackgroundV3(width, height, image.value.href) else "",
      ShapesMarkup(items), Close);
    svg
  }

  lemma PrefixOfFour(a: string, b: string, c: string, d: string)
    ensures StartsWith(a + b + c + d, a)
  {
    assert (a + b + c + d)[..|a|] == a;
  }

  /** The second editor's export, with the background whenever there is
      one. */
  function ExportV4(s: State, width: JsValue, height: JsValue): (svg: string)
    ensures EndsWith(svg, Close)
    ensures StartsWith(svg, RootV4(width, height))
  {
    var items := ItemsV4(s.regions);
    var svg := BuildV4(items, width, height, s.bg);
    PrefixOfFour(RootV4(width, height), if HasImage(s.bg) then BackgroundV4(s.bg.value) else "",
      ShapesMarkup(items), Close);
    svg
  }

  /** The first editor's export document is the root, the background when
      it was asked for, one element per region in Map order, and the
      close. */
  lemma ExportTagsV3(s: State, width: JsValue, height: JsValue, includeImage: bool)
    requires RawSafe(width) && RawSafe(height) && OpacitiesSafe(s)
    requires includeImage && s.bg.Some? ==> RawSafe(s.bg.value.href)
    ensures Tags(ExportV3(s, width, height, includeImage))
         == ["svg"] + (if includeImage && HasImage(s.bg) then ["image"] else [])
            + RegionTags(s.regions) + ["/svg"]
  {
    var items := ItemsV3(s.regions, s.defaults);
    var image := if includeImage then s.bg else None;
    ItemsV3Safe(s);
    TagsV3(items, width, height, image);
    ItemsV3Tags(s.regions, s.defaults);
    assert HasImage(image) == (includeImage && HasImage(s.bg));
    DocumentOfRegions(HasImage(image), items, s.regions);
  }

  /** The same for the second editor, whose background follows the
      scene. */
  lemma ExportTagsV4(s: State, width: JsValue, height: JsValue)
    requires RawSafe(width) && RawSafe(height)
    requires forall i :: 0 <= i < |s.regions| ==> RawSafe(s.regions[i].opacity)
    requires s.bg.Some? ==> RawSafe(s.bg.value.width) && RawSafe(s.bg.value.height)
    ensures Tags(ExportV4(s, width, height))
         == ["svg"] + (if HasImage(s.bg) then ["image"] else []) + RegionTags(s.regions) + ["/svg"]
  {
    var items := ItemsV4(s.regions);
    ItemsV4Safe(s.regions);
    TagsV4(items, width, height, s.bg);
    ItemsV4Tags(s.regions);
    DocumentOfRegions(HasImage(s.bg), items, s.regions);
  }

  lemma ItemsV3Tags(rs: seq<Region>, d: Defaults)
    ensures ShapeTags(ItemsV3(rs, d)) == RegionTags(rs)
  {
    ShapeTagsOfRegions(ItemsV3(rs, d), rs);
  }

  lemma ItemsV4Tags(rs: seq<Region>)
    ensures ShapeTags(ItemsV4(rs)) == RegionTags(rs)
  {
    ShapeTagsOfRegions(ItemsV4(rs), rs);
  }

  lemma DocumentOfRegions(hasBg: bool, items: seq<Item>, rs: seq<Region>)
    requires ShapeTags(items) == RegionTags(rs)
    ensures DocumentShape(hasBg, items) == ["svg"] + (if hasBg then ["image"] else []) + RegionTags(rs) + ["/svg"]
  {
  }
}

=== FILE: geometry.dfy ===
/** The geometry kernel of both editors: projecting a point onto a segment
    (`projectPointToSegment`), finding the closest edge of a closed contour
    (`findClosestEdge`) and `Math.round`. Coordinates are exact reals here and
    distances are compared squared, which orders them as `Math.hypot` does. */
module Geometry {
  import opened Optional

  /** A stored contour point; `cx`/`cy` is the control point of the quadratic
      segment that ends at this vertex, present only on curved vertices. */
  datatype Vertex = Vertex(x: int, y: int, curve: bool, cx: Option<int>, cy: Option<int>)

  datatype Point = Point(x: real, y: real)

  function AsPoint(v: Vertex): Point {
    Point(v.x as real, v.y as real)
  }

  /** Squared Euclidean distance. */
  function Dist2(p: Point, q: Point): real {
    (p.x - q.x) * (p.x - q.x) + (p.y - q.y) * (p.y - q.y)
  }

  /** The point at parameter `t` along the segment from `a` to `b`. */
  function Lerp(a: Point, b: Point, t: real): Point {
    Point(a.x + t * (b.x - a.x), a.y + t * (b.y - a.y))
  }

  function Clamp01(t: real): (r: real)
    ensures 0.0 <= r <= 1.0
    ensures 0.0 <= t <= 1.0 ==> r == t
  {
    if t < 0.0 then 0.0 else if t > 1.0 then 1.0 else t
  }

  /** `Math.round`: the nearest integer, halves rounded up. */
  function Round(x: real): (r: int)
    ensures r as real - 0.5 <= x < r as real + 0.5
  {
    (x + 0.5).Floor
  }

  datatype Projection = Projection(point: Point, dist2: real)

  lemma SquareNonNegative(x: real)
    ensures x * x >= 0.0
  {
    if x < 0.0 {
      assert (-x) * (-x) == x * x;
    }
  }

  /** The squared length of the segment between two vertices. */
  function Length2(a: Vertex, b: Vertex): real {
    var dx, dy := (b.x - a.x) as real, (b.y - a.y) as real;
    dx * dx + dy * dy
  }

  /** The dot product of `p - a` with `b - a`. */
  function Dot(p: Point, a: Vertex, b: Vertex): real {
    (p.x - a.x as real) * (b.x - a.x) as real + (p.y - a.y as real) * (b.y - a.y) as real
  }

  lemma SquareAsReal(n: int)
    ensures (n * n) as real == (n as real) * (n as real)
  {
  }

  /** A segment between distinct vertex positions has a positive squared
      length (argued over the integers, where the vertices live). */
  lemma SquaredLengthPositive(a: Vertex, b: Vertex)
    requires a.x != b.x || a.y != b.y
    ensures Length2(a, b) > 0.0
  {
    var dx, dy := b.x - a.x, b.y - a.y;
    assert dx * dx + dy * dy > 0;
    SquareAsReal(dx);
    SquareAsReal(dy);
    assert (dx * dx + dy * dy) as real == (dx * dx) as real + (dy * dy) as real;
  }

  lemma Dist2NonNegative(p: Point, q: Point)
    ensures Dist2(p, q) >= 0.0
  {
    SquareNonNegative(p.x - q.x);
    SquareNonNegative(p.y - q.y);
  }

  /** The parameter of the projection of `p` onto the line through two
      distinct vertex positions, clamped to the segment. */
  function SegmentParameter(p: Point, a: Vertex, b: Vertex): (t: real)
    requires a.x != b.x || a.y != b.y
    ensures 0.0 <= t <= 1.0
  {
    SquaredLengthPositive(a, b);
    Clamp01(Dot(p, a, b) / Length2(a, b))
  }

  /** `projectPointToSegment(p, a, b)`: a degenerate segment (both
      differences zero) projects to `a`; otherwise the parameter is clamped
      to [0, 1]. */
  function ProjectPointToSegment(p: Point, a: Vertex, b: Vertex): (r: Projection)
    ensures r.dist2 == Dist2(p, r.point) && r.dist2 >= 0.0
    ensures a.x == b.x && a.y == b.y ==> r.point == AsPoint(a)
    ensures exists t :: 0.0 <= t <= 1.0 && r.point == Lerp(AsPoint(a), AsPoint(b), t)
  {
    if b.x - a.x == 0 && b.y - a.y == 0 then
      assert Lerp(AsPoint(a), AsPoint(b), 0.0) == AsPoint(a);
      Dist2NonNegative(p, AsPoint(a));
      Projection(AsPoint(a), Dist2(p, AsPoint(a)))
    else
      var q := Lerp(AsPoint(a), AsPoint(b), SegmentParameter(p, a, b));
      Dist2NonNegative(p, q);
      Projection(q, Dist2(p, q))
  }

  /** The squared distance to a point of the segment, as a polynomial in the
      parameter. */
  lemma Dist2AlongSegment(p: Point, a: Vertex, b: Vertex, t: real)
    ensures Dist2(p, Lerp(AsPoint(a), AsPoint(b), t))
         == Dist2(p, AsPoint(a)) - 2.0 * t * Dot(p, a, b) + t * t * Length2(a, b)
  {
    var dx, dy := (b.x - a.x) as real, (b.y - a.y) as real;
    var wx, wy := p.x - a.x as real, p.y - a.y as real;
    var q := Lerp(AsPoint(a), AsPoint(b), t);
    assert p.x - q.x == wx - t * dx;
    assert p.y - q.y == wy - t * dy;
    assert Dist2(p, q) == (wx - t * dx) * (wx - t * dx) + (wy - t * dy) * (wy - t * dy);
    assert Dist2(p, AsPoint(a)) == wx * wx + wy * wy;
    assert Dot(p, a, b) == wx * dx + wy * dy;
    assert Length2(a, b) == dx * dx + dy * dy;
    Collect(wx, wy, dx, dy, t);
  }

  /** The expansion of a squared distance along a direction. */
  lemma Collect(wx: real, wy: real, dx: real, dy: real, t: real)
    ensures (wx - t * dx) * (wx - t * dx) + (wy - t * dy) * (wy - t * dy)
         == (wx * wx + wy * wy) - 2.0 * t * (wx * dx + wy * dy) + t * t * (dx * dx + dy * dy)
  {
  }

  /** For a positive `l2` and `s = dot / l2`, the clamped parameter is at
      least as good as any other parameter in [0, 1]. */
  lemma ClampIsBest(dot: real, l2: real, t: real)
    requires l2 > 0.0 && 0.0 <= t <= 1.0
    ensures var c := Clamp01(dot / l2);
      -2.0 * c * dot + c * c * l2 <= -2.0 * t * dot + t * t * l2
  {
    var s := dot / l2;
    var c := Clamp01(s);
    assert dot == s * l2;
    assert (-2.0 * t * dot + t * t * l2) - (-2.0 * c * dot + c * c * l2) == l2 * ((t - c) * (t + c - 2.0 * s));
    assert (t - c) * (t + c - 2.0 * s) >= 0.0 by {
      if s < 0.0 {
        assert c == 0.0;
        assert t * (t - 2.0 * s) >= 0.0;
      } else if s > 1.0 {
        assert c == 1.0;
        assert (t - 1.0) <= 0.0 && (t + 1.0 - 2.0 * s) < 0.0;
      } else {
        assert c == s;
        SquareNonNegative(t - s);
      }
    }
  }

  /** The projection is the point of the segment closest to `p`. */
  lemma ProjectionIsClosest(p: Point, a: Vertex, b: Vertex, t: real)
    requires 0.0 <= t <= 1.0
    ensures ProjectPointToSegment(p, a, b).dist2 <= Dist2(p, Lerp(AsPoint(a), AsPoint(b), t))
  {
    if a.x == b.x && a.y == b.y {
      assert Lerp(AsPoint(a), AsPoint(b), t) == AsPoint(a);
    } else {
      assert ProjectPointToSegment(p, a, b).point == Lerp(AsPoint(a), AsPoint(b), SegmentParameter(p, a, b));
      ClampedParameterIsClosest(p, a, b, t);
    }
  }

  lemma ClampedParameterIsClosest(p: Point, a: Vertex, b: Vertex, t: real)
    requires a.x != b.x || a.y != b.y
    requires 0.0 <= t <= 1.0
    ensures Dist2(p, Lerp(AsPoint(a), AsPoint(b), SegmentParameter(p, a, b)))
         <= Dist2(p, Lerp(AsPoint(a), AsPoint(b), t))
  {
    var l2 := Length2(a, b);
    var dot := Dot(p, a, b);
    SquaredLengthPositive(a, b);
    var c := SegmentParameter(p, a, b);
    assert c == Clamp01(dot / l2);
    Dist2AlongSegment(p, a, b, t);
    Dist2AlongSegment(p, a, b, c);
    ClampIsBest(dot, l2, t);
    ShiftBoth(Dist2(p, AsPoint(a)), -2.0 * c * dot + c * c * l2, -2.0 * t * dot + t * t * l2);
  }

  lemma ShiftBoth(base: real, x: real, y: real)
    requires x <= y
    ensures base + x <= base + y
  {
  }

  /** The hit reported for the edge from vertex `i` to its successor: the
      insertion index `i + 1`, the projected point and its squared
      distance. */
  datatype EdgeHit = EdgeHit(index: nat, point: Point, dist2: real)

  /** The end of edge `i`: the next vertex, wrapping round to the first. */
  function EdgeEnd(pts: seq<Vertex>, i: nat): Vertex
    requires i < |pts|
  {
    pts[(i + 1) % |pts|]
  }

  function HitAt(pts: seq<Vertex>, i: nat, p: Point): (h: EdgeHit)
    requires i < |pts|
    ensures h.index == i + 1
  {
    var pr := ProjectPointToSegment(p, pts[i], EdgeEnd(pts, i));
    EdgeHit(i + 1, pr.point, pr.dist2)
  }

  /** `best` is the first of the minimal hits among edges `0 .. i-1`. */
  ghost predicate FirstMinimal(pts: seq<Vertex>, p: Point, i: nat, best: EdgeHit)
    requires i <= |pts|
  {
    && 1 <= best.index <= i
    && best == HitAt(pts, best.index - 1, p)
    && (forall j :: 0 <= j < i ==> best.dist2 <= HitAt(pts, j, p).dist2)
    && (forall j :: 0 <= j < best.index - 1 ==> best.dist2 < HitAt(pts, j, p).dist2)
  }

  /** The loop of `findClosestEdge` from edge `i` on, with the best hit so
      far; a strictly smaller distance replaces it, so ties keep the earlier
      edge. */
  function ClosestFrom(pts: seq<Vertex>, p: Point, i: nat, best: Option<EdgeHit>): (r: Option<EdgeHit>)
    requires i <= |pts|
    requires best.None? <==> i == 0
    requires best.Some? ==> FirstMinimal(pts, p, i, best.value)
    ensures r.None? <==> |pts| == 0
    ensures r.Some? ==> FirstMinimal(pts, p, |pts|, r.value)
    decreases |pts| - i
  {
    if i == |pts| then best
    else
      var h := HitAt(pts, i, p);
      var next := if best.None? || h.dist2 < best.value.dist2 then Some(h) else best;
      ClosestFrom(pts, p, i + 1, next)
  }

  /** `findClosestEdge(r, x, y)`: over the closed contour (the last edge runs
      back to the first vertex), the first edge of least distance, or nothing
      for an empty contour. */
  function FindClosestEdge(pts: seq<Vertex>, p: Point): (r: Option<EdgeHit>)
    ensures r.None? <==> |pts| == 0
    ensures r.Some? ==> 1 <= r.value.index <= |pts|
    ensures r.Some? ==> r.value == HitAt(pts, r.value.index - 1, p)
    ensures r.Some? ==> forall j :: 0 <= j < |pts| ==> r.value.dist2 <= HitAt(pts, j, p).dist2
    ensures r.Some? ==> forall j :: 0 <= j < r.value.index - 1 ==> r.value.dist2 < HitAt(pts, j, p).dist2
  {
    ClosestFrom(pts, p, 0, None)
  }

  /** The reported point is the point of the whole contour closest to `p`:
      no point of any edge is nearer. */
  lemma ClosestEdgeIsClosestOnContour(pts: seq<Vertex>, p: Point, j: nat, t: real)
    requires j < |pts| && 0.0 <= t <= 1.0
    ensures FindClosestEdge(pts, p).Some?
    ensures FindClosestEdge(pts, p).value.dist2 <= Dist2(p, Lerp(AsPoint(pts[j]), AsPoint(EdgeEnd(pts, j)), t))
  {
    ProjectionIsClosest(p, pts[j], EdgeEnd(pts, j), t);
    assert HitAt(pts, j, p).dist2 == ProjectPointToSegment(p, pts[j], EdgeEnd(pts, j)).dist2;
  }
}

=== FILE: history.dfy ===
/** The undo/redo history (`UndoRedo` in v4/undoRedo.js, shared by both
    editors): a stack of whole-scene snapshots and a cursor. Snapshots are
    kept as values; the JSON text round trip the source performs is taken to
    be lossless. */
module UndoHistory {
  import opened Optional

  /** `index` is -1 exactly when the stack is empty. */
  datatype History<T> = History(stack: seq<T>, index: int)

  predicate Valid<T>(h: History<T>) {
    if |h.stack| == 0 then h.index == -1 else 0 <= h.index < |h.stack|
  }

  /** The result of `undo()`/`redo()`: the new history and the snapshot
      returned, or `None` for the source's `null`. */
  datatype Step<T> = Step(history: History<T>, result: Option<T>)

  function Empty<T>(): (h: History<T>)
    ensures Valid(h) && |h.stack| == 0
  {
    History([], -1)
  }

  /** `capture(state)`: drops every snapshot after the cursor, pushes the
      new one and moves the cursor onto it. */
  function Capture<T>(h: History<T>, s: T): (r: History<T>)
    requires Valid(h)
    ensures Valid(r)
    ensures |r.stack| == h.index + 2 && r.index == h.index + 1
    ensures r.stack[..h.index + 1] == h.stack[..h.index + 1] && r.stack[r.index] == s
  {
    var kept := if h.index < |h.stack| - 1 then h.stack[..h.index + 1] else h.stack;
    History(kept + [s], |kept + [s]| - 1)
  }

  /** `undo()`: steps back when a snapshot precedes the cursor. */
  function Undo<T>(h: History<T>): (r: Step<T>)
    requires Valid(h)
    ensures Valid(r.history) && r.history.stack == h.stack
    ensures r.result.Some? <==> h.index > 0
    ensures r.result.Some? ==> r.history.index == h.index - 1 && r.result.value == h.stack[h.index - 1]
    ensures r.result.None? ==> r.history == h
  {
    if h.index > 0 then
      var h' := History(h.stack, h.index - 1);
      Step(h', Some(h.stack[h'.index]))
    else Step(h, None)
  }

  /** `redo()`: steps forward when a snapshot follows the cursor. */
  function Redo<T>(h: History<T>): (r: Step<T>)
    requires Valid(h)
    ensures Valid(r.history) && r.history.stack == h.stack
    ensures r.result.Some? <==> h.index < |h.stack| - 1
    ensures r.result.Some? ==> r.history.index == h.index + 1 && r.result.value == h.stack[h.index + 1]
    ensures r.result.None? ==> r.history == h
  {
    if h.index < |h.stack| - 1 then
      var h' := History(h.stack, h.index + 1);
      Step(h', Some(h.stack[h'.index]))
    else Step(h, None)
  }

  /** `getCurrent()`: the snapshot under the cursor. */
  function GetCurrent<T>(h: History<T>): (r: Option<T>)
    requires Valid(h)
    ensures r.None? <==> |h.stack| == 0
    ensures r.Some? ==> r.value == h.stack[h.index]
  {
    if h.index >= 0 then Some(h.stack[h.index]) else None
  }

  /** `clear()`. */
  function Clear<T>(h: History<T>): (r: History<T>)
    ensures Valid(r) && GetCurrent(r).None?
  {
    Empty()
  }

  /** A capture becomes the current snapshot and leaves nothing to redo. */
  lemma CaptureThenCurrent<T>(h: History<T>, s: T)
    requires Valid(h)
    ensures GetCurrent(Capture(h, s)) == Some(s)
    ensures Redo(Capture(h, s)).result.None?
  {
  }

  /** Undoing right after a capture returns what was current before it. */
  lemma CaptureThenUndo<T>(h: History<T>, s: T)
    requires Valid(h) && |h.stack| > 0
    ensures Undo(Capture(h, s)).result == GetCurrent(h)
    ensures GetCurrent(Undo(Capture(h, s)).history) == GetCurrent(h)
  {
  }

  /** Redo undoes an undo. */
  lemma RedoAfterUndo<T>(h: History<T>)
    requires Valid(h) && Undo(h).result.Some?
    ensures Redo(Undo(h).history) == Step(h, GetCurrent(h))
  {
  }

  /** Undo undoes a redo. */
  lemma UndoAfterRedo<T>(h: History<T>)
    requires Valid(h) && Redo(h).result.Some?
    ensures Undo(Redo(h).history) == Step(h, GetCurrent(h))
  {
  }

  /** `k` undos in a row. */
  function UndoTimes<T>(h: History<T>, k: nat): (r: History<T>)
    requires Valid(h)
    ensures Valid(r) && r.stack == h.stack
    decreases k
  {
    if k == 0 then h else UndoTimes(Undo(h).history, k - 1)
  }

  /** From cursor position `i`, exactly `i` undos succeed: they walk back to
      the first snapshot, and the next one returns nothing. */
  lemma {:induction false} UndoDepth<T>(h: History<T>, k: nat)
    requires Valid(h) && k <= h.index
    ensures UndoTimes(h, k).index == h.index - k
    ensures k == h.index ==> Undo(UndoTimes(h, k)).result.None?
    decreases k
  {
    if k > 0 {
      UndoDepth(Undo(h).history, k - 1);
    }
  }

  /** Capture A, capture B, undo (back to A), capture C: the stack is
      [A, C] and there is nothing to redo; B is gone. */
  lemma BranchDropsRedo<T>(a: T, b: T, c: T)
    ensures var h1 := Capture(Capture(Empty(), a), b);
      var u := Undo(h1);
      var h2 := Capture(u.history, c);
      && u.result == Some(a)
      && h2.stack == [a, c] && h2.index == 1
      && Redo(h2).result.None?
  {
  }

  /** The first capture into an empty history cannot be undone: there is
      nothing before it. */
  lemma FirstCaptureNotUndoable<T>(s: T)
    ensures Undo(Capture(Empty(), s)).result.None?
  {
  }
}

=== FILE: ids.dfy ===
/** `generateId()`: the next `Area_<n>` whose id no element of the page
    carries, counting up from the region counter. */
module RegionIds {
  import opened Text

  function AreaId(n: nat): string {
    "Area_" + NatToString(n)
  }

  lemma AreaIdInjective(m: nat, n: nat)
    ensures AreaId(m) == AreaId(n) ==> m == n
  {
    if AreaId(m) == AreaId(n) {
      assert AreaId(m)[5..] == NatToString(m);
      assert AreaId(n)[5..] == NatToString(n);
      NatToStringInjective(m, n);
    }
  }

  /** The id handed out and the counter after it; `taken` holds the ids
      `document.getElementById` finds. Each candidate that is taken is
      dropped from `taken`, which bounds the loop. */
  function GenerateId(counter: nat, taken: set<string>): (r: (string, nat))
    ensures r.1 > counter && r.0 == AreaId(r.1 - 1)
    ensures r.0 !in taken
    ensures forall k :: counter <= k < r.1 - 1 ==> AreaId(k) in taken
    decreases |taken|
  {
    var id := AreaId(counter);
    if id in taken then
      var r := GenerateId(counter + 1, taken - {id});
      AreaIdInjective(counter, r.1 - 1);
      forall k | counter <= k < r.1 - 1 ensures AreaId(k) in taken {
        if k > counter {
          assert AreaId(k) in taken - {id};
        }
      }
      r
    else (id, counter + 1)
  }

  /** Nothing taken: the counter's own id, and the counter moves on by one. */
  lemma GenerateIdFree(counter: nat, taken: set<string>)
    requires AreaId(counter) !in taken
    ensures GenerateId(counter, taken) == (AreaId(counter), counter + 1)
  {
  }

  /** Only `Area_<n>` ids can hold the counter back: two sets that agree on
      every such id give the same result. */
  lemma {:induction false} GenerateIdIgnoresOtherIds(counter: nat, taken: set<string>, other: set<string>)
    requires forall n: nat :: AreaId(n) in other ==> AreaId(n) in taken
    requires forall n: nat :: AreaId(n) in taken ==> AreaId(n) in other
    ensures GenerateId(counter, taken) == GenerateId(counter, other)
    decreases |taken|
  {
    var id := AreaId(counter);
    if id in taken {
      assert id in other;
      forall n: nat | AreaId(n) in other - {id} ensures AreaId(n) in taken - {id} {
      }
      forall n: nat | AreaId(n) in taken - {id} ensures AreaId(n) in other - {id} {
      }
      GenerateIdIgnoresOtherIds(counter + 1, taken - {id}, other - {id});
    } else {
      assert id !in other;
    }
  }
}

=== FILE: js_value.dfy ===
/** The JavaScript values that reach the exporter and the escaping routine,
    with JavaScript's truthiness and its `String(v)` conversion. Numbers are
    carried by the text JavaScript renders them as. */
module JsValues {
  import opened Text

  datatype JsValue =
    | Str(s: string)
    | Num(text: string)
    | Bool(b: bool)
    | Null
    | Undefined

  /** JavaScript truthiness: the empty string, `0`, `NaN`, `false`, `null`
      and `undefined` are falsy (`-0` renders as "0"). */
  predicate Truthy(v: JsValue) {
    match v
    case Str(s) => |s| > 0
    case Num(t) => t != "0" && t != "NaN"
    case Bool(b) => b
    case Null => false
    case Undefined => false
  }

  /** `String(v)`, which is also what a template literal `${v}` inserts. */
  function ToJsString(v: JsValue): string {
    match v
    case Str(s) => s
    case Num(t) => t
    case Bool(b) => if b then "true" else "false"
    case Null => "null"
    case Undefined => "undefined"
  }

  /** An integer-valued JavaScript number. */
  function IntValue(i: int): (v: JsValue)
    ensures v.Num? && ToJsString(v) == IntToString(i)
  {
    Num(IntToString(i))
  }

  /** An integer number is falsy exactly when it is zero. */
  lemma IntValueTruthy(i: int)
    ensures Truthy(IntValue(i)) <==> i != 0
  {
    assert IntToString(0) == "0";
    IntToStringInjective(i, 0);
    if i < 0 {
      assert IntToString(i)[0] == '-';
    }
  }
}

=== FILE: markup.dfy ===
/** A reading of generated markup as the sequence of its tag names: for every
    `<`, the name that follows it up to the first space or `>`. Used to state
    which elements an exported document holds, and in which order. */
module Markup {

  predicate IsNameChar(c: char) {
    c != ' ' && c != '>' && c != '<'
  }

  predicate IsName(w: string) {
    forall i :: 0 <= i < |w| ==> IsNameChar(w[i])
  }

  /** The name that starts `s`. */
  function NameAt(s: string): string {
    if |s| == 0 || s[0] == ' ' || s[0] == '>' then "" else [s[0]] + NameAt(s[1..])
  }

  /** The tag names of `s`, in document order. */
  function Tags(s: string): seq<string> {
    if |s| == 0 then []
    else if s[0] == '<' then [NameAt(s[1..])] + Tags(s[1..])
    else Tags(s[1..])
  }

  predicate EndsWithGt(s: string) {
    |s| == 0 || s[|s| - 1] == '>'
  }

  lemma {:induction false} TagsFree(s: string)
    requires '<' !in s
    ensures Tags(s) == []
  {
    if |s| > 0 {
      TagsFree(s[1..]);
    }
  }

  lemma {:induction false} NameAtWord(w: string, rest: string)
    requires IsName(w)
    requires |rest| > 0 && (rest[0] == ' ' || rest[0] == '>')
    ensures NameAt(w + rest) == w
  {
    if |w| > 0 {
      assert (w + rest)[1..] == w[1..] + rest;
      NameAtWord(w[1..], rest);
      assert [w[0]] + w[1..] == w;
    } else {
      assert w + rest == rest;
    }
  }

  lemma {:induction false} NameAtClosed(a: string, b: string)
    requires |a| > 0 && a[|a| - 1] == '>'
    ensures NameAt(a + b) == NameAt(a)
  {
    if a[0] != ' ' && a[0] != '>' {
      assert (a + b)[1..] == a[1..] + b;
      NameAtClosed(a[1..], b);
    }
  }

  /** A text that ends its last tag can be read on its own: the tags of a
      concatenation are the tags of the parts. */
  lemma {:induction false} TagsAppend(a: string, b: string)
    requires EndsWithGt(a)
    ensures Tags(a + b) == Tags(a) + Tags(b)
  {
    if |a| == 0 {
      assert a + b == b;
    } else {
      assert (a + b)[1..] == a[1..] + b;
      TagsAppend(a[1..], b);
      if a[0] == '<' {
        NameAtClosed(a[1..], b);
      }
    }
  }

  /** An element `<name␣…` or `<name>…` with no further `<` has exactly one
      tag, `name`. */
  lemma ElementTags(name: string, rest: string)
    requires IsName(name)
    requires |rest| > 0 && (rest[0] == ' ' || rest[0] == '>') && '<' !in rest
    ensures Tags("<" + name + rest) == [name]
  {
    var s := "<" + name + rest;
    assert s[1..] == name + rest;
    NameAtWord(name, rest);
    TagsFree(name + rest);
  }

  /** Text without `<` adds no tag in front of what follows it. */
  lemma {:induction false} TagsSkipFree(a: string, b: string)
    requires '<' !in a
    ensures Tags(a + b) == Tags(b)
  {
    if |a| > 0 {
      assert (a + b)[1..] == a[1..] + b;
      TagsSkipFree(a[1..], b);
    } else {
      assert a + b == b;
    }
  }

  /** `<name` followed by a space or `>` reads as the tag `name` and then the
      tags of the rest. */
  lemma TagsOpen(name: string, rest: string)
    requires IsName(name)
    requires |rest| > 0 && (rest[0] == ' ' || rest[0] == '>')
    ensures Tags("<" + name + rest) == [name] + Tags(rest)
  {
    var s := "<" + name + rest;
    assert s[1..] == name + rest;
    NameAtWord(name, rest);
    TagsSkipFree(name, rest);
  }
}

=== FILE: option.dfy ===
/** An optional value: the model's rendering of JavaScript's `null`/`undefined`
    next to a present value. */
module Optional {

  datatype Option<+T> = None | Some(value: T) {

    /** The value, or `default` when absent. */
    function GetOr(default: T): T {
      match this
      case Some(v) => v
      case None => default
    }
  }
}

=== FILE: regions.dfy ===
/** The editor's `regions` Map (id -> region) as a sequence of regions in
    insertion order, which is the order `Map.prototype.forEach` visits
    them. */
module Regions {
  import opened Optional
  import opened JsValues
  import opened Geometry

  /** A finished or in-progress region. `field` is the second editor's
      data field (always "" in the first); `tagged` records whether the
      region's SVG element currently carries the region id, which is what
      `document.getElementById` sees. */
  datatype Region = Region(
    id: string,
    points: seq<Vertex>,
    color: string,
    opacity: JsValue,
    field: string,
    tagged: bool)

  /** The ids, in Map order. */
  function Keys(rs: seq<Region>): (ks: seq<string>)
    ensures |ks| == |rs| && forall i :: 0 <= i < |rs| ==> ks[i] == rs[i].id
  {
    if |rs| == 0 then [] else [rs[0].id] + Keys(rs[1..])
  }

  lemma KeysCons(a: Region, rest: seq<Region>)
    ensures forall id :: Has([a] + rest, id) <==> id == a.id || Has(rest, id)
  {
    assert Keys([a] + rest) == [a.id] + Keys(rest);
  }

  /** A Map holds each key once. */
  predicate UniqueIds(rs: seq<Region>) {
    forall i, j :: 0 <= i < j < |rs| ==> rs[i].id != rs[j].id
  }

  /** `regions.has(id)`. */
  predicate Has(rs: seq<Region>, id: string) {
    id in Keys(rs)
  }

  /** `regions.get(id)`. */
  function Get(rs: seq<Region>, id: string): (r: Option<Region>)
    ensures r.None? <==> !Has(rs, id)
    ensures r.Some? ==> r.value.id == id && r.value in rs
  {
    if |rs| == 0 then None
    else if rs[0].id == id then Some(rs[0])
    else Get(rs[1..], id)
  }

  /** `regions.set(r.id, r)`: an existing key keeps its place and gets the
      new region, a new key goes last. */
  function Put(rs: seq<Region>, r: Region): (out: seq<Region>)
    ensures Has(rs, r.id) ==> Keys(out) == Keys(rs)
    ensures !Has(rs, r.id) ==> out == rs + [r]
  {
    if |rs| == 0 then [r]
    else if rs[0].id == r.id then [r] + rs[1..]
    else [rs[0]] + Put(rs[1..], r)
  }

  /** `regions.delete(id)`. */
  function Delete(rs: seq<Region>, id: string): (out: seq<Region>)
    ensures |out| <= |rs|
    ensures !Has(out, id)
    ensures forall other :: other != id ==> (Has(out, other) <==> Has(rs, other))
  {
    if |rs| == 0 then []
    else if rs[0].id == id then
      assert Keys(rs) == [rs[0].id] + Keys(rs[1..]);
      Delete(rs[1..], id)
    else
      var rest := Delete(rs[1..], id);
      KeysCons(rs[0], rest);
      KeysCons(rs[0], rs[1..]);
      assert [rs[0]] + rs[1..] == rs;
      [rs[0]] + rest
  }

  /** The ids after a put: the put id joins the others. */
  lemma PutHas(rs: seq<Region>, r: Region, id: string)
    ensures Has(Put(rs, r), id) <==> Has(rs, id) || id == r.id
  {
    if !Has(rs, r.id) {
      assert Keys(rs + [r]) == Keys(rs) + [r.id];
    }
  }

  /** After `set`, `get` of that id is the new region and every other
      lookup is unchanged. */
  lemma {:induction false} GetPut(rs: seq<Region>, r: Region, id: string)
    ensures Get(Put(rs, r), id) == if id == r.id then Some(r) else Get(rs, id)
  {
    if |rs| > 0 && rs[0].id != r.id {
      GetPut(rs[1..], r, id);
      assert Put(rs, r)[1..] == Put(rs[1..], r);
    } else if |rs| > 0 {
      assert Put(rs, r)[1..] == rs[1..];
    }
  }

  /** A region put into a Map with distinct ids leaves the ids distinct. */
  lemma PutUnique(rs: seq<Region>, r: Region)
    requires UniqueIds(rs)
    ensures UniqueIds(Put(rs, r))
  {
    var out := Put(rs, r);
    if Has(rs, r.id) {
      assert forall k :: 0 <= k < |out| ==> out[k].id == Keys(out)[k] == Keys(rs)[k] == rs[k].id;
    } else {
      forall i, j | 0 <= i < j < |out| ensures out[i].id != out[j].id {
        if j == |rs| {
          assert out[i].id == Keys(rs)[i];
        }
      }
    }
  }

  lemma {:induction false} GetDelete(rs: seq<Region>, id: string, other: string)
    ensures Get(Delete(rs, id), other) == if other == id then None else Get(rs, other)
  {
    if |rs| > 0 {
      GetDelete(rs[1..], id, other);
      if rs[0].id != id {
        assert Delete(rs, id)[1..] == Delete(rs[1..], id);
      }
    }
  }

  /** Deleting keeps the ids distinct. */
  lemma {:induction false} DeleteUnique(rs: seq<Region>, id: string)
    requires UniqueIds(rs)
    ensures UniqueIds(Delete(rs, id))
  {
    if |rs| > 0 {
      DeleteUnique(rs[1..], id);
      if rs[0].id != id {
        var rest := Delete(rs[1..], id);
        assert !Has(rs[1..], rs[0].id) by {
          forall i | 0 <= i < |rs| - 1 ensures Keys(rs[1..])[i] != rs[0].id {
            assert rs[i + 1].id != rs[0].id;
          }
        }
        assert !Has(rest, rs[0].id);
        forall k | 0 <= k < |rest| ensures rest[k].id != rs[0].id {
          assert Keys(rest)[k] == rest[k].id;
        }
        assert Delete(rs, id) == [rs[0]] + rest;
      }
    }
  }

  /** Deleting an absent id changes nothing. */
  lemma {:induction false} DeleteAbsent(rs: seq<Region>, id: string)
    requires !Has(rs, id)
    ensures Delete(rs, id) == rs
  {
    if |rs| > 0 {
      assert [rs[0]] + rs[1..] == rs;
      KeysCons(rs[0], rs[1..]);
      DeleteAbsent(rs[1..], id);
    }
  }

  /** `set` grows the Map by one exactly when the key is new. */
  lemma PutLength(rs: seq<Region>, r: Region)
    ensures |Put(rs, r)| == if Has(rs, r.id) then |rs| else |rs| + 1
  {
    if Has(rs, r.id) {
      assert |Keys(Put(rs, r))| == |Keys(rs)|;
    }
  }

  /** `delete` shrinks a Map with distinct ids by one exactly when the key
      is present. */
  lemma {:induction false} DeleteLength(rs: seq<Region>, id: string)
    requires UniqueIds(rs)
    ensures |Delete(rs, id)| == if Has(rs, id) then |rs| - 1 else |rs|
  {
    if |rs| > 0 {
      KeysCons(rs[0], rs[1..]);
      assert [rs[0]] + rs[1..] == rs;
      if rs[0].id == id {
        assert !Has(rs[1..], id) by {
          forall k | 0 <= k < |rs| - 1 ensures Keys(rs[1..])[k] != id {
            assert rs[k + 1].id != rs[0].id;
          }
        }
        DeleteAbsent(rs[1..], id);
      } else {
        DeleteLength(rs[1..], id);
      }
    }
  }

  /** Renaming (`delete(old)` then `set(new, r)`): the region answers to its
      new id only, now last in Map order, and every other region is
      untouched. */
  function Rekey(rs: seq<Region>, oldId: string, r: Region): (out: seq<Region>)
    requires UniqueIds(rs)
    ensures UniqueIds(out)
    ensures !Has(rs, r.id) || r.id == oldId ==> |out| >= 1 && out[|out| - 1] == r
    ensures Get(out, r.id) == Some(r)
    ensures forall id :: id != oldId && id != r.id ==> Get(out, id) == Get(rs, id)
    ensures oldId != r.id ==> !Has(out, oldId)
  {
    var d := Delete(rs, oldId);
    DeleteUnique(rs, oldId);
    PutUnique(d, r);
    GetPut(d, r, r.id);
    forall id | id != oldId && id != r.id ensures Get(Put(d, r), id) == Get(rs, id) {
      GetPut(d, r, id);
      GetDelete(rs, oldId, id);
    }
    PutHas(d, r, oldId);
    Put(d, r)
  }
}

=== FILE: render.dfy ===
/** How a region's vertex list becomes SVG geometry (`updateRegionElement`
    in both editors, `createPathD` in the second): a `polygon` with a
    `points` list while no vertex is curved, otherwise a `path` whose `d`
    string has one `L` or `Q` command per vertex after the first. */
module Render {
  import opened Optional
  import opened Text
  import opened Geometry

  /** `pts.some(p => p.curve)`. */
  predicate AnyCurve(pts: seq<Vertex>) {
    exists i :: 0 <= i < |pts| && pts[i].curve
  }

  /** The element a region is drawn with. */
  function ElementTag(pts: seq<Vertex>): (tag: string)
    ensures tag == "path" <==> AnyCurve(pts)
    ensures tag == "polygon" <==> !AnyCurve(pts)
  {
    if AnyCurve(pts) then "path" else "polygon"
  }

  /** `${p.x},${p.y}`. */
  function PairText(v: Vertex): string {
    IntToString(v.x) + "," + IntToString(v.y)
  }

  function Pairs(pts: seq<Vertex>): (r: seq<string>)
    ensures |r| == |pts|
    ensures forall i :: 0 <= i < |pts| ==> r[i] == PairText(pts[i])
  {
    seq(|pts|, i requires 0 <= i < |pts| => PairText(pts[i]))
  }

  /** `pts.map(p => `${p.x},${p.y}`).join(' ')`. */
  function PointsAttr(pts: seq<Vertex>): string {
    Join(Pairs(pts), " ")
  }

  lemma NumeralFree(s: string, c: char)
    requires IsNumeral(s) && !IsNumeralChar(c)
    ensures c !in s
  {
    forall k | 0 <= k < |s| ensures s[k] != c {
      assert IsNumeralChar(s[k]);
    }
  }

  lemma PairTextSplit(v: Vertex)
    ensures ' ' !in PairText(v)
    ensures Split(PairText(v), ',') == [IntToString(v.x), IntToString(v.y)]
  {
    NumeralFree(IntToString(v.x), ' ');
    NumeralFree(IntToString(v.y), ' ');
    NumeralFree(IntToString(v.x), ',');
    NumeralFree(IntToString(v.y), ',');
    assert PairText(v) == Join([IntToString(v.x), IntToString(v.y)], ",");
    SplitJoin([IntToString(v.x), IntToString(v.y)], ',');
  }

  /** The `points` attribute lists one `x,y` pair per vertex, in vertex
      order, and each pair reads back as that vertex's coordinates. */
  lemma PointsAttrReadBack(pts: seq<Vertex>, i: nat)
    requires i < |pts|
    ensures |Split(PointsAttr(pts), ' ')| == |pts|
    ensures Split(Split(PointsAttr(pts), ' ')[i], ',') == [IntToString(pts[i].x), IntToString(pts[i].y)]
    ensures ParseInt(IntToString(pts[i].x)) == pts[i].x && ParseInt(IntToString(pts[i].y)) == pts[i].y
  {
    PointsAttrSplit(pts);
    PairTextSplit(pts[i]);
    IntToStringRoundTrip(pts[i].x);
    IntToStringRoundTrip(pts[i].y);
  }

  lemma PointsAttrSplit(pts: seq<Vertex>)
    requires |pts| >= 1
    ensures Split(PointsAttr(pts), ' ') == Pairs(pts)
  {
    forall k | 0 <= k < |pts| ensures ' ' !in Pairs(pts)[k] {
      PairTextSplit(pts[k]);
    }
    SplitJoin(Pairs(pts), ' ');
  }

  /** Two contours with the same `points` attribute have the same vertex
      positions. */
  lemma PointsAttrInjective(p: seq<Vertex>, q: seq<Vertex>)
    requires |p| >= 1 && |q| >= 1
    requires PointsAttr(p) == PointsAttr(q)
    ensures |p| == |q|
    ensures forall i :: 0 <= i < |p| ==> p[i].x == q[i].x && p[i].y == q[i].y
  {
    PointsAttrSplit(p);
    PointsAttrSplit(q);
    forall i | 0 <= i < |p| ensures p[i].x == q[i].x && p[i].y == q[i].y {
      PairTextSplit(p[i]);
      PairTextSplit(q[i]);
      IntToStringInjective(p[i].x, q[i].x);
      IntToStringInjective(p[i].y, q[i].y);
    }
  }

  /** A vertex is drawn as a quadratic segment only when it is curved and
      both control coordinates are present (`p.cx != null && p.cy != null`). */
  predicate IsQuad(v: Vertex) {
    v.curve && v.cx.Some? && v.cy.Some?
  }

  /** The `d` fragment for the segment ending at `v`. */
  function Segment(v: Vertex): string {
    if IsQuad(v) then
      " Q " + IntToString(v.cx.value) + " " + IntToString(v.cy.value)
        + " " + IntToString(v.x) + " " + IntToString(v.y)
    else " L " + IntToString(v.x) + " " + IntToString(v.y)
  }

  function Segments(vs: seq<Vertex>): string {
    if |vs| == 0 then "" else Segment(vs[0]) + Segments(vs[1..])
  }

  /** The `d` attribute: a move to the first vertex, one segment per later
      vertex, then close. */
  function PathD(pts: seq<Vertex>): string
    requires |pts| >= 1
  {
    "M " + IntToString(pts[0].x) + " " + IntToString(pts[0].y) + Segments(pts[1..]) + " Z"
  }

  /** The words of the `d` string, as an independent reference. */
  function SegmentTokens(v: Vertex): (t: seq<string>)
    ensures |t| >= 1
  {
    if IsQuad(v) then
      ["Q", IntToString(v.cx.value), IntToString(v.cy.value), IntToString(v.x), IntToString(v.y)]
    else ["L", IntToString(v.x), IntToString(v.y)]
  }

  function AllSegmentTokens(vs: seq<Vertex>): seq<string> {
    if |vs| == 0 then [] else SegmentTokens(vs[0]) + AllSegmentTokens(vs[1..])
  }

  function PathTokens(pts: seq<Vertex>): seq<string>
    requires |pts| >= 1
  {
    ["M", IntToString(pts[0].x), IntToString(pts[0].y)] + AllSegmentTokens(pts[1..]) + ["Z"]
  }

  lemma JoinCons(a: string, rest: seq<string>)
    requires |rest| >= 1
    ensures Join([a] + rest, " ") == a + " " + Join(rest, " ")
  {
    assert ([a] + rest)[1..] == rest;
  }

  lemma Join3(a: string, b: string, c: string)
    ensures Join([a, b, c], " ") == a + " " + b + " " + c
  {
    assert Join([c], " ") == c;
    JoinCons(b, [c]);
    assert [b] + [c] == [b, c];
    JoinCons(a, [b, c]);
    assert [a] + [b, c] == [a, b, c];
  }

  lemma Join5(a: string, b: string, c: string, d: string, e: string)
    ensures Join([a, b, c, d, e], " ") == a + " " + b + " " + c + " " + d + " " + e
  {
    Join3(c, d, e);
    JoinCons(b, [c, d, e]);
    assert [b] + [c, d, e] == [b, c, d, e];
    JoinCons(a, [b, c, d, e]);
    assert [a] + [b, c, d, e] == [a, b, c, d, e];
  }

  lemma SegmentJoin(v: Vertex)
    ensures Segment(v) == " " + Join(SegmentTokens(v), " ")
  {
    if IsQuad(v) {
      Join5("Q", IntToString(v.cx.value), IntToString(v.cy.value), IntToString(v.x), IntToString(v.y));
    } else {
      Join3("L", IntToString(v.x), IntToString(v.y));
    }
  }

  lemma Regroup(seg: string, segs: string, z: string, jt: string, jr: string)
    requires seg == " " + jt && segs + z == " " + jr
    ensures seg + segs + z == " " + (jt + " " + jr)
  {
    calc {
      seg + segs + z;
      seg + (segs + z);
      (" " + jt) + (" " + jr);
      " " + (jt + " " + jr);
    }
  }

  lemma {:induction false} SegmentsJoin(vs: seq<Vertex>)
    ensures Segments(vs) + " Z" == " " + Join(AllSegmentTokens(vs) + ["Z"], " ")
  {
    if |vs| > 0 {
      SegmentsJoin(vs[1..]);
      SegmentJoin(vs[0]);
      var t, rest := SegmentTokens(vs[0]), AllSegmentTokens(vs[1..]) + ["Z"];
      assert AllSegmentTokens(vs) + ["Z"] == t + rest;
      JoinAppend(t, rest, " ");
      Regroup(Segment(vs[0]), Segments(vs[1..]), " Z", Join(t, " "), Join(rest, " "));
    } else {
      assert AllSegmentTokens(vs) + ["Z"] == ["Z"];
    }
  }

  lemma HeadRegroup(x: string, y: string, segs: string, jr: string)
    requires segs + " Z" == " " + jr
    ensures "M " + x + " " + y + segs + " Z" == "M" + " " + x + " " + y + " " + jr
  {
    calc {
      "M " + x + " " + y + segs + " Z";
      "M " + x + " " + y + (segs + " Z");
      "M " + x + " " + y + (" " + jr);
      { assert "M " == "M" + " "; }
      "M" + " " + x + " " + y + " " + jr;
    }
  }

  /** The `d` string is its words separated by single spaces. */
  lemma PathDIsJoin(pts: seq<Vertex>)
    requires |pts| >= 1
    ensures PathD(pts) == Join(PathTokens(pts), " ")
  {
    var x, y := IntToString(pts[0].x), IntToString(pts[0].y);
    var head := ["M", x, y];
    var rest := AllSegmentTokens(pts[1..]) + ["Z"];
    SegmentsJoin(pts[1..]);
    Join3("M", x, y);
    JoinAppend(head, rest, " ");
    assert PathTokens(pts) == head + rest;
    HeadRegroup(x, y, Segments(pts[1..]), Join(rest, " "));
  }

  predicate IsCommand(t: string) {
    t == "M" || t == "L" || t == "Q" || t == "Z"
  }

  function Commands(ts: seq<string>): (r: seq<string>)
    ensures forall k :: 0 <= k < |r| ==> IsCommand(r[k])
  {
    if |ts| == 0 then []
    else (if IsCommand(ts[0]) then [ts[0]] else []) + Commands(ts[1..])
  }

  lemma {:induction false} CommandsAppend(a: seq<string>, b: seq<string>)
    ensures Commands(a + b) == Commands(a) + Commands(b)
  {
    if |a| > 0 {
      assert (a + b)[1..] == a[1..] + b;
      CommandsAppend(a[1..], b);
    } else {
      assert a + b == b;
    }
  }

  lemma {:induction false} NoCommands(ns: seq<string>)
    requires forall k :: 0 <= k < |ns| ==> !IsCommand(ns[k])
    ensures Commands(ns) == []
  {
    if |ns| > 0 {
      NoCommands(ns[1..]);
    }
  }

  /** A command followed by numbers contributes just the command. */
  lemma CommandThenNumbers(c: string, ns: seq<string>)
    requires IsCommand(c)
    requires forall k :: 0 <= k < |ns| ==> !IsCommand(ns[k])
    ensures Commands([c] + ns) == [c]
  {
    assert ([c] + ns)[1..] == ns;
    NoCommands(ns);
  }

  lemma NumeralNotCommand(i: int)
    ensures !IsCommand(IntToString(i))
  {
    var s := IntToString(i);
    assert IsNumeralChar(s[0]);
  }

  /** `Q` for a quadratic segment, `L` otherwise. */
  function SegmentCommand(v: Vertex): string {
    if IsQuad(v) then "Q" else "L"
  }

  /** One command per vertex, in vertex order. */
  function SegmentCommandList(vs: seq<Vertex>): (r: seq<string>)
    ensures |r| == |vs|
    ensures forall i :: 0 <= i < |vs| ==> r[i] == SegmentCommand(vs[i])
  {
    if |vs| == 0 then [] else [SegmentCommand(vs[0])] + SegmentCommandList(vs[1..])
  }

  lemma {:induction false} SegmentCommands(vs: seq<Vertex>)
    ensures Commands(AllSegmentTokens(vs)) == SegmentCommandList(vs)
  {
    if |vs| > 0 {
      var v := vs[0];
      SegmentCommands(vs[1..]);
      CommandsAppend(SegmentTokens(v), AllSegmentTokens(vs[1..]));
      NumeralNotCommand(v.x);
      NumeralNotCommand(v.y);
      if IsQuad(v) {
        NumeralNotCommand(v.cx.value);
        NumeralNotCommand(v.cy.value);
        var ns := [IntToString(v.cx.value), IntToString(v.cy.value), IntToString(v.x), IntToString(v.y)];
        CommandThenNumbers("Q", ns);
        assert SegmentTokens(v) == ["Q"] + ns;
      } else {
        var ns := [IntToString(v.x), IntToString(v.y)];
        CommandThenNumbers("L", ns);
        assert SegmentTokens(v) == ["L"] + ns;
      }
    }
  }

  /** Splitting the `d` string at spaces gives its words; its commands are
      a move, one `L` or `Q` per vertex after the first (in vertex order),
      and a close. */
  lemma PathDCommands(pts: seq<Vertex>)
    requires |pts| >= 1
    ensures Split(PathD(pts), ' ') == PathTokens(pts)
    ensures Commands(PathTokens(pts)) == ["M"] + SegmentCommandList(pts[1..]) + ["Z"]
  {
    PathDWords(pts);
    PathTokenCommands(pts);
  }

  lemma PathDWords(pts: seq<Vertex>)
    requires |pts| >= 1
    ensures Split(PathD(pts), ' ') == PathTokens(pts)
  {
    PathDIsJoin(pts);
    PathTokensSpaceFree(pts);
    SplitJoin(PathTokens(pts), ' ');
  }

  lemma PathTokenCommands(pts: seq<Vertex>)
    requires |pts| >= 1
    ensures Commands(PathTokens(pts)) == ["M"] + SegmentCommandList(pts[1..]) + ["Z"]
  {
    var head := ["M", IntToString(pts[0].x), IntToString(pts[0].y)];
    NumeralNotCommand(pts[0].x);
    NumeralNotCommand(pts[0].y);
    CommandThenNumbers("M", head[1..]);
    assert head == ["M"] + head[1..];
    CommandThenNumbers("Z", []);
    assert ["Z"] == ["Z"] + [];
    CommandsAppend(head, AllSegmentTokens(pts[1..]));
    CommandsAppend(head + AllSegmentTokens(pts[1..]), ["Z"]);
    SegmentCommands(pts[1..]);
  }

  lemma {:induction false} SegmentTokensSpaceFree(vs: seq<Vertex>)
    ensures forall k :: 0 <= k < |AllSegmentTokens(vs)| ==> ' ' !in AllSegmentTokens(vs)[k]
  {
    if |vs| > 0 {
      var v := vs[0];
      SegmentTokensSpaceFree(vs[1..]);
      NumeralFree(IntToString(v.x), ' ');
      NumeralFree(IntToString(v.y), ' ');
      if IsQuad(v) {
        NumeralFree(IntToString(v.cx.value), ' ');
        NumeralFree(IntToString(v.cy.value), ' ');
      }
      assert AllSegmentTokens(vs) == SegmentTokens(v) + AllSegmentTokens(vs[1..]);
    }
  }

  lemma PathTokensSpaceFree(pts: seq<Vertex>)
    requires |pts| >= 1
    ensures forall k :: 0 <= k < |PathTokens(pts)| ==> ' ' !in PathTokens(pts)[k]
  {
    SegmentTokensSpaceFree(pts[1..]);
    NumeralFree(IntToString(pts[0].x), ' ');
    NumeralFree(IntToString(pts[0].y), ' ');
  }
}

=== FILE: snapshot.dfy ===
/** The undo snapshot of a scene (`snapshotState`) and its inverse
    (`restoreState`): every region as a plain record in Map order, plus the
    background image. */
module Snapshots {
  import opened Optional
  import opened JsValues
  import opened Geometry
  import opened Regions
  import opened Render
  import opened SvgExport

  /** A region as it is stored in a snapshot. */
  datatype RegionRecord = RegionRecord(
    id: string,
    points: seq<Vertex>,
    color: string,
    opacity: JsValue,
    field: string)

  datatype Scene = Scene(regions: seq<RegionRecord>, bg: Option<ImageData>)

  /** The values of the "default colour" and "default opacity" inputs that
      a restored region falls back on. */
  datatype Defaults = Defaults(color: string, opacity: JsValue)

  /** Which editor restores: the first one has no data field. */
  datatype Version = V3 | V4

  /** `c || null` on a control coordinate, as both editors write it: a
      coordinate of 0 is falsy and is stored as absent. */
  function CoordAsWritten(c: Option<int>): (r: Option<int>)
    ensures r.Some? <==> c.Some? && c.value != 0
    ensures r.Some? ==> r == c
  {
    if c.Some? && c.value != 0 then c else None
  }

  /** A vertex as `snapshotState` and `restoreState` copy it. */
  function VertexAsWritten(v: Vertex): (w: Vertex)
    ensures w.x == v.x && w.y == v.y && w.curve == v.curve
    ensures w.cx == CoordAsWritten(v.cx) && w.cy == CoordAsWritten(v.cy)
  {
    Vertex(v.x, v.y, v.curve, CoordAsWritten(v.cx), CoordAsWritten(v.cy))
  }

  /** A curved vertex whose control point lies on an axis loses it in the
      round trip through a snapshot, and its quadratic segment becomes a
      straight one. */
  lemma ZeroControlLost()
    ensures var v := Vertex(10, 10, true, Some(0), Some(5));
      IsQuad(v) && !IsQuad(VertexAsWritten(VertexAsWritten(v)))
  {
  }

  /** The copy with `c ?? null`: an absent coordinate stays absent and a
      present one, zero included, is kept. */
  function CopyVertex(v: Vertex): (w: Vertex)
    ensures w.x == v.x && w.y == v.y && w.curve == v.curve
    ensures w.cx.Some? <==> v.cx.Some?
    ensures w.cy.Some? <==> v.cy.Some?
  {
    Vertex(v.x, v.y, v.curve, v.cx, v.cy)
  }

  /** Snapshot and restore give every vertex back, so a segment keeps its
      kind. */
  lemma CopyVertexRoundTrip(v: Vertex)
    ensures CopyVertex(CopyVertex(v)) == v
    ensures IsQuad(CopyVertex(CopyVertex(v))) == IsQuad(v)
  {
  }

  function CopyPoints(pts: seq<Vertex>): (r: seq<Vertex>)
    ensures |r| == |pts| && forall i :: 0 <= i < |pts| ==> r[i] == CopyVertex(pts[i])
  {
    seq(|pts|, i requires 0 <= i < |pts| => CopyVertex(pts[i]))
  }

  /** A region's record: id, copied vertices, colour, opacity and field
      (`r.field || ''`, which is the field itself for a string). */
  function Record(r: Region): (rr: RegionRecord)
    ensures rr.id == r.id && rr.color == r.color && rr.opacity == r.opacity && rr.field == r.field
    ensures rr.points == CopyPoints(r.points)
  {
    RegionRecord(r.id, CopyPoints(r.points), r.color, r.opacity, r.field)
  }

  /** `snapshotState()`: the records of the regions in Map order and the
      background. */
  function Snapshot(rs: seq<Region>, bg: Option<ImageData>): (sc: Scene)
    ensures |sc.regions| == |rs| && sc.bg == bg
    ensures forall i :: 0 <= i < |rs| ==> sc.regions[i] == Record(rs[i])
  {
    Scene(seq(|rs|, i requires 0 <= i < |rs| => Record(rs[i])), bg)
  }

  /** A number JSON has no text for: `JSON.stringify` writes NaN and the
      infinities as `null`. */
  predicate NonFinite(v: JsValue) {
    v.Num? && (v.text == "NaN" || v.text == "Infinity" || v.text == "-Infinity")
  }

  /** A value as `JSON.parse(JSON.stringify(...))` gives it back: a number
      JSON cannot write comes back as `null`, everything else unchanged (an
      undefined property is dropped and reads back as undefined). */
  function JsonValue(v: JsValue): JsValue {
    if NonFinite(v) then Null else v
  }

  function JsonImage(im: ImageData): ImageData {
    im.(width := JsonValue(im.width), height := JsonValue(im.height))
  }

  /** A scene as the undo history hands it back: the history keeps the
      `JSON.stringify` text of the snapshot and parses it on undo and
      redo. Only the numbers can change: an opacity or an image size that
      is NaN or infinite turns into `null`. */
  function JsonScene(sc: Scene): (out: Scene)
    ensures |out.regions| == |sc.regions|
    ensures forall i :: 0 <= i < |sc.regions| ==>
      out.regions[i] == sc.regions[i].(opacity := JsonValue(sc.regions[i].opacity))
    ensures out.bg.Some? <==> sc.bg.Some?
    ensures sc.bg.Some? ==> out.bg.value.href == sc.bg.value.href
  {
    Scene(seq(|sc.regions|, i requires 0 <= i < |sc.regions| => sc.regions[i].(opacity := JsonValue(sc.regions[i].opacity))),
          if sc.bg.Some? then Some(JsonImage(sc.bg.value)) else None)
  }

  /** When every opacity is a number JSON can write (or not a number), the
      JSON text of a snapshot gives back the very same records. */
  lemma JsonKeepsFiniteRecords(rs: seq<Region>, bg: Option<ImageData>)
    requires forall i :: 0 <= i < |rs| ==> !NonFinite(rs[i].opacity)
    ensures JsonScene(Snapshot(rs, bg)).regions == Snapshot(rs, bg).regions
  {
  }

  /** A NaN opacity does not survive the JSON text: the record comes back
      with `null`, and the restored region takes the default opacity. */
  lemma NaNOpacityLost(r: Region, bg: Option<ImageData>, d: Defaults, version: Version)
    requires r.opacity == Num("NaN")
    ensures JsonScene(Snapshot([r], bg)).regions[0].opacity == Null
    ensures RestoreAll(JsonScene(Snapshot([r], bg)).regions, d, version) == [RestoreRegion(Record(r).(opacity := Null), d, version)]
    ensures RestoreAll(JsonScene(Snapshot([r], bg)).regions, d, version)[0].opacity == d.opacity
  {
    var recs := JsonScene(Snapshot([r], bg)).regions;
    assert recs[..0] == [];
  }

  /** The region `restoreState` rebuilds from a record: an empty colour and
      an absent opacity fall back on the defaults; the first editor drops
      the field. The rebuilt element carries the id only while it is a
      polygon, since switching to a path replaces it with a fresh element. */
  function RestoreRegion(rr: RegionRecord, d: Defaults, version: Version): (r: Region)
    ensures r.id == rr.id && r.points == CopyPoints(rr.points)
    ensures r.color == (if rr.color == "" then d.color else rr.color)
    ensures r.opacity == (if rr.opacity.Null? || rr.opacity.Undefined? then d.opacity else rr.opacity)
    ensures r.field == (if version == V3 then "" else rr.field)
    ensures r.tagged <==> !AnyCurve(r.points)
  {
    var pts := CopyPoints(rr.points);
    Region(rr.id, pts,
           if rr.color == "" then d.color else rr.color,
           if rr.opacity.Null? || rr.opacity.Undefined? then d.opacity else rr.opacity,
           if version == V3 then "" else rr.field,
           !AnyCurve(pts))
  }

  /** The regions after `clearAllRegions()` and `regions.set(id, r)` for
      every record in order: a repeated id keeps its first place and takes
      the last record's values. */
  function RestoreAll(recs: seq<RegionRecord>, d: Defaults, version: Version): (rs: seq<Region>)
    ensures UniqueIds(rs)
  {
    if |recs| == 0 then []
    else
      var prev := RestoreAll(recs[..|recs| - 1], d, version);
      PutUnique(prev, RestoreRegion(recs[|recs| - 1], d, version));
      Put(prev, RestoreRegion(recs[|recs| - 1], d, version))
  }

  /** The restored Map holds exactly the ids the records name. */
  lemma {:induction false} RestoreAllKeys(recs: seq<RegionRecord>, d: Defaults, version: Version, id: string)
    ensures Has(RestoreAll(recs, d, version), id) <==> exists i :: 0 <= i < |recs| && recs[i].id == id
  {
    if |recs| > 0 {
      var init := recs[..|recs| - 1];
      var prev := RestoreAll(init, d, version);
      var r := RestoreRegion(recs[|recs| - 1], d, version);
      RestoreAllKeys(init, d, version, id);
      PutHas(prev, r, id);
      NamedSplit(recs, init, id);
    }
  }

  /** A record naming `id` is among all but the last or is the last. */
  lemma NamedSplit(recs: seq<RegionRecord>, init: seq<RegionRecord>, id: string)
    requires |recs| > 0 && init == recs[..|recs| - 1]
    ensures (exists i :: 0 <= i < |recs| && recs[i].id == id)
        <==> (exists i :: 0 <= i < |init| && init[i].id == id) || recs[|recs| - 1].id == id
  {
    if i :| 0 <= i < |init| && init[i].id == id {
      assert recs[i].id == id;
    }
    if i :| 0 <= i < |recs| && recs[i].id == id {
      if i < |init| {
        assert init[i].id == id;
      }
    }
  }

  /** A region exactly as a restore would rebuild it: a colour, an opacity,
      no field in the first editor, and an element that carries the id
      precisely when it is a polygon. */
  predicate Restorable(r: Region, d: Defaults, version: Version) {
    && r.color != ""
    && !(r.opacity.Null? || r.opacity.Undefined?)
    && (version == V3 ==> r.field == "")
    && (r.tagged <==> !AnyCurve(r.points))
  }

  lemma RecordRoundTrip(r: Region, d: Defaults, version: Version)
    requires Restorable(r, d, version)
    ensures RestoreRegion(Record(r), d, version) == r
  {
    var pts := CopyPoints(CopyPoints(r.points));
    assert pts == r.points;
  }

  lemma SnapshotPrefix(rs: seq<Region>, bg: Option<ImageData>)
    requires |rs| > 0
    ensures var recs := Snapshot(rs, bg).regions;
      recs[..|recs| - 1] == Snapshot(rs[..|rs| - 1], bg).regions
  {
  }

  /** In a Map with distinct ids the last region's id is not among the
      others. */
  lemma LastIsFresh(rs: seq<Region>)
    requires UniqueIds(rs) && |rs| > 0
    ensures !Has(rs[..|rs| - 1], rs[|rs| - 1].id)
  {
    var init := rs[..|rs| - 1];
    forall k | 0 <= k < |init| ensures Keys(init)[k] != rs[|rs| - 1].id {
      assert rs[k].id != rs[|rs| - 1].id;
    }
  }

  /** The last record is put onto the regions the others restore to. */
  lemma RestoreAllLast(recs: seq<RegionRecord>, d: Defaults, version: Version)
    requires |recs| > 0
    ensures RestoreAll(recs, d, version)
         == Put(RestoreAll(recs[..|recs| - 1], d, version), RestoreRegion(recs[|recs| - 1], d, version))
  {
  }

  /** Restoring a snapshot rebuilds the very regions it was taken from, in
      the same order, when their ids are distinct and each is restorable. */
  lemma {:induction false} SnapshotRoundTrip(rs: seq<Region>, bg: Option<ImageData>, d: Defaults, version: Version)
    requires UniqueIds(rs)
    requires forall i :: 0 <= i < |rs| ==> Restorable(rs[i], d, version)
    ensures RestoreAll(Snapshot(rs, bg).regions, d, version) == rs
  {
    if |rs| > 0 {
      var init := rs[..|rs| - 1];
      var last := rs[|rs| - 1];
      assert rs == init + [last];
      LastIsFresh(rs);
      SnapshotRoundTrip(init, bg, d, version);
      RestoreLast(init, last, bg, d, version);
    }
  }

  /** The step of the round trip: a restorable region with a fresh id,
      snapshotted after regions that restore exactly, is restored after
      them. */
  lemma RestoreLast(init: seq<Region>, last: Region, bg: Option<ImageData>, d: Defaults, version: Version)
    requires RestoreAll(Snapshot(init, bg).regions, d, version) == init
    requires !Has(init, last.id) && Restorable(last, d, version)
    ensures RestoreAll(Snapshot(init + [last], bg).regions, d, version) == init + [last]
  {
    var rs := init + [last];
    var recs := Snapshot(rs, bg).regions;
    SnapshotPrefix(rs, bg);
    assert rs[..|rs| - 1] == init;
    RecordRoundTrip(last, d, version);
    RestoreAllLast(recs, d, version);
  }

}

=== FILE: svg_export.dfy ===
/** `buildCleanSVGFragment` in its two dialects: the first exporter
    (`svgExport.js`, plain `href`, background sized to the document) and the
    v4 exporter (`v4/svgExport.js`, `xlink:href`, background sized to the
    image). Both emit one element per `polygon`/`path` item and escape every
    attribute except `fill-opacity` and `stroke-width`. */
module SvgExport {
  import opened Optional
  import opened JsValues
  import opened XmlEscape
  import opened Markup

  const SvgNs: string := "http://www.w3.org/2000/svg"
  const XlinkNs: string := "http://www.w3.org/1999/xlink"

  /** The `attr` object of an export item; a field the caller did not set
      is `Undefined`. */
  datatype Attrs = Attrs(
    points: JsValue,
    d: JsValue,
    fill: JsValue,
    fillOpacity: JsValue,
    stroke: JsValue,
    strokeWidth: JsValue)

  datatype Item = Item(tag: string, id: JsValue, attr: Attrs)

  /** The background image descriptor `{href, width, height}`. */
  datatype ImageData = ImageData(href: JsValue, width: JsValue, height: JsValue)

  /** `name="value" ` */
  function Attr(name: string, value: string): string {
    name + "=\"" + value + "\" "
  }

  /** `<name attrs/>`, where `attrs` ends with a space. */
  function EmptyElement(name: string, attrs: string): string {
    "<" + name + " " + attrs + "/>"
  }

  function ViewBox(width: JsValue, height: JsValue): string {
    "viewBox=\"0 0 " + ToJsString(width) + " " + ToJsString(height) + "\">"
  }

  const Close: string := "</svg>"

  /** `imageData && imageData.href` */
  predicate HasImage(imageData: Option<ImageData>) {
    imageData.Some? && Truthy(imageData.value.href)
  }

  /** A value inserted without escaping that cannot open a tag. */
  predicate EndsWith(s: string, p: string) {
    |p| <= |s| && s[|s| - |p|..] == p
  }

  predicate RawSafe(v: JsValue) {
    '<' !in ToJsString(v)
  }

  predicate StyleSafe(a: Attrs) {
    RawSafe(a.fillOpacity) && RawSafe(a.strokeWidth)
  }

  predicate IsShape(it: Item) {
    it.tag == "polygon" || it.tag == "path"
  }

  /** `fill`, `fill-opacity`, `stroke`, `stroke-width`: the two colours
      escaped, the two numbers inserted as they are. */
  function StyleAttrs(a: Attrs): string {
    Attr("fill", EscapeXml(a.fill)) + Attr("fill-opacity", ToJsString(a.fillOpacity))
    + Attr("stroke", EscapeXml(a.stroke)) + Attr("stroke-width", ToJsString(a.strokeWidth))
  }

  /** `points` for a polygon, `d` for a path. */
  function GeometryName(it: Item): string {
    if it.tag == "polygon" then "points" else "d"
  }

  function GeometryValue(it: Item): JsValue {
    if it.tag == "polygon" then it.attr.points else it.attr.d
  }

  function GeometryAttr(it: Item): string {
    Attr(GeometryName(it), EscapeXml(GeometryValue(it)))
  }

  /** The element one item contributes; the same text in both dialects. */
  function ShapeElement(it: Item): string {
    if IsShape(it) then
      EmptyElement(it.tag, Attr("id", EscapeXml(it.id)) + GeometryAttr(it) + StyleAttrs(it.attr))
    else ""
  }

  /** The items' elements, in input order. */
  function ShapesMarkup(items: seq<Item>): string {
    if |items| == 0 then "" else ShapeElement(items[0]) + ShapesMarkup(items[1..])
  }

  /** The tags of the items that produce an element, in input order. */
  function ShapeTags(items: seq<Item>): (r: seq<string>)
    ensures |r| <= |items|
  {
    if |items| == 0 then []
    else (if IsShape(items[0]) then [items[0].tag] else []) + ShapeTags(items[1..])
  }

  function RootV3(width: JsValue, height: JsValue): string {
    "<svg " + RootV3Attrs(width, height)
  }

  /** `id="bgImage" x="0" y="0" width="…" height="…" `: the background's
      placement, common to both dialects. */
  function Placement(width: JsValue, height: JsValue): string {
    Attr("id", "bgImage") + Attr("x", "0") + Attr("y", "0")
    + Attr("width", ToJsString(width)) + Attr("height", ToJsString(height))
  }

  /** Sized to the document, plain `href` inserted unescaped, no aspect ratio
      preserved. */
  function BackgroundV3(width: JsValue, height: JsValue, href: JsValue): string {
    EmptyElement("image", Placement(width, height)
      + Attr("href", ToJsString(href)) + Attr("preserveAspectRatio", "none"))
  }

  function RootV4(width: JsValue, height: JsValue): string {
    "<svg " + RootV4Attrs(width, height)
  }

  /** Sized to the image's own dimensions, escaped `xlink:href`, no
      `preserveAspectRatio`. */
  function BackgroundV4(image: ImageData): string {
    EmptyElement("image", Placement(image.width, image.height) + Attr("xlink:href", EscapeXml(image.href)))
  }

  lemma Layout(root: string, bg: string, body: string)
    ensures StartsWith(root + (bg + (body + Close)), root + bg)
    ensures EndsWith(root + (bg + (body + Close)), Close)
    ensures root + (bg + (body + Close)) == root + bg + body + Close
  {
    assert root + (bg + (body + Close)) == (root + bg) + (body + Close);
    assert root + (bg + (body + Close)) == (root + bg + body) + Close;
  }

  /** `buildCleanSVGFragment` of `svgExport.js`. */
  function BuildV3(items: seq<Item>, width: JsValue, height: JsValue, imageData: Option<ImageData>): (svg: string)
    ensures StartsWith(svg, RootV3(width, height) + (if HasImage(imageData) then BackgroundV3(width, height, imageData.value.href) else ""))
    ensures EndsWith(svg, Close)
    ensures svg == RootV3(width, height) + (if HasImage(imageData) then BackgroundV3(width, height, imageData.value.href) else "")
                   + ShapesMarkup(items) + Close
  {
    var root := RootV3(width, height);
    var bg := if HasImage(imageData) then BackgroundV3(width, height, imageData.value.href) else "";
    Layout(root, bg, ShapesMarkup(items));
    root + (bg + (ShapesMarkup(items) + Close))
  }

  /** `buildCleanSVGFragment` of `v4/svgExport.js`. */
  function BuildV4(items: seq<Item>, width: JsValue, height: JsValue, imageData: Option<ImageData>): (svg: string)
    ensures StartsWith(svg, RootV4(width, height) + (if HasImage(imageData) then BackgroundV4(imageData.value) else ""))
    ensures EndsWith(svg, Close)
    ensures svg == RootV4(width, height) + (if HasImage(imageData) then BackgroundV4(imageData.value) else "")
                   + ShapesMarkup(items) + Close
  {
    var root := RootV4(width, height);
    var bg := if HasImage(imageData) then BackgroundV4(imageData.value) else "";
    Layout(root, bg, ShapesMarkup(items));
    root + (bg + (ShapesMarkup(items) + Close))
  }

  /** Item order is kept: the markup of a concatenation is the concatenation
      of the markups. */
  lemma {:induction false} ShapesMarkupAppend(a: seq<Item>, b: seq<Item>)
    ensures ShapesMarkup(a + b) == ShapesMarkup(a) + ShapesMarkup(b)
  {
    if |a| == 0 {
      assert a + b == b;
    } else {
      assert (a + b)[0] == a[0] && (a + b)[1..] == a[1..] + b;
      ShapesMarkupAppend(a[1..], b);
      StringAssoc(ShapeElement(a[0]), ShapesMarkup(a[1..]), ShapesMarkup(b));
    }
  }

  lemma StringAssoc(x: string, y: string, z: string)
    ensures x + (y + z) == x + y + z
  {
  }

  /** An item tagged neither `polygon` nor `path` contributes nothing. */
  lemma OtherTagsSkipped(it: Item)
    requires !IsShape(it)
    ensures ShapesMarkup([it]) == ""
  {
  }

  lemma AttrSafe(name: string, value: string)
    requires '<' !in name && '<' !in value
    ensures '<' !in Attr(name, value)
  {
  }

  lemma FreeOfLt(a: string, b: string, c: string, d: string)
    requires '<' !in a && '<' !in b && '<' !in c && '<' !in d
    ensures '<' !in a + b + c + d
  {
  }

  lemma EscapedAttrSafe(name: string, v: JsValue)
    requires '<' !in name
    ensures '<' !in Attr(name, EscapeXml(v))
  {
    AttrSafe(name, EscapeXml(v));
  }

  lemma RawAttrSafe(name: string, v: JsValue)
    requires '<' !in name && RawSafe(v)
    ensures '<' !in Attr(name, ToJsString(v))
  {
    AttrSafe(name, ToJsString(v));
  }

  lemma StyleAttrsSafe(a: Attrs)
    requires StyleSafe(a)
    ensures '<' !in StyleAttrs(a)
  {
    EscapedAttrSafe("fill", a.fill);
    RawAttrSafe("fill-opacity", a.fillOpacity);
    EscapedAttrSafe("stroke", a.stroke);
    RawAttrSafe("stroke-width", a.strokeWidth);
    FreeOfLt(Attr("fill", EscapeXml(a.fill)), Attr("fill-opacity", ToJsString(a.fillOpacity)),
             Attr("stroke", EscapeXml(a.stroke)), Attr("stroke-width", ToJsString(a.strokeWidth)));
  }

  lemma ShapeTagIsName(it: Item)
    requires IsShape(it)
    ensures IsName(it.tag)
  {
    assert IsName("polygon") && IsName("path");
  }

  lemma GeometryAttrSafe(it: Item)
    ensures '<' !in GeometryAttr(it)
  {
    assert '<' !in GeometryName(it);
    EscapedAttrSafe(GeometryName(it), GeometryValue(it));
  }

  lemma FreeOfLt3(a: string, b: string, c: string)
    requires '<' !in a && '<' !in b && '<' !in c
    ensures '<' !in a + b + c
  {
  }

  /** An element built by `EmptyElement` reads as one tag. */
  lemma EmptyElementTags(name: string, attrs: string)
    requires IsName(name) && '<' !in attrs
    ensures EndsWithGt(EmptyElement(name, attrs))
    ensures Tags(EmptyElement(name, attrs)) == [name]
  {
    var rest := " " + attrs + "/>";
    assert EmptyElement(name, attrs) == "<" + name + rest;
    ElementTags(name, rest);
  }

  lemma ShapeElementTags(it: Item)
    requires StyleSafe(it.attr)
    ensures EndsWithGt(ShapeElement(it))
    ensures Tags(ShapeElement(it)) == if IsShape(it) then [it.tag] else []
  {
    if IsShape(it) {
      StyleAttrsSafe(it.attr);
      EscapedAttrSafe("id", it.id);
      GeometryAttrSafe(it);
      FreeOfLt3(Attr("id", EscapeXml(it.id)), GeometryAttr(it), StyleAttrs(it.attr));
      ShapeTagIsName(it);
      EmptyElementTags(it.tag, Attr("id", EscapeXml(it.id)) + GeometryAttr(it) + StyleAttrs(it.attr));
    }
  }

  /** Exactly one element per `polygon`/`path` item, with that tag, in input
      order. */
  lemma {:induction false} ShapesMarkupTags(items: seq<Item>)
    requires forall k :: 0 <= k < |items| ==> StyleSafe(items[k].attr)
    ensures EndsWithGt(ShapesMarkup(items))
    ensures Tags(ShapesMarkup(items)) == ShapeTags(items)
  {
    if |items| > 0 {
      ShapeElementTags(items[0]);
      ShapesMarkupTags(items[1..]);
      TagsAppend(ShapeElement(items[0]), ShapesMarkup(items[1..]));
    }
  }

  lemma CloseTags()
    ensures Tags(Close) == ["/svg"]
  {
    assert Close == "<" + "/svg" + ">";
    ElementTags("/svg", ">");
  }

  /** Reads a document made of a root, an optional background, the items'
      elements and the closing tag. */
  lemma BodyTags(items: seq<Item>)
    requires forall k :: 0 <= k < |items| ==> StyleSafe(items[k].attr)
    ensures Tags(ShapesMarkup(items) + Close) == ShapeTags(items) + ["/svg"]
  {
    ShapesMarkupTags(items);
    CloseTags();
    TagsAppend(ShapesMarkup(items), Close);
  }

  /** The tags of a document with a root, an optional background and the
      given items: `svg`, then `image` if any, then one tag per shape item,
      then the closing `/svg`. */
  function DocumentShape(hasBg: bool, items: seq<Item>): seq<string> {
    ["svg"] + (if hasBg then ["image"] else []) + ShapeTags(items) + ["/svg"]
  }

  lemma SeqRegroup(a: seq<string>, b: seq<string>, c: seq<string>, d: seq<string>)
    ensures a + (b + (c + d)) == a + b + c + d
  {
  }

  lemma DocumentTags(doc: string, root: string, bg: string, items: seq<Item>, hasBg: bool)
    requires EndsWithGt(root) && Tags(root) == ["svg"]
    requires EndsWithGt(bg) && Tags(bg) == if hasBg then ["image"] else []
    requires forall k :: 0 <= k < |items| ==> StyleSafe(items[k].attr)
    requires doc == root + (bg + (ShapesMarkup(items) + Close))
    ensures Tags(doc) == DocumentShape(hasBg, items)
  {
    var body := ShapesMarkup(items) + Close;
    var head := if hasBg then ["image"] else [];
    BodyTags(items);
    TagsAppend(bg, body);
    TagsAppend(root, bg + body);
    assert Tags(doc) == ["svg"] + (head + (ShapeTags(items) + ["/svg"]));
    SeqRegroup(["svg"], head, ShapeTags(items), ["/svg"]);
  }

  /** `<svg attrs>` with `attrs` free of `<` reads as one `svg` tag. */
  lemma RootTags(attrs: string)
    requires '<' !in attrs && |attrs| > 0 && attrs[|attrs| - 1] == '>'
    ensures EndsWithGt("<svg " + attrs) && Tags("<svg " + attrs) == ["svg"]
  {
    assert IsName("svg");
    ElementTags("svg", " " + attrs);
    SvgOpen(attrs);
  }

  lemma SvgOpen(attrs: string)
    ensures "<svg " + attrs == "<" + "svg" + (" " + attrs)
  {
  }

  lemma ViewBoxSafe(width: JsValue, height: JsValue)
    requires RawSafe(width) && RawSafe(height)
    ensures '<' !in ViewBox(width, height)
    ensures ViewBox(width, height)[|ViewBox(width, height)| - 1] == '>'
  {
  }

  function RootV3Attrs(width: JsValue, height: JsValue): string {
    Attr("xmlns", SvgNs) + Attr("width", ToJsString(width))
      + Attr("height", ToJsString(height)) + ViewBox(width, height)
  }

  lemma RootV3AttrsSafe(width: JsValue, height: JsValue)
    requires RawSafe(width) && RawSafe(height)
    ensures var attrs := RootV3Attrs(width, height);
      '<' !in attrs && |attrs| > 0 && attrs[|attrs| - 1] == '>'
  {
    AttrSafe("xmlns", SvgNs);
    AttrSafe("width", ToJsString(width));
    AttrSafe("height", ToJsString(height));
    ViewBoxSafe(width, height);
  }

  lemma RootV3Tags(width: JsValue, height: JsValue)
    requires RawSafe(width) && RawSafe(height)
    ensures EndsWithGt(RootV3(width, height)) && Tags(RootV3(width, height)) == ["svg"]
  {
    RootV3AttrsSafe(width, height);
    RootTags(RootV3Attrs(width, height));
  }

  function RootV4Attrs(width: JsValue, height: JsValue): string {
    Attr("xmlns", SvgNs) + Attr("xmlns:xlink", XlinkNs)
      + Attr("width", ToJsString(width)) + Attr("height", ToJsString(height)) + ViewBox(width, height)
  }

  lemma RootV4AttrsSafe(width: JsValue, height: JsValue)
    requires RawSafe(width) && RawSafe(height)
    ensures var attrs := RootV4Attrs(width, height);
      '<' !in attrs && |attrs| > 0 && attrs[|attrs| - 1] == '>'
  {
    AttrSafe("xmlns", SvgNs);
    AttrSafe("xmlns:xlink", XlinkNs);
    AttrSafe("width", ToJsString(width));
    AttrSafe("height", ToJsString(height));
    ViewBoxSafe(width, height);
  }

  lemma RootV4Tags(width: JsValue, height: JsValue)
    requires RawSafe(width) && RawSafe(height)
    ensures EndsWithGt(RootV4(width, height)) && Tags(RootV4(width, height)) == ["svg"]
  {
    RootV4AttrsSafe(width, height);
    RootTags(RootV4Attrs(width, height));
  }

  lemma BackgroundV3Tags(width: JsValue, height: JsValue, href: JsValue)
    requires RawSafe(width) && RawSafe(height) && RawSafe(href)
    ensures EndsWithGt(BackgroundV3(width, height, href))
    ensures Tags(BackgroundV3(width, height, href)) == ["image"]
  {
    PlacementSafe(width, height);
    AttrSafe("href", ToJsString(href));
    AttrSafe("preserveAspectRatio", "none");
    assert IsName("image");
    EmptyElementTags("image", Placement(width, height)
      + Attr("href", ToJsString(href)) + Attr("preserveAspectRatio", "none"));
  }

  lemma BackgroundV4Tags(image: ImageData)
    requires RawSafe(image.width) && RawSafe(image.height)
    ensures EndsWithGt(BackgroundV4(image))
    ensures Tags(BackgroundV4(image)) == ["image"]
  {
    PlacementSafe(image.width, image.height);
    AttrSafe("xlink:href", EscapeXml(image.href));
    assert IsName("image");
    EmptyElementTags("image", Placement(image.width, image.height) + Attr("xlink:href", EscapeXml(image.href)));
  }

  /** The first dialect's document is one `svg` root holding an optional
      `image` and then one element per shape item, in order, and closed once;
      this needs the unescaped values (sizes, numbers and the `href`) to be
      free of `<`. */
  lemma TagsV3(items: seq<Item>, width: JsValue, height: JsValue, imageData: Option<ImageData>)
    requires RawSafe(width) && RawSafe(height)
    requires imageData.Some? ==> RawSafe(imageData.value.href)
    requires forall k :: 0 <= k < |items| ==> StyleSafe(items[k].attr)
    ensures Tags(BuildV3(items, width, height, imageData)) == DocumentShape(HasImage(imageData), items)
  {
    var doc := BuildV3(items, width, height, imageData);
    RootV3Tags(width, height);
    if HasImage(imageData) {
      BackgroundV3Tags(width, height, imageData.value.href);
      DocumentTags(doc, RootV3(width, height), BackgroundV3(width, height, imageData.value.href), items, true);
    } else {
      DocumentTags(doc, RootV3(width, height), "", items, false);
    }
  }

  /** The v4 document has the same shape, and since its `href` is escaped no
      background reference can add or hide an element. */
  lemma TagsV4(items: seq<Item>, width: JsValue, height: JsValue, imageData: Option<ImageData>)
    requires RawSafe(width) && RawSafe(height)
    requires imageData.Some? ==> RawSafe(imageData.value.width) && RawSafe(imageData.value.height)
    requires forall k :: 0 <= k < |items| ==> StyleSafe(items[k].attr)
    ensures Tags(BuildV4(items, width, height, imageData)) == DocumentShape(HasImage(imageData), items)
  {
    var doc := BuildV4(items, width, height, imageData);
    RootV4Tags(width, height);
    if HasImage(imageData) {
      BackgroundV4Tags(imageData.value);
      DocumentTags(doc, RootV4(width, height), BackgroundV4(imageData.value), items, true);
    } else {
      DocumentTags(doc, RootV4(width, height), "", items, false);
    }
  }

  /** An `image` element read around one attribute value `h`. */
  lemma ImageAround(a: string, h: string, p: string)
    ensures EmptyElement("image", a + Attr("href", h) + p)
         == "<" + "image" + ((" " + a + "href=\"") + (h + ("\" " + p + "/>")))
  {
    assert Attr("href", h) == "href=\"" + h + "\" ";
    assert EmptyElement("image", a + Attr("href", h) + p) == "<" + "image" + " " + (a + Attr("href", h) + p) + "/>";
  }

  lemma PlacementSafe(width: JsValue, height: JsValue)
    requires RawSafe(width) && RawSafe(height)
    ensures '<' !in Placement(width, height)
  {
    AttrSafe("id", "bgImage");
    AttrSafe("x", "0");
    AttrSafe("y", "0");
    AttrSafe("width", ToJsString(width));
    AttrSafe("height", ToJsString(height));
  }

  /** The first dialect inserts the background reference as it is, so a
      reference holding markup adds an element of its own: here an `x` after
      the `image`. */
  lemma V3HrefNotEscaped(width: JsValue, height: JsValue)
    requires RawSafe(width) && RawSafe(height)
    ensures Tags(BackgroundV3(width, height, Str("<x>"))) == ["image", "x"]
  {
    var a := Placement(width, height);
    var p := Attr("preserveAspectRatio", "none");
    ImageAround(a, "<x>", p);
    var before := " " + a + "href=\"";
    var after := "\" " + p + "/>";
    PlacementSafe(width, height);
    AttrSafe("preserveAspectRatio", "none");
    assert '<' !in before && '<' !in after;
    var inner := "<" + "x" + (">" + after);
    assert "<x>" + after == inner;
    assert IsName("image") && IsName("x");
    TagsOpen("image", before + inner);
    TagsSkipFree(before, inner);
    TagsOpen("x", ">" + after);
    TagsFree(">" + after);
  }

  /** The string an escaped attribute carries: `escapeXml` drops a falsy
      value. */
  function ValueText(v: JsValue): string {
    if Truthy(v) then ToJsString(v) else ""
  }

  /** An attribute value as a reader takes it: the text up to the next
      double quote. */
  function QuotedValue(s: string): (v: string)
    ensures '"' !in v
  {
    if |s| == 0 || s[0] == '"' then "" else [s[0]] + QuotedValue(s[1..])
  }

  /** The value of the attribute `name="…"` that starts at position `start`,
      read up to its closing quote and unescaped. */
  function AttrValue(s: string, start: nat, name: string): string {
    var at := start + |name| + 2;
    if at <= |s| then Unescape(QuotedValue(s[at..])) else ""
  }

  lemma {:induction false} QuotedValueOf(v: string, rest: string)
    requires '"' !in v
    ensures QuotedValue(v + "\"" + rest) == v
  {
    if |v| > 0 {
      assert (v + "\"" + rest)[1..] == v[1..] + "\"" + rest;
      QuotedValueOf(v[1..], rest);
    } else {
      assert (v + "\"" + rest)[0] == '"';
    }
  }

  /** An escaped attribute anywhere in a text reads back as the value it
      was given: escaping keeps quotes out, so the value ends at its own
      closing quote and unescapes to the original string. */
  lemma EscapedAttrAt(pre: string, name: string, v: JsValue, rest: string)
    ensures AttrValue(pre + Attr(name, EscapeXml(v)) + rest, |pre|, name) == ValueText(v)
  {
    UnescapeEscape(ValueText(v));
    QuotedAttrAt(pre, name, EscapeXml(v), rest, ValueText(v));
  }

  /** A value free of quotes reads back as whatever it decodes to. */
  lemma QuotedAttrAt(pre: string, name: string, e: string, rest: string, x: string)
    requires '"' !in e && Unescape(e) == x
    ensures AttrValue(pre + Attr(name, e) + rest, |pre|, name) == x
  {
    AttrTail(pre, name, e, rest);
    QuotedValueOf(e, " " + rest);
    AttrValueOf(pre + Attr(name, e) + rest, |pre|, name, e + "\"" + (" " + rest), x);
  }

  /** What follows `name="` in an attribute. */
  lemma AttrTail(pre: string, name: string, e: string, rest: string)
    ensures |pre| + |name| + 2 <= |pre + Attr(name, e) + rest|
    ensures (pre + Attr(name, e) + rest)[|pre| + |name| + 2..] == e + "\"" + (" " + rest)
  {
    var s := pre + Attr(name, e) + rest;
    assert s == (pre + name + "=\"") + (e + "\"" + (" " + rest));
  }

  lemma AttrValueOf(s: string, start: nat, name: string, tail: string, x: string)
    requires start + |name| + 2 <= |s| && s[start + |name| + 2..] == tail
    requires Unescape(QuotedValue(tail)) == x
    ensures AttrValue(s, start, name) == x
  {
  }

  lemma ReadAt(e: string, pre: string, name: string, v: JsValue, rest: string)
    requires e == pre + Attr(name, EscapeXml(v)) + rest
    ensures AttrValue(e, |pre|, name) == ValueText(v)
  {
    EscapedAttrAt(pre, name, v, rest);
  }

  /** `<name `: what precedes an element's first attribute. */
  function OpenTag(name: string): string {
    "<" + name + " "
  }

  /** What precedes the `fill` attribute. */
  function BeforeFill(it: Item): string {
    OpenTag(it.tag) + Attr("id", EscapeXml(it.id)) + GeometryAttr(it)
  }

  /** What precedes the `stroke` attribute. */
  function BeforeStroke(it: Item): string {
    BeforeFill(it) + Attr("fill", EscapeXml(it.attr.fill)) + Attr("fill-opacity", ToJsString(it.attr.fillOpacity))
  }

  /** Moves the cut between the text before an attribute and the text
      after it. */
  lemma Regroup(h: string, i: string, g: string, f: string, o: string, k: string, w: string, z: string)
    ensures h + ((i + g) + (((f + o) + k) + w)) + z == h + i + (g + f + o + k + w + z)
    ensures h + ((i + g) + (((f + o) + k) + w)) + z == (h + i) + g + (f + o + k + w + z)
    ensures h + ((i + g) + (((f + o) + k) + w)) + z == (h + i + g) + f + (o + k + w + z)
    ensures h + ((i + g) + (((f + o) + k) + w)) + z == (h + i + g + f + o) + k + (w + z)
  {
  }

  lemma ShapeElementParts(it: Item)
    requires IsShape(it)
    ensures ShapeElement(it) == OpenTag(it.tag)
      + ((Attr("id", EscapeXml(it.id)) + GeometryAttr(it))
         + (((Attr("fill", EscapeXml(it.attr.fill)) + Attr("fill-opacity", ToJsString(it.attr.fillOpacity)))
             + Attr("stroke", EscapeXml(it.attr.stroke))) + Attr("stroke-width", ToJsString(it.attr.strokeWidth))))
      + "/>"
  {
  }

  /** Every escaped attribute of an element reads back as the item's value:
      its id (empty for a falsy one), its points or path data, its fill and
      its stroke. None of these four values can close its attribute early
      or start another. */
  lemma ShapeElementReadBack(it: Item)
    requires IsShape(it)
    ensures AttrValue(ShapeElement(it), |OpenTag(it.tag)|, "id") == ValueText(it.id)
    ensures AttrValue(ShapeElement(it), |OpenTag(it.tag) + Attr("id", EscapeXml(it.id))|, GeometryName(it))
         == ValueText(GeometryValue(it))
    ensures AttrValue(ShapeElement(it), |BeforeFill(it)|, "fill") == ValueText(it.attr.fill)
    ensures AttrValue(ShapeElement(it), |BeforeStroke(it)|, "stroke") == ValueText(it.attr.stroke)
  {
    var h := OpenTag(it.tag);
    var i := Attr("id", EscapeXml(it.id));
    var g := GeometryAttr(it);
    var f := Attr("fill", EscapeXml(it.attr.fill));
    var o := Attr("fill-opacity", ToJsString(it.attr.fillOpacity));
    var k := Attr("stroke", EscapeXml(it.attr.stroke));
    var w := Attr("stroke-width", ToJsString(it.attr.strokeWidth));
    var e := ShapeElement(it);
    ShapeElementParts(it);
    Regroup(h, i, g, f, o, k, w, "/>");
    ReadAt(e, h, "id", it.id, g + f + o + k + w + "/>");
    ReadAt(e, h + i, GeometryName(it), GeometryValue(it), f + o + k + w + "/>");
    ReadAt(e, h + i + g, "fill", it.attr.fill, o + k + w + "/>");
    ReadAt(e, h + i + g + f + o, "stroke", it.attr.stroke, w + "/>");
  }

  lemma EmptyElementAround(name: string, p: string, a: string)
    ensures EmptyElement(name, p + a) == (OpenTag(name) + p) + a + "/>"
  {
  }

  /** The v4 background reference is escaped and reads back whole. */
  lemma BackgroundV4ReadBack(image: ImageData)
    ensures AttrValue(BackgroundV4(image), |OpenTag("image") + Placement(image.width, image.height)|, "xlink:href")
         == ValueText(image.href)
  {
    var p := Placement(image.width, image.height);
    var a := Attr("xlink:href", EscapeXml(image.href));
    EmptyElementAround("image", p, a);
    ReadAt(BackgroundV4(image), OpenTag("image") + p, "xlink:href", image.href, "/>");
  }

  lemma AttrAround(name: string, v: string)
    ensures Attr(name, v) == (name + "=\"") + v + "\" "
  {
  }

  lemma RegroupOpacity(lt: string, tag: string, sp: string, i: string, g: string, f: string, n: string,
                       x: string, q: string, k: string, w: string, z: string)
    ensures (lt + tag + sp) + ((i + g) + (((f + (n + x + q)) + k) + w)) + z
         == lt + tag + ((sp + (i + g + f + n)) + (x + (q + k + w + z)))
  {
  }

  /** The text of an element between its tag and its `fill-opacity`
      value, and the text after that value. */
  function BeforeOpacity(it: Item): string {
    Attr("id", EscapeXml(it.id)) + GeometryAttr(it) + Attr("fill", EscapeXml(it.attr.fill)) + ("fill-opacity" + "=\"")
  }

  function AfterOpacity(it: Item): string {
    "\" " + Attr("stroke", EscapeXml(it.attr.stroke)) + Attr("stroke-width", ToJsString(it.attr.strokeWidth)) + "/>"
  }

  lemma OpacityElement(it: Item, x: string)
    requires IsShape(it) && it.attr.fillOpacity == Str(x)
    ensures ShapeElement(it) == "<" + it.tag + ((" " + BeforeOpacity(it)) + (x + AfterOpacity(it)))
  {
    ShapeElementParts(it);
    AttrAround("fill-opacity", x);
    RegroupOpacity("<", it.tag, " ", Attr("id", EscapeXml(it.id)), GeometryAttr(it), Attr("fill", EscapeXml(it.attr.fill)),
      "fill-opacity" + "=\"", x, "\" ", Attr("stroke", EscapeXml(it.attr.stroke)),
      Attr("stroke-width", ToJsString(it.attr.strokeWidth)), "/>");
  }

  lemma OpacityRunsSafe(it: Item)
    requires RawSafe(it.attr.strokeWidth)
    ensures '<' !in " " + BeforeOpacity(it) && (" " + BeforeOpacity(it))[0] == ' '
    ensures '<' !in AfterOpacity(it)
  {
    EscapedAttrSafe("id", it.id);
    GeometryAttrSafe(it);
    EscapedAttrSafe("fill", it.attr.fill);
    EscapedAttrSafe("stroke", it.attr.stroke);
    RawAttrSafe("stroke-width", it.attr.strokeWidth);
    FreeOfLt(Attr("id", EscapeXml(it.id)), GeometryAttr(it), Attr("fill", EscapeXml(it.attr.fill)), "fill-opacity" + "=\"");
    FreeOfLt("\" ", Attr("stroke", EscapeXml(it.attr.stroke)), Attr("stroke-width", ToJsString(it.attr.strokeWidth)), "/>");
    SpaceFirst(BeforeOpacity(it));
  }

  /** `fill-opacity` is inserted as it is, so an opacity holding markup adds
      an element of its own inside the shape's: here an `x`. */
  lemma OpacityNotEscaped(it: Item)
    requires IsShape(it) && RawSafe(it.attr.strokeWidth)
    ensures Tags(ShapeElement(it.(attr := it.attr.(fillOpacity := Str("<x>"))))) == [it.tag, "x"]
  {
    var jt := it.(attr := it.attr.(fillOpacity := Str("<x>")));
    OpacityElement(jt, "<x>");
    OpacityRunsSafe(jt);
    ShapeTagIsName(jt);
    OpacityInside(jt.tag, " " + BeforeOpacity(jt), AfterOpacity(jt));
  }

  lemma SpaceFirst(s: string)
    requires '<' !in s
    ensures '<' !in " " + s && (" " + s)[0] == ' '
  {
  }

  /** A shape element whose text holds `<x>` between two runs free of `<`. */
  lemma OpacityInside(tag: string, before: string, after: string)
    requires IsName(tag) && |before| > 0 && before[0] == ' '
    requires '<' !in before && '<' !in after
    ensures Tags("<" + tag + (before + ("<x>" + after))) == [tag, "x"]
  {
    var inner := "<" + "x" + (">" + after);
    assert "<x>" + after == inner;
    assert IsName("x");
    assert (before + inner)[0] == ' ';
    TagsOpen(tag, before + inner);
    TagsSkipFree(before, inner);
    TagsOpen("x", ">" + after);
    TagsFree(">" + after);
  }
}

=== FILE: text.dfy ===
/** Text helpers the editor relies on: JavaScript's rendering of integers
    (`${n}`), `Array.prototype.join`, `String.prototype.split` on one
    character, and `String.prototype.trim`. */
module Text {

  predicate IsDigit(c: char) {
    '0' <= c <= '9'
  }

  /** A character that may appear in the JavaScript rendering of an integer. */
  predicate IsNumeralChar(c: char) {
    IsDigit(c) || c == '-'
  }

  predicate IsNumeral(s: string) {
    forall i :: 0 <= i < |s| ==> IsNumeralChar(s[i])
  }

  function DigitChar(d: nat): (c: char)
    requires d < 10
    ensures IsDigit(c)
  {
    ('0' as int + d) as char
  }

  function DigitValue(c: char): nat
    requires IsDigit(c)
  {
    c as int - '0' as int
  }

  /** Decimal rendering of a natural number, without leading zeros. */
  function NatToString(n: nat): (s: string)
    ensures |s| >= 1
    ensures forall i :: 0 <= i < |s| ==> IsDigit(s[i])
    ensures s[0] == '0' ==> n == 0
  {
    if n < 10 then [DigitChar(n)]
    else NatToString(n / 10) + [DigitChar(n % 10)]
  }

  /** The string JavaScript produces for an integer-valued number. */
  function IntToString(i: int): (s: string)
    ensures |s| >= 1 && IsNumeral(s)
  {
    if i < 0 then "-" + NatToString(-i) else NatToString(i)
  }

  /** Reads a string of decimal digits back as a number. */
  function ParseNat(s: string): nat
    requires forall i :: 0 <= i < |s| ==> IsDigit(s[i])
  {
    if |s| == 0 then 0 else ParseNat(s[..|s| - 1]) * 10 + DigitValue(s[|s| - 1])
  }

  function ParseInt(s: string): int
    requires IsNumeral(s)
    requires |s| > 0 && s[0] == '-' ==> forall i :: 1 <= i < |s| ==> IsDigit(s[i])
    requires |s| > 0 && s[0] != '-' ==> forall i :: 0 <= i < |s| ==> IsDigit(s[i])
  {
    if |s| > 0 && s[0] == '-' then -(ParseNat(s[1..]) as int) else ParseNat(s)
  }

  lemma {:induction false} ParseNatToString(n: nat)
    ensures ParseNat(NatToString(n)) == n
  {
    if n >= 10 {
      var s := NatToString(n);
      assert s[..|s| - 1] == NatToString(n / 10);
      ParseNatToString(n / 10);
    }
  }

  /** The rendering of an integer reads back as that integer. */
  lemma IntToStringRoundTrip(i: int)
    ensures ParseInt(IntToString(i)) == i
  {
    if i < 0 {
      assert IntToString(i)[1..] == NatToString(-i);
      ParseNatToString(-i);
    } else {
      ParseNatToString(i);
    }
  }

  /** Different integers render differently. */
  lemma IntToStringInjective(i: int, j: int)
    ensures IntToString(i) == IntToString(j) ==> i == j
  {
    IntToStringRoundTrip(i);
    IntToStringRoundTrip(j);
  }

  lemma NatToStringInjective(i: nat, j: nat)
    ensures NatToString(i) == NatToString(j) ==> i == j
  {
    ParseNatToString(i);
    ParseNatToString(j);
  }

  /** `parts.join(sep)`. */
  function Join(parts: seq<string>, sep: string): string
  {
    if |parts| == 0 then ""
    else if |parts| == 1 then parts[0]
    else parts[0] + sep + Join(parts[1..], sep)
  }

  /** Joining two non-empty lists is joining each and putting the separator
      between. */
  lemma {:induction false} JoinAppend(a: seq<string>, b: seq<string>, sep: string)
    requires |a| >= 1 && |b| >= 1
    ensures Join(a + b, sep) == Join(a, sep) + sep + Join(b, sep)
  {
    if |a| > 1 {
      assert (a + b)[1..] == a[1..] + b;
      JoinAppend(a[1..], b, sep);
    } else {
      assert (a + b)[1..] == b;
    }
  }

  /** `s.split(c)` for a one-character separator. */
  function Split(s: string, c: char): (r: seq<string>)
    ensures |r| >= 1
  {
    if |s| == 0 then [""]
    else
      var rest := Split(s[1..], c);
      if s[0] == c then [""] + rest
      else [[s[0]] + rest[0]] + rest[1..]
  }

  lemma {:induction false} SplitFree(w: string, c: char)
    requires c !in w
    ensures Split(w, c) == [w]
  {
    if |w| > 0 {
      SplitFree(w[1..], c);
      assert [w[0]] + w[1..] == w;
    }
  }

  lemma {:induction false} SplitAtFirst(w: string, c: char, t: string)
    requires c !in w
    ensures Split(w + [c] + t, c) == [w] + Split(t, c)
  {
    if |w| == 0 {
      assert w + [c] + t == [c] + t;
      assert ([c] + t)[1..] == t;
    } else {
      var s := w + [c] + t;
      assert s[1..] == w[1..] + [c] + t;
      SplitAtFirst(w[1..], c, t);
      assert [w[0]] + w[1..] == w;
    }
  }

  /** Splitting a join on its separator gives the parts back, provided no
      part contains the separator. */
  lemma {:induction false} SplitJoin(parts: seq<string>, c: char)
    requires |parts| >= 1
    requires forall k :: 0 <= k < |parts| ==> c !in parts[k]
    ensures Split(Join(parts, [c]), c) == parts
  {
    if |parts| == 1 {
      SplitFree(parts[0], c);
    } else {
      SplitJoin(parts[1..], c);
      SplitAtFirst(parts[0], c, Join(parts[1..], [c]));
    }
  }

  /** The characters `String.prototype.trim` strips (ECMAScript WhiteSpace and
      LineTerminator). */
  predicate IsJsWhitespace(c: char) {
    var k := c as int;
    k == 0x09 || k == 0x0A || k == 0x0B || k == 0x0C || k == 0x0D || k == 0x20
    || k == 0xA0 || k == 0x1680 || (0x2000 <= k <= 0x200A) || k == 0x2028
    || k == 0x2029 || k == 0x202F || k == 0x205F || k == 0x3000 || k == 0xFEFF
  }

  function TrimStart(s: string): (r: string)
    ensures |r| <= |s| && r == s[|s| - |r|..]
    ensures |r| > 0 ==> !IsJsWhitespace(r[0])
    ensures forall i :: 0 <= i < |s| - |r| ==> IsJsWhitespace(s[i])
  {
    if |s| > 0 && IsJsWhitespace(s[0]) then TrimStart(s[1..]) else s
  }

  function TrimEnd(s: string): (r: string)
    ensures |r| <= |s| && r == s[..|r|]
    ensures |r| > 0 ==> !IsJsWhitespace(r[|r| - 1])
    ensures forall i :: |r| <= i < |s| ==> IsJsWhitespace(s[i])
  {
    if |s| > 0 && IsJsWhitespace(s[|s| - 1]) then TrimEnd(s[..|s| - 1]) else s
  }

  /** `s.trim()`: the slice of `s` between its leading and trailing white
      space. */
  function Trim(s: string): (r: string)
    ensures exists i, j ::
              && 0 <= i <= j <= |s| && r == s[i..j]
              && (forall k :: 0 <= k < i ==> IsJsWhitespace(s[k]))
              && (forall k :: j <= k < |s| ==> IsJsWhitespace(s[k]))
    ensures |r| > 0 ==> !IsJsWhitespace(r[0]) && !IsJsWhitespace(r[|r| - 1])
  {
    var a := TrimStart(s);
    var r := TrimEnd(a);
    assert r == s[|s| - |a|..|s| - |a| + |r|];
    r
  }

  /** Trimming twice is trimming once. */
  lemma TrimIdempotent(s: string)
    ensures Trim(Trim(s)) == Trim(s)
  {
    var r := Trim(s);
    assert TrimStart(r) == r;
    assert TrimEnd(r) == r;
  }

  /** A string that is nothing but white space trims to the empty string. */
  lemma TrimAllWhitespace(s: string)
    requires forall k :: 0 <= k < |s| ==> IsJsWhitespace(s[k])
    ensures Trim(s) == ""
  {
  }
}
